=== FILE: README.md ===
# open-deep-research data layer and CRM routes, in Dafny

This project models the PostgreSQL data layer of open-deep-research and the five
JSON route handlers built on it. The data layer is the drizzle schema and its
query functions. The routes are `/api/accounts`, `/api/agents`,
`/api/agent-runs`, `/api/company-info` and `/api/company`.

- `Schema` holds the tables as sequences of rows in physical order, plus the
  key, unique and foreign-key rules of the schema. `Schema.Valid` is the
  consistency invariant: keys are unique and every reference resolves.
- `Database` models what PostgreSQL does on a DELETE. A `NO ACTION` reference
  makes the statement fail. An `ON DELETE CASCADE` reference removes the
  referring rows.
- `Queries` has one function per query. Each takes a `Store` and returns a
  result and the new store. The checks happen in the database's order: a
  parameter bound to a `uuid` column must be a canonical uuid, then NOT NULL,
  then primary key and unique, then foreign key. There are no transactions:
  a query that issues several statements keeps the effects of the statements
  that ran before a failing one.
- `Integrity` proves that every mutating query keeps `Schema.Valid`.
  `QueryFacts` relates queries to each other: reading back what was written,
  the vote upsert's edge case, and the message cut-off failure.
- `Validation` models zod v3 as the routes use it:
  - per-field string, boolean, optional and default checks;
  - every string check runs, and a type error stops the field's other checks;
  - the `.format()` issue map.
- `Http` holds the JSON values, request bodies, the session and responses.
- One module per route file handles every method of that route. Each
  handler returns the response and the store.

## Model

| member | source | states |
|---|---|---|
| Queries.SaveChat | lib/db/queries.ts:56-76 | A chat is saved iff both ids are uuids, the id is new and the user exists. The new chat is appended with private visibility. A failure changes nothing. |
| Queries.DeleteChatById | lib/db/queries.ts:78-88 | The chat's votes go first. Then its messages go, which fails exactly when a vote filed under another chat refers to one of them; the vote deletion has already happened then. On success, the votes, messages, the chat itself and the chat's agent runs are gone, and nothing else changes. |
| Queries.VoteMessage | lib/db/queries.ts:135-165 | An existing vote for the message, in any chat, turns the call into an update of the votes for that chat and message. Each keeps its key and takes the new direction; the table is otherwise the same. Without one, a new vote is inserted. This fails iff the chat or the message is missing. |
| Queries.DeleteMessagesByChatIdAfterTimestamp | lib/db/queries.ts:302-321 | As written: it succeeds iff no vote refers to a message of the chat created at or after the instant. On success exactly those messages are gone; on failure nothing changes. |
| Queries.DeleteMessagesWithVotesAfterTimestamp | lib/db/queries.ts:302-321 | Corrected cut-off: it succeeds for every uuid chat id. It removes the chat's messages from the instant on and the votes on them, and nothing else. |
| Queries.SaveDocument | lib/db/queries.ts:176-202 | A new version is saved iff the ids are uuids, (id, now) is a new key and the user exists. The content is stored with the version. |
| Queries.GetDocumentById | lib/db/queries.ts:219-232 | It fails iff the id is not a uuid. Otherwise it returns a version of the document created no earlier than any other, or nothing when the document has no version. |
| Queries.DeleteDocumentsByIdAfterTimestamp | lib/db/queries.ts:234-260 | It removes the versions created strictly after the instant and their suggestions, and nothing else. Because the suggestions go first, it never fails on a uuid id. |
| Queries.SaveCompany | lib/db/queries.ts:338-363 | A company is inserted iff the user id is a uuid, the three texts are present (not null or undefined), the id is new and the user exists. |
| Queries.GetCompanyByUserId | lib/db/queries.ts:365-379 | It returns a company of the user with the greatest `updatedAt`, or nothing iff the user has none. |
| Queries.UpdateCompany | lib/db/queries.ts:381-406 | Only rows with the id change. A set text is written, a kept one stays and `updatedAt` becomes now. It fails iff the id is not a uuid, or some row would take a NULL. |
| Queries.CreateAgent | lib/db/queries.ts:409-442 | It succeeds iff the user id is a uuid, the user exists and the id is new. It returns the appended row with the given fields and both timestamps now. |
| Queries.GetAgentsByUserId | lib/db/queries.ts:444-455 | It returns the user's agents, newest first: the same rows as the filtered table, each exactly as often (equal multisets). |
| Queries.UpdateAgent | lib/db/queries.ts:471-505 | Rows with the id are patched: supplied fields are set and `updatedAt` becomes now. Other rows are untouched. It returns nothing iff no agent has the id. |
| Queries.DeleteAgent | lib/db/queries.ts:507-519 | The agent and, by cascade, its runs are removed. It returns the deleted row, or nothing iff there was none. |
| Queries.CreateAccount | lib/db/queries.ts:522-557 | It succeeds iff the user id is a uuid, the user exists and the id is new. It returns the appended row. |
| Queries.GetAccountsByUserId | lib/db/queries.ts:559-570 | It returns the user's accounts, newest first: the same rows as the filtered table, each exactly as often (equal multisets). |
| Queries.GetAccountById | lib/db/queries.ts:572-584 | It returns an account with the id, or nothing iff there is none. |
| Queries.UpdateAccount | lib/db/queries.ts:586-636 | A missing account is an error carrying the id. The update is refused iff the new website is falsy and the stored one is empty. Otherwise the account gets the supplied fields and `updatedAt`, and every other row stays. |
| Queries.DeleteAccount | lib/db/queries.ts:638-650 | The account and, by cascade, its runs are removed. It returns the deleted row, or nothing iff there was none. |
| Queries.SearchAccounts | lib/db/queries.ts:652-669 | It returns at most ten of the user's accounts whose name contains the query, ignoring case, newest first. It returns min(10, matches) rows, no row more often than it matches, and no match left out is newer than one returned, counting each copy of a repeated row separately. |
| QueryFacts.SearchFindsEveryFewMatch | lib/db/queries.ts:652-669 | With at most ten matches, the search returns every match exactly once. |
| Queries.GetCompanyInfoByWebsite | lib/db/queries.ts:671-683 | It returns a record for the website, or nothing iff no record has that website. |
| Queries.SaveCompanyInfo | lib/db/queries.ts:685-742 | For a known website, the existing record is rewritten in place and keeps its id and creation time. Otherwise a new record is appended iff the id is new. |
| Queries.CreateAgentRun | lib/db/queries.ts:744-777 | It succeeds iff the ids are uuids, the run id is new and the agent, account, chat and user exist. The run starts with status 'active'. |
| Queries.GetAgentRunsByAccountId | lib/db/queries.ts:791-802 | It returns the account's runs, newest first: the same rows as the filtered table, each exactly as often (equal multisets). |
| Queries.GetAgentRunsByAgentId | lib/db/queries.ts:804-815 | It returns the agent's runs, newest first: the same rows as the filtered table, each exactly as often (equal multisets). |
| Queries.UpdateAgentRunStatus | lib/db/queries.ts:817-839 | The runs with the id take the status and `updatedAt`. It returns nothing iff no run has the id. |
| Database.DeleteMessagesWhere | lib/db/schema.ts:57-59 | It fails iff a vote refers to a selected message, because the vote reference has no ON DELETE. |
| Database.DeleteChatsWhere | lib/db/schema.ts:39-68 | It fails iff a message or vote still refers to a selected chat. The chats' agent runs cascade, per the run's chat reference. |
| Database.DeleteDocumentsWhere | lib/db/schema.ts:109-115 | It fails iff a suggestion refers to a selected version. |
| Database.DeleteAgentsWhere | lib/db/schema.ts:198-200 | The runs of the deleted agents cascade; nothing else changes. |
| Database.DeleteAccountsWhere | lib/db/schema.ts:201-203 | The runs of the deleted accounts cascade; nothing else changes. |
| Database.DeleteUser | lib/db/schema.ts:134-209 | Chats, documents, suggestions and companies that refer to the user block the delete. On success exactly these go: the user, the user's agents and accounts, and the runs that are the user's or belong to one of those agents or accounts. Every other table is unchanged. |
| Database.DeleteUserValid | lib/db/schema.ts:134-209 | Deleting a user keeps the store consistent and leaves none of the user's agents, accounts or runs. |
| Database.DeleteMessagesWhereValid | lib/db/schema.ts:39-68 | A message delete keeps the store consistent. |
| Database.DeleteChatsWhereValid | lib/db/schema.ts:25-68 | A chat delete keeps the store consistent. |
| Database.DeleteDocumentsWhereValid | lib/db/schema.ts:71-116 | A document delete keeps the store consistent. |
| Database.DeleteAgentsWhereValid | lib/db/schema.ts:194-200 | An agent delete keeps the store consistent. |
| Database.DeleteAccountsWhereValid | lib/db/schema.ts:194-203 | An account delete keeps the store consistent. |
| Integrity.SaveChatValid | lib/db/queries.ts:56-76 | `saveChat` keeps the store consistent. |
| Integrity.DeleteChatByIdValid | lib/db/queries.ts:78-88 | `deleteChatById` keeps the store consistent, even when it fails halfway. |
| Integrity.VoteMessageValid | lib/db/queries.ts:135-165 | `voteMessage` keeps the store consistent. |
| Integrity.DeleteMessagesByChatIdAfterTimestampValid | lib/db/queries.ts:302-321 | The cut-off as written keeps the store consistent. |
| Integrity.DeleteMessagesWithVotesAfterTimestampValid | lib/db/queries.ts:302-321 | The corrected cut-off keeps the store consistent. |
| Integrity.SaveDocumentValid | lib/db/queries.ts:176-202 | `saveDocument` keeps the store consistent. |
| Integrity.DeleteDocumentsByIdAfterTimestampValid | lib/db/queries.ts:234-260 | The document cut-off keeps the store consistent. |
| Integrity.SaveCompanyValid | lib/db/queries.ts:338-363 | `saveCompany` keeps the store consistent. |
| Integrity.UpdateCompanyValid | lib/db/queries.ts:381-406 | `updateCompany` keeps the store consistent. |
| Integrity.CreateAgentValid | lib/db/queries.ts:409-442 | `createAgent` keeps the store consistent. |
| Integrity.UpdateAgentValid | lib/db/queries.ts:471-505 | `updateAgent` keeps the store consistent. |
| Integrity.DeleteAgentValid | lib/db/queries.ts:507-519 | `deleteAgent` keeps the store consistent. |
| Integrity.CreateAccountValid | lib/db/queries.ts:522-557 | `createAccount` keeps the store consistent. |
| Integrity.UpdateAccountValid | lib/db/queries.ts:586-636 | `updateAccount` keeps the store consistent. |
| Integrity.DeleteAccountValid | lib/db/queries.ts:638-650 | `deleteAccount` keeps the store consistent. |
| Integrity.SaveCompanyInfoValid | lib/db/queries.ts:685-742 | `saveCompanyInfo` keeps the store consistent; the unique website is one of the things it keeps. |
| Integrity.CreateAgentRunValid | lib/db/queries.ts:744-777 | `createAgentRun` keeps the store consistent. |
| Integrity.UpdateAgentRunStatusValid | lib/db/queries.ts:817-839 | `updateAgentRunStatus` keeps the store consistent. |
| QueryFacts.SaveCompanyInfoThenGet | lib/db/queries.ts:671-742 | After a save, looking up the website gives the saved record and no other record has that website. A rewrite keeps the id and creation time. |
| QueryFacts.UpdateAccountThenGet | lib/db/queries.ts:572-636 | After an update, reading the account by id gives the row the update returned. |
| QueryFacts.CreateAccountThenGet | lib/db/queries.ts:522-584 | After a create, reading the new id gives the created row. |
| QueryFacts.CreateAgentThenUpdate | lib/db/queries.ts:409-505 | Updating a freshly created agent returns it with exactly the supplied fields changed. |
| QueryFacts.VoteMessageRecords | lib/db/queries.ts:135-165 | A vote for (chat, message) exists afterwards iff the message had no vote or had one in that chat. Every such vote has the new direction. |
| QueryFacts.VoteFiledElsewhereIsIgnored | lib/db/queries.ts:142-155 | When the message's only votes are in other chats, the vote succeeds and changes nothing. |
| QueryFacts.DeleteChatByIdClears | lib/db/queries.ts:78-88 | In a consistent store, a successful chat delete leaves no chat, message, vote or run of that chat. |
| QueryFacts.VotedMessageBlocksCutOff | lib/db/queries.ts:302-321 | One vote on a doomed message makes the cut-off as written fail with the vote foreign-key error and change nothing. The corrected deletion removes both the message and the vote. |
| QueryFacts.CutOffFailsOnVotedChat | lib/db/queries.ts:302-321 | Concrete consistent store: one user, chat, message and vote. The cut-off at the message's instant fails as written and succeeds corrected, leaving a consistent store. |
| Validation.WebsiteAccepted | app/api/accounts/route.ts:9-15 | The website checks pass iff the text is non-empty, a URL, and starts with http:// or https://. |
| AccountsRoute.ParseCreate | app/api/accounts/route.ts:7-19 | An accepted body yields its name, website and optional fields. A non-object gets the type error, and a rejected object gets the formatted per-field issues. |
| AccountsRoute.ParseCreateAccepts | app/api/accounts/route.ts:7-19 | The create schema accepts a body iff it is an object with a non-empty name, a valid http(s) website and string-or-absent optional fields. |
| AccountsRoute.ParseCreateIssues | app/api/accounts/route.ts:7-19 | A rejected body lists issues for the name iff the name is bad, and for the website iff the website is bad. The issues are the zod messages in check order. |
| AccountsRoute.CreateMessagePrecedence | app/api/accounts/route.ts:80-93 | The 400 message names the first website issue if there is one, else the first name issue, else "Validation failed". |
| AccountsRoute.Post | app/api/accounts/route.ts:67-110 | 401 iff there is no session. 400 iff the body parses and is rejected, with the chosen message and the issues. 201 iff the body is accepted and the insert succeeds; the row appended is the user's, with the given name and website. An unparsable body gives 500 with the parser's message; a failed insert gives 500 with the database error's message. Only a 201 changes the store. |
| Validation.Headline | app/api/accounts/route.ts:80-88 | The summary is the first issue of the first field in the precedence list that has one, or "Validation failed" when none has. |
| AccountsRoute.ParseUpdate | app/api/accounts/route.ts:22-35 | An accepted body yields the id, website and supplied fields; a rejected one gets the formatted issues. |
| AccountsRoute.ParseUpdateAccepts | app/api/accounts/route.ts:22-35 | The update schema accepts iff the id is a uuid, the name is absent or non-empty, and the website is present and valid. |
| AccountsRoute.ParseUpdateIssues | app/api/accounts/route.ts:22-35 | A rejected body lists issues for id, name and website each iff that field is bad. |
| AccountsRoute.UpdateMessagePrecedence | app/api/accounts/route.ts:124-140 | The 400 message prefers the website issue, then the name issue, then the id issue, else "Validation failed". |
| AccountsRoute.Put | app/api/accounts/route.ts:113-177 | 401 iff there is no session. 400 iff the body parses and is rejected, with the chosen message and the issues. An unparsable body gives 500 with the parser's message; a failed update gives 500 with the update's error message. 200 carries exactly the row the update returned, which has the requested id and website, and the store of the update. Only a 200 changes the store. |
| AccountsRoute.NotFoundIsNotWebsiteError | app/api/accounts/route.ts:159-166 | The not-found message for a uuid never contains the website-required text, so it never takes the 400 branch. |
| AccountsRoute.PutOutcomes | app/api/accounts/route.ts:146-176 | For an accepted body, 404 and the website 400 cannot happen. A missing account answers 500 with "Account with ID … not found"; an existing one answers 200. |
| AccountsRoute.Delete | app/api/accounts/route.ts:180-214 | 400 without an id; 500 for a non-uuid; 404 iff no such account; 200 iff it existed, with the account and its runs removed. |
| AccountsRoute.Get | app/api/accounts/route.ts:38-64 | A non-empty query returns the search result; otherwise all of the user's accounts. A session id that is not a uuid gives 500. |
| AgentsRoute.ParseCreate | app/api/agents/route.ts:7-13 | Accepted iff name and instructions are non-empty strings and the optional fields have their types. An absent `isActive` becomes true and an absent `searchType` becomes "web-search". |
| AgentsRoute.ParseCreateIssues | app/api/agents/route.ts:7-13 | A rejected body lists issues for name iff the name is bad, and for instructions iff they are bad. |
| AgentsRoute.Post | app/api/agents/route.ts:47-79 | 401 iff there is no session; 400 iff the body is rejected; 201 with the appended agent iff the insert succeeds; an unparsable body or a failed insert gives 500 "Failed to create agent". |
| AgentsRoute.ParseUpdate | app/api/agents/route.ts:16-23 | Accepted iff the id is a uuid and the optional fields have their types; the fields supplied become the patch. |
| AgentsRoute.Put | app/api/agents/route.ts:82-123 | 401 iff there is no session. An unparsable body gives 500. A rejected body gives 400. No agent with the id gives 404. Otherwise 200 with exactly the row the update returned, and the updated store. |
| AgentsRoute.Delete | app/api/agents/route.ts:126-160 | 400 without an id; 404 iff no such agent; 500 for a non-uuid id; 200 iff the agent existed, with it and its runs removed. |
| AgentsRoute.DeleteIgnoresOwner | app/api/agents/route.ts:126-153 | Any signed-in user deletes another user's agent, and that agent's runs go with it. |
| AgentsRoute.Get | app/api/agents/route.ts:26-44 | 200 with the session user's agents, newest first, each exactly once; 500 when the session id is not a uuid. |
| AgentRunsRoute.Get | app/api/agent-runs/route.ts:15-50 | 401 iff there is no session. 400 iff neither parameter is given. A non-empty `accountId` wins over `agentId`. The runs returned are that account's or agent's, newest first, each exactly once. A non-uuid id gives 500; a uuid id gives 200. |
| AgentRunsRoute.AccountIdWins | app/api/agent-runs/route.ts:36-40 | With `accountId` given, `agentId` does not affect the answer. It follows from the handler's dispatch alone. |
| AgentRunsRoute.ParseCreate | app/api/agent-runs/route.ts:7-12 | Accepted iff the three ids are uuid strings and `searchType` is a string. |
| AgentRunsRoute.ParseCreateIssues | app/api/agent-runs/route.ts:7-12 | Each id field has issues iff it is not a uuid string. A string that is not a uuid gets exactly its own "Invalid … ID" message. |
| AgentRunsRoute.Post | app/api/agent-runs/route.ts:53-84 | 401 iff there is no session. 201 iff the body is accepted and the referenced rows exist. The new run belongs to the session user and is 'active'. 400 returns the issues; anything else is 500 and changes nothing. |
| CompanyInfoRoute.JsonSpan | app/api/company-info/route.ts:75 | Nothing iff no '{' comes before some '}'. Otherwise the span runs from the first '{' to the last '}'. |
| CompanyInfoRoute.ExtractJson | app/api/company-info/route.ts:75-76 | A match starts with '{', ends with '}' and is that span of the text; without a match the text is used whole. |
| CompanyInfoRoute.ExtractJsonIdempotent | app/api/company-info/route.ts:75-76 | Extracting twice gives the same text as extracting once. |
| CompanyInfoRoute.ParseRequest | app/api/company-info/route.ts:9-11 | Accepted iff the body is an object whose website is a URL string; otherwise the issues carry "Invalid website URL". |
| CompanyInfoRoute.FieldsOf | app/api/company-info/route.ts:80-87 | The save arguments exist iff every descriptive field of the parsed value is present and not null. They carry those texts. |
| CompanyInfoRoute.Post | app/api/company-info/route.ts:13-104 | 401 iff there is no session. An unparsable body gives 500 "Failed to fetch company information"; a rejected one gives 400. A cached website answers its record with the store unchanged. Otherwise no generated text gives 500 "Failed to fetch company information", and a generated text is described. |
| CompanyInfoRoute.Describe | app/api/company-info/route.ts:72-97 | 200 with the parsed value and a new record iff parsing, field extraction and the insert succeed. Otherwise 500 with the raw text and the store unchanged. |
| CompanyInfoRoute.SecondRequestIsCached | app/api/company-info/route.ts:35-40 | After a generated 200, the same request answers the saved record from the cache without generating again. |
| CompanyRoute.Get | app/api/company/route.ts:4-19 | As written: 400 iff there is no user id. A user id that is not a uuid gives 500. 200 iff the id is a uuid and the user has a company, and the body is the user's most recently updated company. Every other case is 500 "Failed to get company", including a user without a company, because serialising `undefined` throws inside the `try`. |
| CompanyRoute.GetOrNull | app/api/company/route.ts:4-19 | Corrected: 200 iff the id is present and a uuid. The body is null iff the user has no company; otherwise it is what `Get` answers. |
| CompanyRoute.MissingCompanyFails | app/api/company/route.ts:12-18 | For a uuid user with no company, the handler as written answers 500 and the corrected one answers 200 with null. |
| CompanyRoute.Post | app/api/company/route.ts:21-36 | 400 iff the user id is falsy. 200 with the appended company iff the id is a uuid, the user exists and the three texts are non-null; otherwise 500. |
| CompanyRoute.AssignmentOf | app/api/company/route.ts:41-47 | An undefined field keeps its column, null clears it, and anything else sets the driver's text. |
| CompanyRoute.Put | app/api/company/route.ts:38-52 | 400 iff the id is falsy. 200 iff the id is a uuid and either no company has it or no field is null. On 200 the store is the company update; on anything else it is unchanged. |
| CompanyRoute.PutOfMissingCompanySucceeds | app/api/company/route.ts:38-52 | An update naming no existing company answers 200 and changes nothing. |

## Left out

- Authentication, cookies, logging, the React UI and the other routes are not part of this model. The session is an input; an empty user id counts as signed out.
- HTTP transport and JSON text are not modelled. A request body is either unparsable or a JSON value. `new URL(...)` and `searchParams.get` become optional strings.
- The language-model call is left out. Its output is an input: no text means the call threw. The prompt, model choice and temperature are not modelled.
- zod's `.url()` check and `JSON.parse` of the model output are parameters (`isUrl`, `parseJson`). Their exact grammars are not modelled.
- The driver's rendering of non-string JSON values as SQL text is a parameter (`render`).
- Uuid input is modelled by the hyphenated 8-4-4-4-12 form with hexadecimal digits of either case. PostgreSQL also accepts braces, no hyphens, and hyphens after any group of four digits; those spellings count as invalid here. zod's `.uuid()` is modelled by the same predicate.
- Database error texts are approximations except `updateAccount`'s own messages, which are exact.
- Connection failures, timeouts and concurrent requests are not modelled. The read-then-write upserts (`saveCompanyInfo`, `voteMessage`) are modelled as if no other request interleaved.
- `ILIKE` is modelled as substring search after ASCII lower-casing. `%` and `_` in the query are treated as literal characters, not wildcards, and `\` is not treated as LIKE's escape character (PostgreSQL searches `a\b` as `ab`).
- Ties in ORDER BY keep physical row order. PostgreSQL leaves them unspecified.
- Each statement takes one instant `now` for `new Date()`. Generated ids are inputs.
- The drizzle update builder is assumed to drop undefined keys from SET.
- `getUser`, `createUser` (bcrypt hashing), `getChatsByUserId`, `getChatById`, `saveMessages`, `getMessagesByChatId`, `getVotesByChatId`, `getDocumentsById`, `saveSuggestions`, `getSuggestionsByDocumentId`, `getMessageById`, `updateChatVisiblityById`, `getAgentById` and `getAgentRunsByChatId` are plain reads or inserts that no modelled route calls. Their rules are those of the modelled queries.

## Findings

| source | as written | input that shows it | evidently intended | confidence | as-written member | corrected member |
|---|---|---|---|---|---|---|
| lib/db/queries.ts:302-321 | Deletes the chat's messages from the instant on in one statement. `Vote.messageId` refers to `Message.id` with no ON DELETE (lib/db/schema.ts:57-59). | A chat whose message at instant t has a vote, cut off at t: the DELETE violates `Vote_messageId_Message_id_fk` and nothing is removed. | Delete the votes on those messages first, then the messages, as `deleteChatById` does for a whole chat. | not executed | Queries.DeleteMessagesByChatIdAfterTimestamp (counterexample QueryFacts.CutOffFailsOnVotedChat) | Queries.DeleteMessagesWithVotesAfterTimestamp |
| app/api/company/route.ts:12-18 | `getCompanyByUserId` yields `undefined` for a user without a company (lib/db/queries.ts:365-379), and `NextResponse.json(undefined)` throws inside the `try`: serialising a value with no JSON text is a TypeError. | A uuid `userId` with no saved company: the answer is 500 "Failed to get company". | Answer 200 with `null`, so a user without a company is told so. The sidebar already treats the failure as "no company". | not executed | CompanyRoute.Get (counterexample CompanyRoute.MissingCompanyFails) | CompanyRoute.GetOrNull |

=== FILE: accounts_route.dfy ===
/**
 * The `/api/accounts` handlers: GET lists or searches the session user's
 * accounts, POST creates one, PUT updates one, DELETE removes one. Every
 * handler answers 401 before anything else when there is no session user.
 * zod's `.url()` is the parameter `isUrl`.
 */
module AccountsRoute {
  import opened Wrappers
  import opened Text
  import opened Schema
  import opened Database
  import opened Queries
  import opened Http
  import opened Validation

  function NameChecks(): seq<Check> {
    [MinLength1("Name is required")]
  }

  /** A field that `z.string().optional()` accepts: absent, or a string. */
  predicate OptionalText(v: Option<JsonValue>) {
    v.None? || v.value.JString?
  }

  function TextOf(v: Option<JsonValue>): Option<string>
    requires OptionalText(v)
  {
    if v.Some? then Some(v.value.str) else None
  }

  /** A non-empty string. */
  predicate NonEmptyText(v: Option<JsonValue>) {
    v.Some? && v.value.JString? && |v.value.str| >= 1
  }

  /** A string that is non-empty, a URL and http or https. */
  predicate WebsiteText(v: Option<JsonValue>, isUrl: string -> bool) {
    v.Some? && v.value.JString? && |v.value.str| >= 1 && isUrl(v.value.str) && HasWebScheme(v.value.str)
  }

  // ------------------------------------------------------------------ POST

  /** What `createAccountSchema` lets through. */
  datatype CreateRequest = CreateRequest(name: string, website: string, industry: Option<string>,
                                         description: Option<string>, logo: Option<string>)

  /** The bodies `createAccountSchema` accepts. */
  predicate CreateAccepted(body: JsonValue, isUrl: string -> bool) {
    && body.JObject?
    && NonEmptyText(Property(body, "name"))
    && WebsiteText(Property(body, "website"), isUrl)
    && OptionalText(Property(body, "industry"))
    && OptionalText(Property(body, "description"))
    && OptionalText(Property(body, "logo"))
  }

  /** `createAccountSchema.safeParse(body)` */
  function ParseCreate(body: JsonValue, isUrl: string -> bool): (r: Result<CreateRequest, FormattedErrors>)
    ensures r.Ok? ==> CreateAccepted(body, isUrl)
    ensures r.Ok? ==>
      r.value == CreateRequest(Property(body, "name").value.str, Property(body, "website").value.str,
                               TextOf(Property(body, "industry")), TextOf(Property(body, "description")),
                               TextOf(Property(body, "logo")))
    ensures r.Err? && !body.JObject? ==> r.error == NotAnObject(body)
    ensures r.Err? && body.JObject? ==> r.error.root == []
  {
    if !body.JObject? then Err(NotAnObject(body))
    else
      var name := StringField(Property(body, "name"), NameChecks());
      var website := StringField(Property(body, "website"), WebsiteChecks(isUrl));
      var industry := OptionalStringField(Property(body, "industry"), []);
      var description := OptionalStringField(Property(body, "description"), []);
      var logo := OptionalStringField(Property(body, "logo"), []);
      WebsiteField(Property(body, "website"), isUrl);
      NameField(Property(body, "name"));
      if name.Good? && website.Good? && industry.Good? && description.Good? && logo.Good? then
        Ok(CreateRequest(name.value, website.value, industry.value, description.value, logo.value))
      else
        var rest := IssuesOf("industry", industry) + IssuesOf("description", description) + IssuesOf("logo", logo);
        Err(FormattedErrors([], IssuesOf("name", name) + IssuesOf("website", website) + rest))
  }

  /** `createAccountSchema` accepts exactly the bodies whose fields meet the schema. */
  lemma ParseCreateAccepts(body: JsonValue, isUrl: string -> bool)
    ensures ParseCreate(body, isUrl).Ok? <==> CreateAccepted(body, isUrl)
  {
    WebsiteField(Property(body, "website"), isUrl);
    NameField(Property(body, "name"));
  }

  /** A rejected object body reports issues under exactly the fields that break the schema. */
  lemma ParseCreateIssues(body: JsonValue, isUrl: string -> bool)
    requires body.JObject? && ParseCreate(body, isUrl).Err?
    ensures var e := ParseCreate(body, isUrl).error;
      && (HasIssues(e, "name") <==> !NonEmptyText(Property(body, "name")))
      && (HasIssues(e, "website") <==> !WebsiteText(Property(body, "website"), isUrl))
      && (HasIssues(e, "website") ==> e.fields["website"][0] == FirstWebsiteIssue(Property(body, "website"), isUrl))
      && (HasIssues(e, "name") ==> e.fields["name"][0] == FirstNameIssue(Property(body, "name")))
  {
    var e := ParseCreate(body, isUrl).error;
    var nv, wv := Property(body, "name"), Property(body, "website");
    var name := StringField(nv, NameChecks());
    var website := StringField(wv, WebsiteChecks(isUrl));
    var rest := CreateOptionalIssues(body);
    ParseCreateFields(body, isUrl);
    OptionalIssuesKeys(body);
    IssuesOfTwo("name", name, "website", website, rest);
    WebsiteField(wv, isUrl);
    NameField(nv);
    assert HasIssues(e, "name") <==> name.Bad?;
    assert HasIssues(e, "website") <==> website.Bad?;
  }

  /** The issues of the create schema's optional fields. */
  function CreateOptionalIssues(body: JsonValue): map<string, seq<string>> {
    IssuesOf("industry", OptionalStringField(Property(body, "industry"), []))
      + IssuesOf("description", OptionalStringField(Property(body, "description"), []))
      + IssuesOf("logo", OptionalStringField(Property(body, "logo"), []))
  }

  /** The optional fields' issues are never filed under the name or the website. */
  lemma OptionalIssuesKeys(body: JsonValue)
    ensures "name" !in CreateOptionalIssues(body) && "website" !in CreateOptionalIssues(body)
  {
    var keys := ["industry", "description", "logo"];
    assert forall k :: k in CreateOptionalIssues(body) ==> k in keys;
    assert "name"[0] != "logo"[0];
    assert |"website"| !in {|"industry"|, |"description"|, |"logo"|};
    assert "name" !in keys && "website" !in keys;
  }

  /** A rejected object body's issue map: the name's, then the website's, then the optional fields'. */
  lemma ParseCreateFields(body: JsonValue, isUrl: string -> bool)
    requires body.JObject? && ParseCreate(body, isUrl).Err?
    ensures ParseCreate(body, isUrl).error.fields ==
      IssuesOf("name", StringField(Property(body, "name"), NameChecks()))
        + IssuesOf("website", StringField(Property(body, "website"), WebsiteChecks(isUrl)))
        + CreateOptionalIssues(body)
  {
  }

  /** The first issue zod reports for a website field. */
  function FirstWebsiteIssue(v: Option<JsonValue>, isUrl: string -> bool): string {
    match v
    case None => "Required"
    case Some(JString(s)) =>
      if |s| == 0 then "Website URL is required"
      else if !isUrl(s) then "Invalid URL format"
      else "URL must start with http:// or https://"
    case Some(x) => "Expected string, received " + TypeName(x)
  }

  /** The first issue zod reports for a name field. */
  function FirstNameIssue(v: Option<JsonValue>): string {
    match v
    case None => "Required"
    case Some(JString(s)) => "Name is required"
    case Some(x) => "Expected string, received " + TypeName(x)
  }

  /** What the website schema makes of a field value. */
  lemma WebsiteField(v: Option<JsonValue>, isUrl: string -> bool)
    ensures var f := StringField(v, WebsiteChecks(isUrl));
      && (f.Good? <==> WebsiteText(v, isUrl))
      && (f.Good? ==> f.value == v.value.str)
      && (f.Bad? ==> |f.issues| > 0 && f.issues[0] == FirstWebsiteIssue(v, isUrl))
  {
    var checks := WebsiteChecks(isUrl);
    if v.Some? && v.value.JString? {
      var s := v.value.str;
      WebsiteAccepted(isUrl, s);
      var failed := Failures(s, checks);
      if |s| >= 1 && !isUrl(s) {
        assert Failures(s, checks) == Failures(s, checks[1..]);
        assert checks[1..][0].message == "Invalid URL format";
      } else if |s| >= 1 && isUrl(s) && !HasWebScheme(s) {
        assert Failures(s, checks) == Failures(s, checks[1..]);
        assert Failures(s, checks[1..]) == Failures(s, checks[1..][1..]);
        assert checks[1..][1..][0].message == "URL must start with http:// or https://";
      }
    }
  }

  /** What the name schema makes of a field value. */
  lemma NameField(v: Option<JsonValue>)
    ensures var f := StringField(v, NameChecks());
      && (f.Good? <==> NonEmptyText(v))
      && (f.Good? ==> f.value == v.value.str)
      && (f.Bad? ==> |f.issues| > 0 && f.issues[0] == FirstNameIssue(v))
  {
    if v.Some? && v.value.JString? {
      assert NameChecks()[0].holds(v.value.str) <==> |v.value.str| >= 1;
    }
  }

  /**
   * The create handler's 400 message: the website's first issue if the website is rejected,
   * else the name's, else the generic text (a non-object body, or only optional fields wrong).
   */
  lemma CreateMessagePrecedence(body: JsonValue, isUrl: string -> bool)
    requires ParseCreate(body, isUrl).Err?
    ensures Headline(ParseCreate(body, isUrl).error, CreatePrecedence) ==
      if !body.JObject? then "Validation failed"
      else if !WebsiteText(Property(body, "website"), isUrl) then FirstWebsiteIssue(Property(body, "website"), isUrl)
      else if !NonEmptyText(Property(body, "name")) then FirstNameIssue(Property(body, "name"))
      else "Validation failed"
  {
    var e := ParseCreate(body, isUrl).error;
    if body.JObject? {
      ParseCreateIssues(body, isUrl);
      assert CreatePrecedence[0] == "website" && CreatePrecedence[1] == "name";
    } else {
      assert !HasIssues(e, "website") && !HasIssues(e, "name");
    }
  }

  /** The order in which the create handler picks the issue it reports. */
  const CreatePrecedence := ["website", "name"]

  /** `POST /api/accounts` */
  function Post(s: Store, session: Option<Id>, body: RequestBody, isUrl: string -> bool, newId: Id, now: Time)
    : (r: Handled)
    ensures !SignedIn(session) ==> r == Unauthorized(s)
    ensures SignedIn(session) ==> r.response.status != 401
    ensures r.response.status in {201, 400, 401, 500}
    ensures r.response.status != 201 ==> r.store == s
    ensures r.response.status == 201 <==>
      && SignedIn(session) && body.Parsed? && ParseCreate(body.value, isUrl).Ok?
      && CreateAccount(s, NewAccountOf(ParseCreate(body.value, isUrl).value, session.value), newId, now).result.Ok?
    ensures r.response.status == 201 ==>
      && r.response.body.AccountRow?
      && r.response.body.account.userId == session.value
      && r.response.body.account.name == ParseCreate(body.value, isUrl).value.name
      && r.response.body.account.website == ParseCreate(body.value, isUrl).value.website
      && r.store == s.(accounts := s.accounts + [r.response.body.account])
    ensures r.response.status == 400 <==> SignedIn(session) && body.Parsed? && ParseCreate(body.value, isUrl).Err?
    ensures r.response.status == 400 ==>
      var details := ParseCreate(body.value, isUrl).error;
      r.response.body == InvalidRequest(Headline(details, CreatePrecedence), details)
    ensures SignedIn(session) && body.Unparsable? ==> r == Reply(500, Error(body.message), s)
    ensures r.response.status == 500 && body.Parsed? ==>
      var out := CreateAccount(s, NewAccountOf(ParseCreate(body.value, isUrl).value, session.value), newId, now);
      r.response.body == Error(ErrorMessage(out.result.error))
  {
    if !SignedIn(session) then Unauthorized(s)
    else
      match body
      case Unparsable(message) => Reply(500, Error(message), s)
      case Parsed(json) =>
        match ParseCreate(json, isUrl)
        case Err(details) => Reply(400, InvalidRequest(Headline(details, CreatePrecedence), details), s)
        case Ok(request) =>
          var out := CreateAccount(s, NewAccountOf(request, session.value), newId, now);
          match out.result
          case Err(e) => Reply(500, Error(ErrorMessage(e)), s)
          case Ok(account) => Reply(201, AccountRow(account), out.store)
  }

  /** The `createAccount` call: the validated fields, owned by the session user. */
  function NewAccountOf(request: CreateRequest, userId: Id): NewAccount {
    NewAccount(request.name, request.website, request.industry, request.description, request.logo, userId)
  }

  // ------------------------------------------------------------------- PUT

  /** What `updateAccountSchema` lets through: the website is required, the rest optional. */
  datatype UpdateRequest = UpdateRequest(id: Id, name: Option<string>, website: string, industry: Option<string>,
                                         description: Option<string>, logo: Option<string>)

  predicate UuidText(v: Option<JsonValue>) {
    v.Some? && v.value.JString? && IsUuid(v.value.str)
  }

  /** An optional name: absent, or a non-empty string. */
  predicate OptionalName(v: Option<JsonValue>) {
    v.None? || NonEmptyText(v)
  }

  /** The bodies `updateAccountSchema` accepts. */
  predicate UpdateAccepted(body: JsonValue, isUrl: string -> bool) {
    && body.JObject?
    && UuidText(Property(body, "id"))
    && OptionalName(Property(body, "name"))
    && WebsiteText(Property(body, "website"), isUrl)
    && OptionalText(Property(body, "industry"))
    && OptionalText(Property(body, "description"))
    && OptionalText(Property(body, "logo"))
  }

  /** Each field of an update body run through its schema. */
  datatype UpdateFields = UpdateFields(id: Field<string>, name: Field<Option<string>>, website: Field<string>,
                                       industry: Field<Option<string>>, description: Field<Option<string>>,
                                       logo: Field<Option<string>>)

  function ReadUpdate(body: JsonValue, isUrl: string -> bool): UpdateFields {
    UpdateFields(StringField(Property(body, "id"), [UuidCheck("Invalid account ID")]),
                 OptionalStringField(Property(body, "name"), NameChecks()),
                 StringField(Property(body, "website"), WebsiteChecks(isUrl)),
                 OptionalStringField(Property(body, "industry"), []),
                 OptionalStringField(Property(body, "description"), []),
                 OptionalStringField(Property(body, "logo"), []))
  }

  /** The `.format()` field entries of an update body. */
  function UpdateIssues(f: UpdateFields): (m: map<string, seq<string>>)
    ensures ("id" in m <==> f.id.Bad?) && (f.id.Bad? ==> m["id"] == f.id.issues)
    ensures ("name" in m <==> f.name.Bad?) && (f.name.Bad? ==> m["name"] == f.name.issues)
    ensures ("website" in m <==> f.website.Bad?) && (f.website.Bad? ==> m["website"] == f.website.issues)
  {
    var others := IssuesOf("industry", f.industry) + IssuesOf("description", f.description)
                  + IssuesOf("logo", f.logo);
    assert "name"[0] != "logo"[0];
    assert "name" !in others && "website" !in others && "id" !in others;
    var rest := IssuesOf("id", f.id) + others;
    IssuesOfTwo("name", f.name, "website", f.website, rest);
    IssuesOf("name", f.name) + IssuesOf("website", f.website) + rest
  }

  /** `updateAccountSchema.safeParse(body)` */
  function ParseUpdate(body: JsonValue, isUrl: string -> bool): (r: Result<UpdateRequest, FormattedErrors>)
    ensures r.Ok? ==> UpdateAccepted(body, isUrl)
    ensures r.Ok? ==>
      r.value == UpdateRequest(Property(body, "id").value.str, TextOf(Property(body, "name")),
                               Property(body, "website").value.str, TextOf(Property(body, "industry")),
                               TextOf(Property(body, "description")), TextOf(Property(body, "logo")))
    ensures r.Err? && !body.JObject? ==> r.error == NotAnObject(body)
    ensures r.Err? && body.JObject? ==> r.error == FormattedErrors([], UpdateIssues(ReadUpdate(body, isUrl)))
  {
    if !body.JObject? then Err(NotAnObject(body))
    else
      var f := ReadUpdate(body, isUrl);
      WebsiteField(Property(body, "website"), isUrl);
      NameField(Property(body, "name"));
      if f.id.Good? && f.name.Good? && f.website.Good? && f.industry.Good? && f.description.Good? && f.logo.Good? then
        Ok(UpdateRequest(f.id.value, f.name.value, f.website.value, f.industry.value, f.description.value,
                         f.logo.value))
      else
        Err(FormattedErrors([], UpdateIssues(f)))
  }

  /** `updateAccountSchema` accepts exactly the bodies whose fields meet the schema. */
  lemma ParseUpdateAccepts(body: JsonValue, isUrl: string -> bool)
    ensures ParseUpdate(body, isUrl).Ok? <==> UpdateAccepted(body, isUrl)
  {
    WebsiteField(Property(body, "website"), isUrl);
    NameField(Property(body, "name"));
    IdField(Property(body, "id"));
  }

  /** The first issue zod reports for an account id field. */
  function FirstIdIssue(v: Option<JsonValue>): string {
    match v
    case None => "Required"
    case Some(JString(s)) => "Invalid account ID"
    case Some(x) => "Expected string, received " + TypeName(x)
  }

  /** What the account id schema makes of a field value. */
  lemma IdField(v: Option<JsonValue>)
    ensures var f := StringField(v, [UuidCheck("Invalid account ID")]);
      && (f.Good? <==> UuidText(v))
      && (f.Bad? ==> |f.issues| > 0 && f.issues[0] == FirstIdIssue(v))
  {
  }

  /** A rejected object body reports issues under exactly the fields that break the schema. */
  lemma ParseUpdateIssues(body: JsonValue, isUrl: string -> bool)
    requires body.JObject? && ParseUpdate(body, isUrl).Err?
    ensures var e := ParseUpdate(body, isUrl).error;
      && (HasIssues(e, "name") <==> !OptionalName(Property(body, "name")))
      && (HasIssues(e, "website") <==> !WebsiteText(Property(body, "website"), isUrl))
      && (HasIssues(e, "id") <==> !UuidText(Property(body, "id")))
      && (HasIssues(e, "website") ==> e.fields["website"][0] == FirstWebsiteIssue(Property(body, "website"), isUrl))
      && (HasIssues(e, "name") ==> e.fields["name"][0] == FirstNameIssue(Property(body, "name")))
      && (HasIssues(e, "id") ==> e.fields["id"][0] == FirstIdIssue(Property(body, "id")))
  {
    var f := ReadUpdate(body, isUrl);
    WebsiteField(Property(body, "website"), isUrl);
    OptionalNameField(Property(body, "name"));
    IdField(Property(body, "id"));
  }

  /** What the optional name schema of the update makes of a field value. */
  lemma OptionalNameField(v: Option<JsonValue>)
    ensures var f := OptionalStringField(v, NameChecks());
      && (f.Good? <==> OptionalName(v))
      && (f.Bad? ==> |f.issues| > 0 && f.issues[0] == FirstNameIssue(v))
  {
    NameField(v);
  }

  /**
   * The update handler's 400 message: the website's first issue if the website is rejected,
   * else the name's, else the id's, else the generic text.
   */
  lemma UpdateMessagePrecedence(body: JsonValue, isUrl: string -> bool)
    requires ParseUpdate(body, isUrl).Err?
    ensures Headline(ParseUpdate(body, isUrl).error, UpdatePrecedence) ==
      if !body.JObject? then "Validation failed"
      else if !WebsiteText(Property(body, "website"), isUrl) then FirstWebsiteIssue(Property(body, "website"), isUrl)
      else if !OptionalName(Property(body, "name")) then FirstNameIssue(Property(body, "name"))
      else if !UuidText(Property(body, "id")) then FirstIdIssue(Property(body, "id"))
      else "Validation failed"
  {
    var e := ParseUpdate(body, isUrl).error;
    if body.JObject? {
      ParseUpdateIssues(body, isUrl);
      assert UpdatePrecedence[0] == "website" && UpdatePrecedence[1] == "name" && UpdatePrecedence[2] == "id";
    } else {
      assert !HasIssues(e, "website") && !HasIssues(e, "name") && !HasIssues(e, "id");
    }
  }

  /** The order in which the update handler picks the issue it reports. */
  const UpdatePrecedence := ["website", "name", "id"]

  /** The `updateAccount` call: every validated field, the website always supplied. */
  function PatchOf(request: UpdateRequest): AccountPatch {
    AccountPatch(request.id, request.name, Some(request.website), request.industry, request.description, request.logo)
  }

  const WebsiteRequiredText := "Website URL is required"

  /** `PUT /api/accounts` */
  function Put(s: Store, session: Option<Id>, body: RequestBody, isUrl: string -> bool, now: Time): (r: Handled)
    ensures !SignedIn(session) ==> r == Unauthorized(s)
    ensures SignedIn(session) ==> r.response.status != 401
    ensures r.response.status in {200, 400, 401, 404, 500}
    ensures r.response.status != 200 ==> r.store == s
    ensures r.response.status == 400 <==> SignedIn(session) && body.Parsed? && ParseUpdate(body.value, isUrl).Err?
    ensures r.response.status == 400 ==>
      var details := ParseUpdate(body.value, isUrl).error;
      r.response.body == InvalidRequest(Headline(details, UpdatePrecedence), details)
    ensures SignedIn(session) && body.Unparsable? ==> r == Reply(500, Error(body.message), s)
    ensures r.response.status == 500 && body.Parsed? ==>
      var out := UpdateAccount(s, PatchOf(ParseUpdate(body.value, isUrl).value), now);
      && out.result.Err?
      && r.response.body == Error(ErrorMessage(out.result.error))
    ensures r.response.status == 200 ==>
      && body.Parsed? && ParseUpdate(body.value, isUrl).Ok?
      && var request := ParseUpdate(body.value, isUrl).value;
         && r.response.body.AccountRow?
         && r.response.body.account.id == request.id
         && r.response.body.account.website == request.website
         && UpdateAccount(s, PatchOf(request), now).result == Ok(Some(r.response.body.account))
         && r.store == UpdateAccount(s, PatchOf(request), now).store
  {
    if !SignedIn(session) then Unauthorized(s)
    else
      match body
      case Unparsable(message) => Reply(500, Error(message), s)
      case Parsed(json) =>
        match ParseUpdate(json, isUrl)
        case Err(details) => Reply(400, InvalidRequest(Headline(details, UpdatePrecedence), details), s)
        case Ok(request) =>
          var out := UpdateAccount(s, PatchOf(request), now);
          match out.result
          case Err(e) =>
            NotFoundIsNotWebsiteError(request.id);
            if Contains(ErrorMessage(e), WebsiteRequiredText) then Reply(400, Error(WebsiteRequiredText), s)
            else Reply(500, Error(ErrorMessage(e)), s)
          case Ok(None) => Reply(404, Error("Account not found"), s)
          case Ok(Some(account)) => Reply(200, AccountRow(account), out.store)
  }

  /** No character of an account-not-found message for a uuid is a 'W'. */
  lemma NotFoundMessageHasNoW(id: Id, k: int)
    requires IsUuid(id)
    requires 0 <= k < |ErrorMessage(AccountNotFound(id))|
    ensures ErrorMessage(AccountNotFound(id))[k] != 'W'
  {
    var m := ErrorMessage(AccountNotFound(id));
    var prefix := "Account with ID ";
    assert m == prefix + id + " not found";
    if k < |prefix| {
      assert m[k] == prefix[k];
    } else if k < |prefix| + 36 {
      assert m[k] == id[k - |prefix|];
    } else {
      assert m[k] == " not found"[k - |prefix| - 36];
    }
  }

  /** The not-found error for a uuid never mentions the website requirement. */
  lemma NotFoundIsNotWebsiteError(id: Id)
    requires IsUuid(id)
    ensures !Contains(ErrorMessage(AccountNotFound(id)), WebsiteRequiredText)
  {
    var m := ErrorMessage(AccountNotFound(id));
    ContainsIsOccurrence(m, WebsiteRequiredText);
    if exists i :: OccursAt(m, WebsiteRequiredText, i) {
      var i :| OccursAt(m, WebsiteRequiredText, i);
      assert m[i..i + |WebsiteRequiredText|][0] == 'W';
      NotFoundMessageHasNoW(id, i);
    }
  }

  /**
   * Because the schema demands a valid website, the store's website guard and the handler's
   * 404 branch are unreachable; a missing account comes back as 500 carrying the store's
   * not-found message.
   */
  lemma PutOutcomes(s: Store, session: Option<Id>, body: RequestBody, isUrl: string -> bool, now: Time)
    requires SignedIn(session) && body.Parsed? && ParseUpdate(body.value, isUrl).Ok?
    ensures var r := Put(s, session, body, isUrl, now);
      var id := ParseUpdate(body.value, isUrl).value.id;
      && r.response.status != 404
      && r.response.status != 400
      && ((forall a :: a in s.accounts ==> a.id != id) ==>
            r == Reply(500, Error("Account with ID " + id + " not found"), s))
      && ((exists a :: a in s.accounts && a.id == id) ==> r.response.status == 200)
  {
    var request := ParseUpdate(body.value, isUrl).value;
    var out := UpdateAccount(s, PatchOf(request), now);
    assert IsUuid(request.id) && request.website != "";
    if forall a :: a in s.accounts ==> a.id != request.id {
      NotFoundIsNotWebsiteError(request.id);
      assert out == Fail(AccountNotFound(request.id), s);
    } else {
      assert !WebsiteMissing(PatchOf(request), AccountWithId(s, request.id).value);
      assert out.result.Ok? && out.result.value.Some?;
    }
  }

  // ---------------------------------------------------------------- DELETE

  /** `DELETE /api/accounts?id=...` */
  function Delete(s: Store, session: Option<Id>, id: Option<string>): (r: Handled)
    ensures !SignedIn(session) ==> r == Unauthorized(s)
    ensures SignedIn(session) ==> r.response.status != 401
    ensures SignedIn(session) && !Present(id) ==> r == Reply(400, Error("Account ID is required"), s)
    ensures r.response.status == 200 <==>
      SignedIn(session) && Present(id) && IsUuid(id.value) && id.value in AccountIds(s)
    ensures r.response.status == 200 ==> r.response.body == Success && r.store == DeleteAccount(s, id.value).store
    ensures SignedIn(session) && Present(id) && IsUuid(id.value) && id.value !in AccountIds(s) ==>
      r == Reply(404, Error("Account not found"), s)
    ensures SignedIn(session) && Present(id) && !IsUuid(id.value) ==>
      r == Reply(500, Error("Failed to delete account"), s)
  {
    if !SignedIn(session) then Unauthorized(s)
    else if !Present(id) then Reply(400, Error("Account ID is required"), s)
    else
      var out := DeleteAccount(s, id.value);
      match out.result
      case Err(_) => Reply(500, Error("Failed to delete account"), s)
      case Ok(None) => Reply(404, Error("Account not found"), s)
      case Ok(Some(_)) => Reply(200, Success, out.store)
  }

  // ------------------------------------------------------------------- GET

  /** `GET /api/accounts[?query=...]`: a non-empty query searches, otherwise all are listed. */
  function Get(s: Store, session: Option<Id>, query: Option<string>): (r: Handled)
    ensures !SignedIn(session) ==> r == Unauthorized(s)
    ensures SignedIn(session) ==> r.response.status != 401
    ensures r.store == s
    ensures r.response.status in {200, 401, 500}
    ensures SignedIn(session) && !IsUuid(session.value) ==> r.response == Response(500, Error("Failed to get accounts"))
    ensures SignedIn(session) && IsUuid(session.value) && Present(query) ==>
      r.response == Response(200, AccountList(SearchAccounts(s, query.value, session.value).value))
    ensures SignedIn(session) && IsUuid(session.value) && !Present(query) ==>
      r.response == Response(200, AccountList(GetAccountsByUserId(s, session.value).value))
  {
    if !SignedIn(session) then Unauthorized(s)
    else
      var found := if Present(query) then SearchAccounts(s, query.value, session.value)
                   else GetAccountsByUserId(s, session.value);
      match found
      case Err(_) => Reply(500, Error("Failed to get accounts"), s)
      case Ok(accounts) => Reply(200, AccountList(accounts), s)
  }
}

=== FILE: agent_runs_route.dfy ===
/**
 * The `/api/agent-runs` handlers: GET lists the runs of an account or of an
 * agent, POST records a new run for the session user. Both answer 401 before
 * anything else when there is no session user.
 */
module AgentRunsRoute {
  import opened Wrappers
  import opened Text
  import opened Tables
  import opened Schema
  import opened Database
  import opened Queries
  import opened Http
  import opened Validation

  // ------------------------------------------------------------------- GET

  /**
   * `GET /api/agent-runs?accountId=...&agentId=...`: a non-empty `accountId` wins over
   * `agentId`; with neither the request is refused.
   */
  function Get(s: Store, session: Option<Id>, accountId: Option<string>, agentId: Option<string>): (r: Handled)
    ensures !SignedIn(session) ==> r == Unauthorized(s)
    ensures SignedIn(session) ==> r.response.status != 401
    ensures r.store == s
    ensures r.response.status in {200, 400, 401, 500}
    ensures r.response.status == 400 <==> SignedIn(session) && !Present(accountId) && !Present(agentId)
    ensures r.response.status == 400 ==> r.response.body == Error("Either accountId or agentId is required")
    ensures r.response.status == 500 <==>
      SignedIn(session) &&
      (if Present(accountId) then !IsUuid(accountId.value) else Present(agentId) && !IsUuid(agentId.value))
    ensures r.response.status == 500 ==> r.response.body == Error("Failed to get agent runs")
    ensures r.response.status == 200 && Present(accountId) ==>
      && r.response.body.RunList?
      && SortedDesc(r.response.body.runs, RunCreated)
      && (forall x :: x in r.response.body.runs <==> x in s.agentRuns && x.accountId == accountId.value)
      && multiset(r.response.body.runs) == multiset(RunsOfAccount(s, accountId.value))
    ensures r.response.status == 200 && !Present(accountId) ==>
      && r.response.body.RunList?
      && SortedDesc(r.response.body.runs, RunCreated)
      && (forall x :: x in r.response.body.runs <==> x in s.agentRuns && x.agentId == agentId.value)
      && multiset(r.response.body.runs) == multiset(RunsOfAgent(s, agentId.value))
  {
    if !SignedIn(session) then Unauthorized(s)
    else if !Present(accountId) && !Present(agentId) then
      Reply(400, Error("Either accountId or agentId is required"), s)
    else
      var found := if Present(accountId) then GetAgentRunsByAccountId(s, accountId.value)
                   else GetAgentRunsByAgentId(s, agentId.value);
      match found
      case Err(_) => Reply(500, Error("Failed to get agent runs"), s)
      case Ok(runs) => Reply(200, RunList(runs), s)
  }

  /** With both parameters given, the agent filter is ignored. */
  lemma AccountIdWins(s: Store, session: Option<Id>, accountId: string, agentId: Option<string>)
    requires SignedIn(session) && accountId != ""
    ensures Get(s, session, Some(accountId), agentId) == Get(s, session, Some(accountId), None)
  {
  }

  // ------------------------------------------------------------------ POST

  /** What `createAgentRunSchema` lets through. */
  datatype CreateRequest = CreateRequest(agentId: Id, accountId: Id, chatId: Id, searchType: string)

  /** Each field of a create body run through its schema. */
  datatype CreateFields = CreateFields(agentId: Field<string>, accountId: Field<string>, chatId: Field<string>,
                                       searchType: Field<string>)

  function ReadCreate(body: JsonValue): CreateFields {
    CreateFields(StringField(Property(body, "agentId"), [UuidCheck("Invalid agent ID")]),
                 StringField(Property(body, "accountId"), [UuidCheck("Invalid account ID")]),
                 StringField(Property(body, "chatId"), [UuidCheck("Invalid chat ID")]),
                 StringField(Property(body, "searchType"), []))
  }

  /** A string that is a uuid. */
  predicate UuidText(v: Option<JsonValue>) {
    v.Some? && v.value.JString? && IsUuid(v.value.str)
  }

  /** A string that is not a uuid. */
  predicate NonUuidText(v: Option<JsonValue>) {
    v.Some? && v.value.JString? && !IsUuid(v.value.str)
  }

  /** The bodies `createAgentRunSchema` accepts. */
  predicate CreateAccepted(body: JsonValue) {
    && body.JObject?
    && UuidText(Property(body, "agentId"))
    && UuidText(Property(body, "accountId"))
    && UuidText(Property(body, "chatId"))
    && Property(body, "searchType").Some? && Property(body, "searchType").value.JString?
  }

  /** The `.format()` field entries of a create body. */
  function CreateIssues(f: CreateFields): (m: map<string, seq<string>>)
    ensures ("agentId" in m <==> f.agentId.Bad?) && (f.agentId.Bad? ==> m["agentId"] == f.agentId.issues)
    ensures ("accountId" in m <==> f.accountId.Bad?) && (f.accountId.Bad? ==> m["accountId"] == f.accountId.issues)
    ensures ("chatId" in m <==> f.chatId.Bad?) && (f.chatId.Bad? ==> m["chatId"] == f.chatId.issues)
  {
    var rest := IssuesOf("chatId", f.chatId) + IssuesOf("searchType", f.searchType);
    assert "chatId"[0] != "searchType"[0];
    assert "chatId" in rest <==> f.chatId.Bad?;
    assert "agentId" !in rest && "accountId" !in rest;
    assert "agentId"[1] != "accountId"[1];
    IssuesOfTwo("agentId", f.agentId, "accountId", f.accountId, rest);
    IssuesOf("agentId", f.agentId) + IssuesOf("accountId", f.accountId) + rest
  }

  /** `createAgentRunSchema.safeParse(body)` */
  function ParseCreate(body: JsonValue): (r: Result<CreateRequest, FormattedErrors>)
    ensures r.Ok? <==> CreateAccepted(body)
    ensures r.Ok? ==>
      r.value == CreateRequest(Property(body, "agentId").value.str, Property(body, "accountId").value.str,
                               Property(body, "chatId").value.str, Property(body, "searchType").value.str)
    ensures r.Err? && !body.JObject? ==> r.error == NotAnObject(body)
    ensures r.Err? && body.JObject? ==> r.error == FormattedErrors([], CreateIssues(ReadCreate(body)))
  {
    if !body.JObject? then Err(NotAnObject(body))
    else
      var f := ReadCreate(body);
      if f.agentId.Good? && f.accountId.Good? && f.chatId.Good? && f.searchType.Good? then
        Ok(CreateRequest(f.agentId.value, f.accountId.value, f.chatId.value, f.searchType.value))
      else
        Err(FormattedErrors([], CreateIssues(f)))
  }

  /** A rejected object body names each id field that is not a uuid string, and only those. */
  lemma ParseCreateIssues(body: JsonValue)
    requires body.JObject? && !CreateAccepted(body)
    ensures var e := ParseCreate(body).error;
      && (HasIssues(e, "agentId") <==> !UuidText(Property(body, "agentId")))
      && (HasIssues(e, "accountId") <==> !UuidText(Property(body, "accountId")))
      && (HasIssues(e, "chatId") <==> !UuidText(Property(body, "chatId")))
      && (NonUuidText(Property(body, "agentId")) ==> e.fields["agentId"] == ["Invalid agent ID"])
      && (NonUuidText(Property(body, "accountId")) ==> e.fields["accountId"] == ["Invalid account ID"])
      && (NonUuidText(Property(body, "chatId")) ==> e.fields["chatId"] == ["Invalid chat ID"])
  {
    var f := ReadCreate(body);
    assert f.agentId.Good? <==> UuidText(Property(body, "agentId"));
  }

  /** The `createAgentRun` call: the validated fields, run by the session user. */
  function NewRunOf(request: CreateRequest, userId: Id): NewRun {
    NewRun(request.agentId, request.accountId, request.chatId, userId, request.searchType)
  }

  /**
   * `POST /api/agent-runs`. A new run starts 'active' and belongs to the session user; the
   * agent, account and chat must exist but need not be the user's.
   */
  function Post(s: Store, session: Option<Id>, body: RequestBody, newId: Id, now: Time): (r: Handled)
    ensures !SignedIn(session) ==> r == Unauthorized(s)
    ensures SignedIn(session) ==> r.response.status != 401
    ensures r.response.status in {201, 400, 401, 500}
    ensures r.response.status != 201 ==> r.store == s
    ensures r.response.status == 400 <==> SignedIn(session) && body.Parsed? && !CreateAccepted(body.value)
    ensures r.response.status == 400 ==> r.response.body == Issues(ParseCreate(body.value).error)
    ensures r.response.status == 500 ==> r.response.body == Error("Failed to create agent run")
    ensures SignedIn(session) && body.Unparsable? ==> r == Reply(500, Error("Failed to create agent run"), s)
    ensures r.response.status == 201 <==>
      && SignedIn(session) && body.Parsed? && CreateAccepted(body.value)
      && IsUuid(session.value) && newId !in RunIds(s)
      && RunTargetsExist(s, NewRunOf(ParseCreate(body.value).value, session.value))
    ensures r.response.status == 201 ==>
      var request := ParseCreate(body.value).value;
      var run := AgentRun(newId, request.agentId, request.accountId, request.chatId, session.value,
                          request.searchType, "active", now, now);
      && r.response.body == RunRow(run)
      && r.store == s.(agentRuns := s.agentRuns + [run])
  {
    if !SignedIn(session) then Unauthorized(s)
    else
      match body
      case Unparsable(_) => Reply(500, Error("Failed to create agent run"), s)
      case Parsed(json) =>
        match ParseCreate(json)
        case Err(details) => Reply(400, Issues(details), s)
        case Ok(request) =>
          var out := CreateAgentRun(s, NewRunOf(request, session.value), newId, now);
          match out.result
          case Err(_) => Reply(500, Error("Failed to create agent run"), s)
          case Ok(run) => Reply(201, RunRow(run), out.store)
  }
}

=== FILE: agents_route.dfy ===
/**
 * The `/api/agents` handlers: GET lists the session user's agents, POST
 * creates one, PUT updates one, DELETE removes one. Every handler answers 401
 * before anything else when there is no session user; a validation failure is
 * a 400 carrying zod's formatted issues, and anything thrown is a 500 with a
 * fixed message per handler.
 */
module AgentsRoute {
  import opened Wrappers
  import opened Text
  import opened Tables
  import opened Schema
  import opened Database
  import opened Queries
  import opened Http
  import opened Validation

  function NameChecks(): seq<Check> {
    [MinLength1("Name is required")]
  }

  function InstructionChecks(): seq<Check> {
    [MinLength1("Instructions are required")]
  }

  /** A non-empty string. */
  predicate NonEmptyText(v: Option<JsonValue>) {
    v.Some? && v.value.JString? && |v.value.str| >= 1
  }

  /** Absent, or a string. */
  predicate OptionalText(v: Option<JsonValue>) {
    v.None? || v.value.JString?
  }

  /** Absent, or a boolean. */
  predicate OptionalBool(v: Option<JsonValue>) {
    v.None? || v.value.JBool?
  }

  /** Absent, or a non-empty string. */
  predicate OptionalNonEmpty(v: Option<JsonValue>) {
    v.None? || NonEmptyText(v)
  }

  // ------------------------------------------------------------------ POST

  /** What `createAgentSchema` lets through, defaults filled in. */
  datatype CreateRequest = CreateRequest(name: string, description: Option<string>, instructions: string,
                                         isActive: bool, searchType: string)

  /** Each field of a create body run through its schema. */
  datatype CreateFields = CreateFields(name: Field<string>, description: Field<Option<string>>,
                                       instructions: Field<string>, isActive: Field<bool>,
                                       searchType: Field<string>)

  /** `isActive` defaults to true and `searchType` to 'web-search', as the table's own defaults do. */
  function ReadCreate(body: JsonValue): CreateFields {
    CreateFields(StringField(Property(body, "name"), NameChecks()),
                 OptionalStringField(Property(body, "description"), []),
                 StringField(Property(body, "instructions"), InstructionChecks()),
                 BooleanField(Property(body, "isActive"), DefaultAgentIsActive),
                 DefaultStringField(Property(body, "searchType"), DefaultAgentSearchType))
  }

  /** The `.format()` field entries of a create body. */
  function CreateIssues(f: CreateFields): (m: map<string, seq<string>>)
    ensures ("name" in m <==> f.name.Bad?) && (f.name.Bad? ==> m["name"] == f.name.issues)
    ensures ("instructions" in m <==> f.instructions.Bad?) &&
            (f.instructions.Bad? ==> m["instructions"] == f.instructions.issues)
  {
    var rest := IssuesOf("description", f.description) + IssuesOf("isActive", f.isActive)
                + IssuesOf("searchType", f.searchType);
    assert "name"[0] != "searchType"[0] && "instructions"[0] != "searchType"[0];
    assert "name" !in rest && "instructions" !in rest;
    IssuesOfTwo("name", f.name, "instructions", f.instructions, rest);
    IssuesOf("name", f.name) + IssuesOf("instructions", f.instructions) + rest
  }

  /** The bodies `createAgentSchema` accepts. */
  predicate CreateAccepted(body: JsonValue) {
    && body.JObject?
    && NonEmptyText(Property(body, "name"))
    && OptionalText(Property(body, "description"))
    && NonEmptyText(Property(body, "instructions"))
    && OptionalBool(Property(body, "isActive"))
    && OptionalText(Property(body, "searchType"))
  }

  /** `createAgentSchema.safeParse(body)` */
  function ParseCreate(body: JsonValue): (r: Result<CreateRequest, FormattedErrors>)
    ensures r.Ok? <==> CreateAccepted(body)
    ensures r.Ok? ==>
      && r.value.name == Property(body, "name").value.str
      && r.value.instructions == Property(body, "instructions").value.str
      && (Property(body, "description").None? ==> r.value.description.None?)
      && (Property(body, "description").Some? ==> r.value.description == Some(Property(body, "description").value.str))
      && (Property(body, "isActive").None? ==> r.value.isActive == true)
      && (Property(body, "isActive").Some? ==> r.value.isActive == Property(body, "isActive").value.b)
      && (Property(body, "searchType").None? ==> r.value.searchType == "web-search")
      && (Property(body, "searchType").Some? ==> r.value.searchType == Property(body, "searchType").value.str)
    ensures r.Err? && !body.JObject? ==> r.error == NotAnObject(body)
    ensures r.Err? && body.JObject? ==> r.error == FormattedErrors([], CreateIssues(ReadCreate(body)))
  {
    if !body.JObject? then Err(NotAnObject(body))
    else
      var f := ReadCreate(body);
      assert f.name.Good? <==> NonEmptyText(Property(body, "name")) by {
        if Property(body, "name").Some? && Property(body, "name").value.JString? {
          assert NameChecks()[0].holds(Property(body, "name").value.str) <==> |Property(body, "name").value.str| >= 1;
        }
      }
      assert f.instructions.Good? <==> NonEmptyText(Property(body, "instructions")) by {
        var v := Property(body, "instructions");
        if v.Some? && v.value.JString? {
          assert InstructionChecks()[0].holds(v.value.str) <==> |v.value.str| >= 1;
        }
      }
      if f.name.Good? && f.description.Good? && f.instructions.Good? && f.isActive.Good? && f.searchType.Good? then
        Ok(CreateRequest(f.name.value, f.description.value, f.instructions.value, f.isActive.value,
                         f.searchType.value))
      else
        Err(FormattedErrors([], CreateIssues(f)))
  }

  /** A rejected object body carries issues under `name` and `instructions` exactly when those are wrong. */
  lemma ParseCreateIssues(body: JsonValue)
    requires body.JObject? && !CreateAccepted(body)
    ensures var e := ParseCreate(body).error;
      && (HasIssues(e, "name") <==> !NonEmptyText(Property(body, "name")))
      && (HasIssues(e, "instructions") <==> !NonEmptyText(Property(body, "instructions")))
  {
    var v := Property(body, "name");
    if v.Some? && v.value.JString? {
      assert NameChecks()[0].holds(v.value.str) <==> |v.value.str| >= 1;
    }
    var w := Property(body, "instructions");
    if w.Some? && w.value.JString? {
      assert InstructionChecks()[0].holds(w.value.str) <==> |w.value.str| >= 1;
    }
  }

  /** The `createAgent` call: the validated fields, owned by the session user. */
  function NewAgentOf(request: CreateRequest, userId: Id): NewAgent {
    NewAgent(request.name, request.description, request.instructions, request.isActive, request.searchType, userId)
  }

  /** `POST /api/agents` */
  function Post(s: Store, session: Option<Id>, body: RequestBody, newId: Id, now: Time): (r: Handled)
    ensures !SignedIn(session) ==> r == Unauthorized(s)
    ensures SignedIn(session) ==> r.response.status != 401
    ensures r.response.status in {201, 400, 401, 500}
    ensures r.response.status != 201 ==> r.store == s
    ensures r.response.status == 400 <==> SignedIn(session) && body.Parsed? && !CreateAccepted(body.value)
    ensures r.response.status == 400 ==> r.response.body == Issues(ParseCreate(body.value).error)
    ensures r.response.status == 500 ==> r.response.body == Error("Failed to create agent")
    ensures SignedIn(session) && body.Unparsable? ==> r == Reply(500, Error("Failed to create agent"), s)
    ensures r.response.status == 201 <==>
      && SignedIn(session) && body.Parsed? && CreateAccepted(body.value)
      && IsUuid(session.value) && newId !in AgentIds(s) && session.value in UserIds(s)
    ensures r.response.status == 201 ==>
      var request := ParseCreate(body.value).value;
      && r.response.body.AgentRow?
      && r.response.body.agent == Agent(newId, request.name, request.description, request.instructions,
                                        request.isActive, request.searchType, session.value, now, now)
      && r.store == s.(agents := s.agents + [r.response.body.agent])
  {
    if !SignedIn(session) then Unauthorized(s)
    else
      match body
      case Unparsable(_) => Reply(500, Error("Failed to create agent"), s)
      case Parsed(json) =>
        match ParseCreate(json)
        case Err(details) => Reply(400, Issues(details), s)
        case Ok(request) =>
          var out := CreateAgent(s, NewAgentOf(request, session.value), newId, now);
          match out.result
          case Err(_) => Reply(500, Error("Failed to create agent"), s)
          case Ok(agent) => Reply(201, AgentRow(agent), out.store)
  }

  // ------------------------------------------------------------------- PUT

  /** What `updateAgentSchema` lets through: the id, and any of the other fields. */
  datatype UpdateRequest = UpdateRequest(id: Id, name: Option<string>, description: Option<string>,
                                         instructions: Option<string>, isActive: Option<bool>,
                                         searchType: Option<string>)

  /** The bodies `updateAgentSchema` accepts. */
  predicate UpdateAccepted(body: JsonValue) {
    && body.JObject?
    && Property(body, "id").Some? && Property(body, "id").value.JString? && IsUuid(Property(body, "id").value.str)
    && OptionalNonEmpty(Property(body, "name"))
    && OptionalText(Property(body, "description"))
    && OptionalNonEmpty(Property(body, "instructions"))
    && OptionalBool(Property(body, "isActive"))
    && OptionalText(Property(body, "searchType"))
  }

  /** Each field of an update body run through its schema. */
  datatype UpdateFields = UpdateFields(id: Field<string>, name: Field<Option<string>>,
                                       description: Field<Option<string>>, instructions: Field<Option<string>>,
                                       isActive: Field<Option<bool>>, searchType: Field<Option<string>>)

  function ReadUpdate(body: JsonValue): UpdateFields {
    UpdateFields(StringField(Property(body, "id"), [UuidCheck("Invalid agent ID")]),
                 OptionalStringField(Property(body, "name"), NameChecks()),
                 OptionalStringField(Property(body, "description"), []),
                 OptionalStringField(Property(body, "instructions"), InstructionChecks()),
                 OptionalBooleanField(Property(body, "isActive")),
                 OptionalStringField(Property(body, "searchType"), []))
  }

  /** The `.format()` field entries of an update body. */
  function UpdateIssues(f: UpdateFields): (m: map<string, seq<string>>)
    ensures ("id" in m <==> f.id.Bad?) && (f.id.Bad? ==> m["id"] == f.id.issues)
  {
    var rest := IssuesOf("name", f.name) + IssuesOf("description", f.description)
                + IssuesOf("instructions", f.instructions) + IssuesOf("isActive", f.isActive)
                + IssuesOf("searchType", f.searchType);
    assert "id" !in rest by {
      assert "id" !in IssuesOf("name", f.name) && "id" !in IssuesOf("description", f.description);
      assert "id" !in IssuesOf("instructions", f.instructions) && "id" !in IssuesOf("isActive", f.isActive);
      assert "id" !in IssuesOf("searchType", f.searchType);
    }
    IssuesOf("id", f.id) + rest
  }

  /** The value of a field `.optional()` accepted. */
  function TextOf(v: Option<JsonValue>): Option<string>
    requires OptionalText(v)
  {
    if v.Some? then Some(v.value.str) else None
  }

  /** `updateAgentSchema.safeParse(body)` */
  function ParseUpdate(body: JsonValue): (r: Result<UpdateRequest, FormattedErrors>)
    ensures r.Ok? <==> UpdateAccepted(body)
    ensures r.Ok? ==>
      && r.value.id == Property(body, "id").value.str
      && r.value.name == TextOf(Property(body, "name"))
      && r.value.description == TextOf(Property(body, "description"))
      && r.value.instructions == TextOf(Property(body, "instructions"))
      && r.value.isActive == (if Property(body, "isActive").Some? then Some(Property(body, "isActive").value.b) else None)
      && r.value.searchType == TextOf(Property(body, "searchType"))
    ensures r.Err? && !body.JObject? ==> r.error == NotAnObject(body)
    ensures r.Err? && body.JObject? ==> r.error == FormattedErrors([], UpdateIssues(ReadUpdate(body)))
  {
    if !body.JObject? then Err(NotAnObject(body))
    else
      var f := ReadUpdate(body);
      assert f.name.Good? <==> OptionalNonEmpty(Property(body, "name")) by {
        var v := Property(body, "name");
        if v.Some? && v.value.JString? {
          assert NameChecks()[0].holds(v.value.str) <==> |v.value.str| >= 1;
        }
      }
      assert f.instructions.Good? <==> OptionalNonEmpty(Property(body, "instructions")) by {
        var v := Property(body, "instructions");
        if v.Some? && v.value.JString? {
          assert InstructionChecks()[0].holds(v.value.str) <==> |v.value.str| >= 1;
        }
      }
      if f.id.Good? && f.name.Good? && f.description.Good? && f.instructions.Good? && f.isActive.Good? &&
         f.searchType.Good? then
        Ok(UpdateRequest(f.id.value, f.name.value, f.description.value, f.instructions.value, f.isActive.value,
                         f.searchType.value))
      else
        Err(FormattedErrors([], UpdateIssues(f)))
  }

  /** The `updateAgent` call: the id and whichever fields the body supplied. */
  function PatchOf(request: UpdateRequest): AgentPatch {
    AgentPatch(request.id, request.name, request.description, request.instructions, request.isActive,
               request.searchType)
  }

  /**
   * `PUT /api/agents`. Because the schema demands a uuid id, the query cannot fail, so the only
   * 500 is a body that is not JSON; 404 means no agent has the id, whoever owns it.
   */
  function Put(s: Store, session: Option<Id>, body: RequestBody, now: Time): (r: Handled)
    ensures !SignedIn(session) ==> r == Unauthorized(s)
    ensures SignedIn(session) ==> r.response.status != 401
    ensures r.response.status in {200, 400, 401, 404, 500}
    ensures r.response.status != 200 ==> r.store == s
    ensures r.response.status == 500 <==> SignedIn(session) && body.Unparsable?
    ensures r.response.status == 500 ==> r.response.body == Error("Failed to update agent")
    ensures r.response.status == 400 <==> SignedIn(session) && body.Parsed? && !UpdateAccepted(body.value)
    ensures r.response.status == 400 ==> r.response.body == Issues(ParseUpdate(body.value).error)
    ensures r.response.status == 404 <==>
      && SignedIn(session) && body.Parsed? && UpdateAccepted(body.value)
      && forall a :: a in s.agents ==> a.id != ParseUpdate(body.value).value.id
    ensures r.response.status == 404 ==> r.response.body == Error("Agent not found")
    ensures r.response.status == 200 ==>
      var request := ParseUpdate(body.value).value;
      var out := UpdateAgent(s, PatchOf(request), now);
      && r.response.body.AgentRow?
      && r.response.body.agent in r.store.agents
      && r.response.body.agent.id == request.id
      && out.result == Ok(Some(r.response.body.agent))
      && r.store == out.store
  {
    if !SignedIn(session) then Unauthorized(s)
    else
      match body
      case Unparsable(_) => Reply(500, Error("Failed to update agent"), s)
      case Parsed(json) =>
        match ParseUpdate(json)
        case Err(details) => Reply(400, Issues(details), s)
        case Ok(request) =>
          var out := UpdateAgent(s, PatchOf(request), now);
          match out.result
          case Err(_) => assert false; Reply(500, Error("Failed to update agent"), s)
          case Ok(None) => Reply(404, Error("Agent not found"), s)
          case Ok(Some(agent)) => Reply(200, AgentRow(agent), out.store)
  }

  // ---------------------------------------------------------------- DELETE

  /** `DELETE /api/agents?id=...` */
  function Delete(s: Store, session: Option<Id>, id: Option<string>): (r: Handled)
    ensures !SignedIn(session) ==> r == Unauthorized(s)
    ensures SignedIn(session) ==> r.response.status != 401
    ensures SignedIn(session) && !Present(id) ==> r == Reply(400, Error("Agent ID is required"), s)
    ensures r.response.status != 200 ==> r.store == s
    ensures r.response.status == 200 <==> SignedIn(session) && Present(id) && IsUuid(id.value) && id.value in AgentIds(s)
    ensures r.response.status == 200 ==> r.response.body == Success && r.store == DeleteAgent(s, id.value).store
    ensures SignedIn(session) && Present(id) && IsUuid(id.value) && id.value !in AgentIds(s) ==>
      r == Reply(404, Error("Agent not found"), s)
    ensures SignedIn(session) && Present(id) && !IsUuid(id.value) ==>
      r == Reply(500, Error("Failed to delete agent"), s)
  {
    if !SignedIn(session) then Unauthorized(s)
    else if !Present(id) then Reply(400, Error("Agent ID is required"), s)
    else
      var out := DeleteAgent(s, id.value);
      match out.result
      case Err(_) => Reply(500, Error("Failed to delete agent"), s)
      case Ok(None) => Reply(404, Error("Agent not found"), s)
      case Ok(Some(_)) => Reply(200, Success, out.store)
  }

  /**
   * The handlers check that someone is signed in, not who: any signed-in user can delete
   * another user's agent, and its runs go with it.
   */
  lemma DeleteIgnoresOwner(s: Store, session: Option<Id>, a: Agent)
    requires SignedIn(session) && a in s.agents && session.value != a.userId && IsUuid(a.id)
    ensures var r := Delete(s, session, Some(a.id));
      && r.response.status == 200
      && a !in r.store.agents
      && forall x :: x in r.store.agentRuns ==> x.agentId != a.id
  {
    assert a.id in AgentIds(s) by {
      assert AgentKey(a) in Keys(s.agents, AgentKey);
    }
  }

  // ------------------------------------------------------------------- GET

  /** `GET /api/agents` */
  function Get(s: Store, session: Option<Id>): (r: Handled)
    ensures !SignedIn(session) ==> r == Unauthorized(s)
    ensures SignedIn(session) ==> r.response.status != 401
    ensures r.store == s
    ensures SignedIn(session) && !IsUuid(session.value) ==> r.response == Response(500, Error("Failed to get agents"))
    ensures SignedIn(session) && IsUuid(session.value) ==>
      && r.response.status == 200 && r.response.body.AgentList?
      && SortedDesc(r.response.body.agents, AgentCreated)
      && (forall a :: a in r.response.body.agents <==> a in s.agents && a.userId == session.value)
      && multiset(r.response.body.agents) == multiset(AgentsOf(s, session.value))
  {
    if !SignedIn(session) then Unauthorized(s)
    else
      match GetAgentsByUserId(s, session.value)
      case Err(_) => Reply(500, Error("Failed to get agents"), s)
      case Ok(agents) => Reply(200, AgentList(agents), s)
  }
}

=== FILE: company_info_route.dfy ===
/**
 * The `/api/company-info` handler: given a company website, answer with the
 * stored description of it when there is one; otherwise ask a language model
 * for a JSON description, cut the JSON out of its reply, store it and answer
 * with it. The model's reply is the parameter `generated` (`None` when the call
 * throws), `JSON.parse` is `parseJson`, and zod's `.url()` is `isUrl`.
 */
module CompanyInfoRoute {
  import opened Wrappers
  import opened Text
  import opened Tables
  import opened Schema
  import opened Database
  import opened Queries
  import opened Integrity
  import opened Http
  import opened Validation

  // -------------------------------------------------- cutting out the JSON

  /**
   * Where `/\{[\s\S]*\}/` matches: from the first '{' to the last '}', provided that '}'
   * comes after it. With no such pair the pattern does not match.
   */
  function JsonSpan(t: string): (r: Option<(nat, nat)>)
    ensures r.None? <==> forall i, j :: 0 <= i < j < |t| && t[i] == '{' ==> t[j] != '}'
    ensures r.Some? ==>
      var (i, j) := r.value;
      && i < j < |t| && t[i] == '{' && t[j] == '}'
      && (forall k :: 0 <= k < i ==> t[k] != '{')
      && (forall k :: j < k < |t| ==> t[k] != '}')
  {
    match (IndexOf(t, '{'), LastIndexOf(t, '}'))
    case (Some(i), Some(j)) =>
      if i < j then Some((i, j))
      else
        assert forall a, b :: 0 <= a < b < |t| && t[a] == '{' ==> t[b] != '}' by {
          forall a, b | 0 <= a < b < |t| && t[a] == '{' ensures t[b] != '}' {
            assert i <= a;
          }
        }
        None
    case _ => None
  }

  /** `jsonMatch ? jsonMatch[0] : result` */
  function ExtractJson(t: string): (r: string)
    ensures JsonSpan(t).None? ==> r == t
    ensures JsonSpan(t).Some? ==>
      && r == t[JsonSpan(t).value.0..JsonSpan(t).value.1 + 1]
      && |r| >= 2 && r[0] == '{' && r[|r| - 1] == '}'
  {
    match JsonSpan(t)
    case None => t
    case Some((i, j)) => t[i..j + 1]
  }

  /** Cutting the JSON out of text that has already been cut changes nothing. */
  lemma ExtractJsonIdempotent(t: string)
    ensures ExtractJson(ExtractJson(t)) == ExtractJson(t)
  {
    var r := ExtractJson(t);
    if JsonSpan(t).Some? {
      var (i, j) := JsonSpan(t).value;
      assert forall k :: 0 <= k < |r| ==> r[k] == t[i + k];
      var span := JsonSpan(r);
      assert span.Some? by {
        assert 0 < |r| - 1 && r[0] == '{' && r[|r| - 1] == '}';
      }
      var (a, b) := span.value;
      assert a == 0 && b == |r| - 1;
      assert r[a..b + 1] == r;
    }
  }

  // ------------------------------------------------------------ the request

  /** `companyInfoSchema`: a website that is a URL. */
  function ParseRequest(body: JsonValue, isUrl: string -> bool): (r: Result<string, FormattedErrors>)
    ensures r.Ok? <==> body.JObject? && WebsiteText(Property(body, "website"), isUrl)
    ensures r.Ok? ==> r.value == Property(body, "website").value.str
    ensures r.Err? && !body.JObject? ==> r.error == NotAnObject(body)
    ensures r.Err? && body.JObject? ==>
      && r.error.root == [] && r.error.fields.Keys == {"website"}
      && (Property(body, "website").Some? && Property(body, "website").value.JString? ==>
            r.error.fields["website"] == ["Invalid website URL"])
  {
    if !body.JObject? then Err(NotAnObject(body))
    else
      var f := StringField(Property(body, "website"), [UrlCheck(isUrl, "Invalid website URL")]);
      if f.Good? then Ok(f.value) else Err(FormattedErrors([], IssuesOf("website", f)))
  }

  /** A string that zod's `.url()` accepts. */
  predicate WebsiteText(v: Option<JsonValue>, isUrl: string -> bool) {
    v.Some? && v.value.JString? && isUrl(v.value.str)
  }

  /**
   * The `saveCompanyInfo` arguments read off the parsed reply: every descriptive field must
   * be present and non-null, because the columns are NOT NULL; a non-string value goes in
   * as the driver's rendering of it.
   */
  function FieldsOf(website: string, v: JsonValue, render: JsonValue -> string): (r: Option<InfoFields>)
    ensures r.Some? <==> forall k :: k in InfoColumns ==> SqlText(Property(v, k), render).Some?
    ensures r.Some? ==>
      && v.JObject?
      && r.value.website == website
      && Some(r.value.name) == SqlText(Property(v, "name"), render)
      && Some(r.value.description) == SqlText(Property(v, "description"), render)
      && Some(r.value.industry) == SqlText(Property(v, "industry"), render)
      && Some(r.value.products) == SqlText(Property(v, "products"), render)
      && Some(r.value.uniqueFeatures) == SqlText(Property(v, "uniqueFeatures"), render)
  {
    var name := SqlText(Property(v, "name"), render);
    var description := SqlText(Property(v, "description"), render);
    var industry := SqlText(Property(v, "industry"), render);
    var products := SqlText(Property(v, "products"), render);
    var uniqueFeatures := SqlText(Property(v, "uniqueFeatures"), render);
    assert "name" in InfoColumns && "description" in InfoColumns && "industry" in InfoColumns;
    assert "products" in InfoColumns && "uniqueFeatures" in InfoColumns;
    if name.Some? && description.Some? && industry.Some? && products.Some? && uniqueFeatures.Some? then
      Some(InfoFields(website, name.value, description.value, industry.value, products.value, uniqueFeatures.value))
    else None
  }

  /** The descriptive columns of a company-info record. */
  const InfoColumns: set<string> := {"name", "description", "industry", "products", "uniqueFeatures"}

  const ParseFailure := "Failed to parse company information"
  const FetchFailure := "Failed to fetch company information"

  /** A signed-in, valid request for a website the store has no record of. */
  predicate NeedsGeneration(s: Store, session: Option<Id>, body: RequestBody, isUrl: string -> bool) {
    && SignedIn(session) && body.Parsed? && ParseRequest(body.value, isUrl).Ok?
    && ParseRequest(body.value, isUrl).value !in InfoWebsites(s)
  }

  /** `POST /api/company-info` */
  function Post(s: Store, session: Option<Id>, body: RequestBody, isUrl: string -> bool,
                generated: Option<string>, parseJson: string -> RequestBody, render: JsonValue -> string,
                newId: Id, now: Time): (r: Handled)
    ensures !SignedIn(session) ==> r == Unauthorized(s)
    ensures SignedIn(session) ==> r.response.status != 401
    ensures r.response.status in {200, 400, 401, 500}
    ensures SignedIn(session) && body.Unparsable? ==> r == Reply(500, Error(FetchFailure), s)
    ensures r.response.status == 400 <==> SignedIn(session) && body.Parsed? && ParseRequest(body.value, isUrl).Err?
    ensures r.response.status == 400 ==> r.response.body == Issues(ParseRequest(body.value, isUrl).error)
    ensures SignedIn(session) && body.Parsed? && ParseRequest(body.value, isUrl).Ok? &&
            ParseRequest(body.value, isUrl).value in InfoWebsites(s) ==>
      r == Reply(200, InfoRow(GetCompanyInfoByWebsite(s, ParseRequest(body.value, isUrl).value).value), s)
    ensures r.response.status == 500 ==>
      && r.store == s
      && (r.response.body == Error(FetchFailure) ||
          (generated.Some? && r.response.body == Raw(ParseFailure, generated.value)))
    ensures !NeedsGeneration(s, session, body, isUrl) ==> r.store == s
    ensures NeedsGeneration(s, session, body, isUrl) && generated.None? ==> r == Reply(500, Error(FetchFailure), s)
    ensures NeedsGeneration(s, session, body, isUrl) && generated.Some? ==>
      r == Describe(s, ParseRequest(body.value, isUrl).value, generated.value, parseJson, render, newId, now)
  {
    if !SignedIn(session) then Unauthorized(s)
    else
      match body
      case Unparsable(_) => Reply(500, Error(FetchFailure), s)
      case Parsed(json) =>
        match ParseRequest(json, isUrl)
        case Err(details) => Reply(400, Issues(details), s)
        case Ok(website) =>
          match GetCompanyInfoByWebsite(s, website)
          case Some(cached) => Reply(200, InfoRow(cached), s)
          case None =>
            match generated
            case None => Reply(500, Error(FetchFailure), s)
            case Some(text) =>
              Describe(s, website, text, parseJson, render, newId, now)
  }

  /**
   * The inner `try`: parse the cut-out JSON, store it, answer with it; any failure answers
   * with the model's whole reply and stores nothing.
   */
  function Describe(s: Store, website: string, text: string, parseJson: string -> RequestBody,
                    render: JsonValue -> string, newId: Id, now: Time): (r: Handled)
    requires website !in InfoWebsites(s)
    ensures r.response.status in {200, 500}
    ensures r.response.status == 500 <==> r.store == s
    ensures r.response.status == 500 ==> r.response.body == Raw(ParseFailure, text)
    ensures r.response.status == 200 <==>
      && parseJson(ExtractJson(text)).Parsed?
      && FieldsOf(website, parseJson(ExtractJson(text)).value, render).Some?
      && newId !in InfoIds(s)
    ensures r.response.status == 200 ==>
      var f := FieldsOf(website, parseJson(ExtractJson(text)).value, render).value;
      && r.response.body == Generated(parseJson(ExtractJson(text)).value)
      && r.store == s.(companyInfos := s.companyInfos + [CompanyInfo(newId, website, f.name, f.description,
                                                                    f.industry, f.products, f.uniqueFeatures,
                                                                    now, now)])
  {
    var failed := Reply(500, Raw(ParseFailure, text), s);
    match parseJson(ExtractJson(text))
    case Unparsable(_) => failed
    case Parsed(v) =>
      match FieldsOf(website, v, render)
      case None => failed
      case Some(f) =>
        var out := SaveCompanyInfo(s, f, newId, now);
        match out.result
        case Err(_) => failed
        case Ok(_) =>
          assert out.store != s by {
            assert |out.store.companyInfos| == |s.companyInfos| + 1;
          }
          Reply(200, Generated(v), out.store)
  }

  /**
   * Once a description has been generated and stored, the same request is answered from the
   * store with that record, whatever the model would say now, and stores nothing more.
   */
  lemma SecondRequestIsCached(s: Store, session: Option<Id>, body: RequestBody, isUrl: string -> bool,
                              generated: Option<string>, parseJson: string -> RequestBody,
                              render: JsonValue -> string, newId: Id, now: Time,
                              generated2: Option<string>, parseJson2: string -> RequestBody,
                              newId2: Id, later: Time)
    requires Valid(s)
    requires var r := Post(s, session, body, isUrl, generated, parseJson, render, newId, now);
      r.response.status == 200 && r.response.body.Generated?
    ensures var r := Post(s, session, body, isUrl, generated, parseJson, render, newId, now);
      var website := ParseRequest(body.value, isUrl).value;
      var again := Post(r.store, session, body, isUrl, generated2, parseJson2, render, newId2, later);
      && again.store == r.store
      && again.response.status == 200 && again.response.body.InfoRow?
      && again.response.body.info.id == newId
      && again.response.body.info.website == website
      && again.response.body.info.createdAt == now
  {
    var r := Post(s, session, body, isUrl, generated, parseJson, render, newId, now);
    var website := ParseRequest(body.value, isUrl).value;
    assert NeedsGeneration(s, session, body, isUrl) && generated.Some?;
    var v := parseJson(ExtractJson(generated.value)).value;
    var f := FieldsOf(website, v, render).value;
    var saved := CompanyInfo(newId, website, f.name, f.description, f.industry, f.products, f.uniqueFeatures,
                             now, now);
    assert r.store.companyInfos == s.companyInfos + [saved];
    assert saved in r.store.companyInfos;
    assert website in InfoWebsites(r.store) by {
      assert InfoWebsite(saved) in Keys(r.store.companyInfos, InfoWebsite);
    }
    var got := GetCompanyInfoByWebsite(r.store, website).value;
    SaveCompanyInfoValid(s, f, newId, now);
    assert r.store == SaveCompanyInfo(s, f, newId, now).store;
    UniqueByIn(r.store.companyInfos, InfoWebsite, got, saved);
  }
}

=== FILE: company_route.dfy ===
/**
 * The `/api/company` handlers. Unlike the other routes these ask for no
 * session: GET reads the newest company of the user named in the query
 * string, POST stores a company for the user named in the body, PUT rewrites a
 * company by id. Body fields reach the database unvalidated, as the driver
 * renders them (`render`).
 */
module CompanyRoute {
  import opened Wrappers
  import opened Text
  import opened Tables
  import opened Schema
  import opened Database
  import opened Queries
  import opened Http

  /** The user has at least one company. */
  predicate HasCompany(s: Store, userId: string) {
    exists c :: c in s.companies && c.userId == userId
  }

  /**
   * `GET /api/company?userId=...` as written. When the user has no company the query
   * yields `undefined`, and `NextResponse.json(undefined)` throws inside the `try`
   * (`JSON.stringify` gives no text to serialise), so the handler answers 500.
   */
  function Get(s: Store, userId: Option<string>): (r: Handled)
    ensures r.store == s
    ensures r.response.status in {200, 400, 500}
    ensures !Present(userId) ==> r.response == Response(400, Error("User ID is required"))
    ensures r.response.status == 400 <==> !Present(userId)
    ensures r.response.status == 500 ==> r.response.body == Error("Failed to get company")
    ensures Present(userId) && !IsUuid(userId.value) ==> r.response == Response(500, Error("Failed to get company"))
    ensures r.response.status == 200 <==> Present(userId) && IsUuid(userId.value) && HasCompany(s, userId.value)
    ensures r.response.status == 200 ==>
      && r.response.body.MaybeCompany? && r.response.body.company.Some?
      && var c := r.response.body.company.value;
         && c in s.companies && c.userId == userId.value
         && forall d :: d in s.companies && d.userId == userId.value ==> d.updatedAt <= c.updatedAt
  {
    if !Present(userId) then Reply(400, Error("User ID is required"), s)
    else
      match GetCompanyByUserId(s, userId.value)
      case Err(_) => Reply(500, Error("Failed to get company"), s)
      case Ok(None) => Reply(500, Error("Failed to get company"), s)
      case Ok(Some(company)) => Reply(200, MaybeCompany(Some(company)), s)
  }

  /** The handler as evidently intended: a user without a company gets `null` with 200. */
  function GetOrNull(s: Store, userId: Option<string>): (r: Handled)
    ensures r.store == s
    ensures r.response.status in {200, 400, 500}
    ensures !Present(userId) ==> r.response == Response(400, Error("User ID is required"))
    ensures Present(userId) && !IsUuid(userId.value) ==> r.response == Response(500, Error("Failed to get company"))
    ensures r.response.status == 200 <==> Present(userId) && IsUuid(userId.value)
    ensures r.response.status == 200 ==>
      && r.response.body.MaybeCompany?
      && (r.response.body.company.None? <==> !HasCompany(s, userId.value))
      && (r.response.body.company.Some? ==> r.response == Get(s, userId).response)
  {
    if !Present(userId) then Reply(400, Error("User ID is required"), s)
    else
      match GetCompanyByUserId(s, userId.value)
      case Err(_) => Reply(500, Error("Failed to get company"), s)
      case Ok(company) => Reply(200, MaybeCompany(company), s)
  }

  /**
   * The first visit of a user who has saved no company: as written the handler fails with
   * 500, where the corrected one answers 200 with `null`.
   */
  lemma MissingCompanyFails(s: Store, userId: string)
    requires IsUuid(userId) && !HasCompany(s, userId)
    ensures Get(s, Some(userId)) == Reply(500, Error("Failed to get company"), s)
    ensures GetOrNull(s, Some(userId)) == Reply(200, MaybeCompany(None), s)
  {
    assert Present(Some(userId)) by {
      assert |userId| == 36;
    }
  }

  /** Destructuring `body` throws only when it is `null`. */
  predicate Destructurable(body: RequestBody) {
    body.Parsed? && !body.value.JNull?
  }

  /** `POST /api/company`: the user id must be truthy; the rest goes to the insert as it is. */
  function Post(s: Store, body: RequestBody, render: JsonValue -> string, newId: Id, now: Time): (r: Handled)
    ensures r.response.status in {200, 400, 500}
    ensures r.response.status != 200 ==> r.store == s
    ensures r.response.status == 400 <==> Destructurable(body) && !Truthy(Property(body.value, "userId"))
    ensures r.response.status == 400 ==> r.response.body == Error("User ID is required")
    ensures r.response.status == 500 ==> r.response.body == Error("Failed to save company")
    ensures r.response.status == 200 <==>
      && Destructurable(body) && Truthy(Property(body.value, "userId"))
      && var userId := SqlText(Property(body.value, "userId"), render).value;
         && IsUuid(userId) && userId in UserIds(s) && newId !in Keys(s.companies, CompanyKey)
         && forall k :: k in TextColumns ==> SqlText(Property(body.value, k), render).Some?
    ensures r.response.status == 200 ==>
      && r.response.body == Written
      && r.store == s.(companies := s.companies +
                         [Company(newId, SqlText(Property(body.value, "name"), render).value,
                                  SqlText(Property(body.value, "description"), render).value,
                                  SqlText(Property(body.value, "useCase"), render).value,
                                  SqlText(Property(body.value, "userId"), render).value, now, now)])
  {
    match body
    case Unparsable(_) => Reply(500, Error("Failed to save company"), s)
    case Parsed(json) =>
      if json.JNull? then Reply(500, Error("Failed to save company"), s)
      else if !Truthy(Property(json, "userId")) then Reply(400, Error("User ID is required"), s)
      else
        var text := (k: string) => SqlText(Property(json, k), render);
        assert "name" in TextColumns && "description" in TextColumns && "useCase" in TextColumns;
        var out := SaveCompany(s, text("name"), text("description"), text("useCase"), text("userId").value,
                               newId, now);
        match out.result
        case Err(_) => Reply(500, Error("Failed to save company"), s)
        case Ok(_) => Reply(200, Written, out.store)
  }

  /** The company columns a body supplies as text. */
  const TextColumns: set<string> := {"name", "description", "useCase"}

  /** What a body field does to its column: `undefined` leaves it, `null` clears it, anything else sets it. */
  function AssignmentOf(v: Option<JsonValue>, render: JsonValue -> string): (a: Assignment)
    ensures a.Keep? <==> v.None?
    ensures a.SetNull? <==> v == Some(JNull)
    ensures a.SetTo? ==> Some(a.text) == SqlText(v, render)
  {
    match v
    case None => Keep
    case Some(JNull) => SetNull
    case Some(_) => SetTo(SqlText(v, render).value)
  }

  /** `PUT /api/company`: the company id must be truthy; fields that are present are written. */
  function Put(s: Store, body: RequestBody, render: JsonValue -> string, now: Time): (r: Handled)
    ensures r.response.status in {200, 400, 500}
    ensures r.response.status != 200 ==> r.store == s
    ensures r.response.status == 400 <==> Destructurable(body) && !Truthy(Property(body.value, "id"))
    ensures r.response.status == 400 ==> r.response.body == Error("Company ID is required")
    ensures r.response.status == 500 ==> r.response.body == Error("Failed to update company")
    ensures r.response.status == 200 <==>
      && Destructurable(body) && Truthy(Property(body.value, "id"))
      && IsUuid(SqlText(Property(body.value, "id"), render).value)
      && ((forall c :: c in s.companies ==> c.id != SqlText(Property(body.value, "id"), render).value) ||
          forall k :: k in TextColumns ==> Property(body.value, k) != Some(JNull))
    ensures r.response.status == 200 ==>
      var id := SqlText(Property(body.value, "id"), render).value;
      && r.response.body == Written
      && r.store == UpdateCompany(s, id, AssignmentOf(Property(body.value, "name"), render),
                                  AssignmentOf(Property(body.value, "description"), render),
                                  AssignmentOf(Property(body.value, "useCase"), render), now).store
    ensures Destructurable(body) && Truthy(Property(body.value, "id")) &&
            (forall c :: c in s.companies ==> c.id != SqlText(Property(body.value, "id"), render).value) ==>
      r.store == s
  {
    match body
    case Unparsable(_) => Reply(500, Error("Failed to update company"), s)
    case Parsed(json) =>
      if json.JNull? then Reply(500, Error("Failed to update company"), s)
      else if !Truthy(Property(json, "id")) then Reply(400, Error("Company ID is required"), s)
      else
        var id := SqlText(Property(json, "id"), render).value;
        assert "name" in TextColumns && "description" in TextColumns && "useCase" in TextColumns;
        var out := UpdateCompany(s, id, AssignmentOf(Property(json, "name"), render),
                                 AssignmentOf(Property(json, "description"), render),
                                 AssignmentOf(Property(json, "useCase"), render), now);
        match out.result
        case Err(_) => Reply(500, Error("Failed to update company"), s)
        case Ok(_) => Reply(200, Written, out.store)
  }

  /**
   * An update naming no existing company still answers 200, and a `null` field is only
   * refused when some row would take it.
   */
  lemma PutOfMissingCompanySucceeds(s: Store, body: RequestBody, render: JsonValue -> string, now: Time)
    requires Destructurable(body) && Truthy(Property(body.value, "id"))
    requires IsUuid(SqlText(Property(body.value, "id"), render).value)
    requires forall c :: c in s.companies ==> c.id != SqlText(Property(body.value, "id"), render).value
    ensures Put(s, body, render, now) == Reply(200, Written, s)
  {
    var id := SqlText(Property(body.value, "id"), render).value;
    var out := UpdateCompany(s, id, AssignmentOf(Property(body.value, "name"), render),
                             AssignmentOf(Property(body.value, "description"), render),
                             AssignmentOf(Property(body.value, "useCase"), render), now);
    assert out.store.companies == s.companies by {
      assert forall i :: 0 <= i < |s.companies| ==> s.companies[i] in s.companies;
    }
  }
}

=== FILE: database.dfy ===
/**
 * What the database itself does beyond storing rows: the errors it raises,
 * and DELETE with the schema's foreign-key actions. A foreign key declared
 * without an action is NO ACTION: a statement that would leave a row
 * pointing at a deleted row fails as a whole. A key declared
 * `onDelete: 'cascade'` deletes the referring rows along with the target.
 */
module Database {
  import opened Wrappers
  import opened Tables
  import opened Schema

  /** Everything a query can throw: the database's errors and the two the account update raises itself. */
  datatype QueryError =
    | AccountNotFound(id: Id)
    | WebsiteRequired
    | InvalidUuid(text: string)
    | DuplicateKey(constraint: string)
    | MissingReference(table: string, constraint: string)
    | StillReferenced(table: string, constraint: string, referencing: string)
    | NullValue(table: string, column: string)

  /** The thrown error's `message`. */
  function ErrorMessage(e: QueryError): string {
    match e
    case AccountNotFound(id) => "Account with ID " + id + " not found"
    case WebsiteRequired => "Website URL is required"
    case InvalidUuid(t) => "invalid input syntax for type uuid: \"" + t + "\""
    case DuplicateKey(c) => "duplicate key value violates unique constraint \"" + c + "\""
    case MissingReference(t, c) =>
      "insert or update on table \"" + t + "\" violates foreign key constraint \"" + c + "\""
    case StillReferenced(t, c, r) =>
      "update or delete on table \"" + t + "\" violates foreign key constraint \"" + c + "\" on table \"" + r + "\""
    case NullValue(t, col) =>
      "null value in column \"" + col + "\" of relation \"" + t + "\" violates not-null constraint"
  }

  /** DELETE FROM "Message" WHERE p; Vote.messageId refers to it with NO ACTION. */
  function DeleteMessagesWhere(s: Store, p: Message -> bool): (r: Result<Store, QueryError>)
    ensures r.Ok? <==> forall v :: v in s.votes ==> v.messageId !in Keys(Filter(s.messages, p), MessageKey)
    ensures r.Ok? ==> r.value == s.(messages := Filter(s.messages, Not(p)))
  {
    var gone := Keys(Filter(s.messages, p), MessageKey);
    if exists v :: v in s.votes && v.messageId in gone then
      Err(StillReferenced("Message", "Vote_messageId_Message_id_fk", "Vote"))
    else
      Ok(s.(messages := Filter(s.messages, Not(p))))
  }

  /** DELETE FROM "Chat" WHERE p; Message and Vote refer to it with NO ACTION, AgentRun with CASCADE. */
  function DeleteChatsWhere(s: Store, p: Chat -> bool): (r: Result<Store, QueryError>)
    ensures r.Ok? <==>
      && (forall m :: m in s.messages ==> m.chatId !in Keys(Filter(s.chats, p), ChatKey))
      && (forall v :: v in s.votes ==> v.chatId !in Keys(Filter(s.chats, p), ChatKey))
    ensures r.Ok? ==>
      var gone := Keys(Filter(s.chats, p), ChatKey);
      r.value == s.(chats := Filter(s.chats, Not(p)),
                    agentRuns := Filter(s.agentRuns, (x: AgentRun) => x.chatId !in gone))
  {
    var gone := Keys(Filter(s.chats, p), ChatKey);
    if exists m :: m in s.messages && m.chatId in gone then
      Err(StillReferenced("Chat", "Message_chatId_Chat_id_fk", "Message"))
    else if exists v :: v in s.votes && v.chatId in gone then
      Err(StillReferenced("Chat", "Vote_chatId_Chat_id_fk", "Vote"))
    else
      Ok(s.(chats := Filter(s.chats, Not(p)),
            agentRuns := Filter(s.agentRuns, (x: AgentRun) => x.chatId !in gone)))
  }

  /** DELETE FROM "Document" WHERE p; Suggestion refers to a version with NO ACTION. */
  function DeleteDocumentsWhere(s: Store, p: Document -> bool): (r: Result<Store, QueryError>)
    ensures r.Ok? <==>
      forall g :: g in s.suggestions ==> SuggestionDocument(g) !in Keys(Filter(s.documents, p), DocumentKey)
    ensures r.Ok? ==> r.value == s.(documents := Filter(s.documents, Not(p)))
  {
    var gone := Keys(Filter(s.documents, p), DocumentKey);
    if exists g :: g in s.suggestions && SuggestionDocument(g) in gone then
      Err(StillReferenced("Document", "Suggestion_documentId_documentCreatedAt_Document_id_createdAt_fk",
                          "Suggestion"))
    else
      Ok(s.(documents := Filter(s.documents, Not(p))))
  }

  /** DELETE FROM "Agent" WHERE p; AgentRun.agentId cascades. */
  function DeleteAgentsWhere(s: Store, p: Agent -> bool): (r: Store)
    ensures r.agents == Filter(s.agents, Not(p))
    ensures forall x :: x in r.agentRuns <==> x in s.agentRuns && x.agentId !in Keys(Filter(s.agents, p), AgentKey)
    ensures r == s.(agents := r.agents, agentRuns := r.agentRuns)
  {
    var gone := Keys(Filter(s.agents, p), AgentKey);
    s.(agents := Filter(s.agents, Not(p)),
       agentRuns := Filter(s.agentRuns, (x: AgentRun) => x.agentId !in gone))
  }

  /** DELETE FROM "Account" WHERE p; AgentRun.accountId cascades. */
  function DeleteAccountsWhere(s: Store, p: Account -> bool): (r: Store)
    ensures r.accounts == Filter(s.accounts, Not(p))
    ensures forall x :: x in r.agentRuns <==>
                        x in s.agentRuns && x.accountId !in Keys(Filter(s.accounts, p), AccountKey)
    ensures r == s.(accounts := r.accounts, agentRuns := r.agentRuns)
  {
    var gone := Keys(Filter(s.accounts, p), AccountKey);
    s.(accounts := Filter(s.accounts, Not(p)),
       agentRuns := Filter(s.agentRuns, (x: AgentRun) => x.accountId !in gone))
  }

  /**
   * DELETE FROM "User" WHERE id = uid. Chat, Document, Suggestion and Company refer to users with
   * NO ACTION; Agent, Account and AgentRun cascade, and so do the runs of the cascaded agents and
   * accounts. No query of the application deletes users; this is the schema's rule.
   */
  function DeleteUser(s: Store, uid: Id): (r: Result<Store, QueryError>)
    ensures r.Ok? <==>
      && (forall c :: c in s.chats ==> c.userId != uid)
      && (forall d :: d in s.documents ==> d.userId != uid)
      && (forall g :: g in s.suggestions ==> g.userId != uid)
      && (forall c :: c in s.companies ==> c.userId != uid)
    ensures r.Ok? ==>
      && (forall u :: u in r.value.users <==> u in s.users && u.id != uid)
      && (forall a :: a in r.value.agents <==> a in s.agents && a.userId != uid)
      && (forall a :: a in r.value.accounts <==> a in s.accounts && a.userId != uid)
      && (forall x :: x in r.value.agentRuns <==>
            && x in s.agentRuns && x.userId != uid
            && (forall a :: a in s.agents && a.id == x.agentId ==> a.userId != uid)
            && (forall a :: a in s.accounts && a.id == x.accountId ==> a.userId != uid))
      && r.value == s.(users := r.value.users, agents := r.value.agents, accounts := r.value.accounts,
                       agentRuns := r.value.agentRuns)
  {
    if exists c :: c in s.chats && c.userId == uid then
      Err(StillReferenced("User", "Chat_userId_User_id_fk", "Chat"))
    else if exists d :: d in s.documents && d.userId == uid then
      Err(StillReferenced("User", "Document_userId_User_id_fk", "Document"))
    else if exists g :: g in s.suggestions && g.userId == uid then
      Err(StillReferenced("User", "Suggestion_userId_User_id_fk", "Suggestion"))
    else if exists c :: c in s.companies && c.userId == uid then
      Err(StillReferenced("User", "Company_userId_User_id_fk", "Company"))
    else
      var goneAgents := Keys(Filter(s.agents, (a: Agent) => a.userId == uid), AgentKey);
      var goneAccounts := Keys(Filter(s.accounts, (a: Account) => a.userId == uid), AccountKey);
      Ok(s.(users := Filter(s.users, (u: User) => u.id != uid),
            agents := Filter(s.agents, (a: Agent) => a.userId != uid),
            accounts := Filter(s.accounts, (a: Account) => a.userId != uid),
            agentRuns := Filter(s.agentRuns, (x: AgentRun) =>
                                  x.userId != uid && x.agentId !in goneAgents && x.accountId !in goneAccounts)))
  }

  lemma DeleteMessagesWhereValid(s: Store, p: Message -> bool)
    requires Valid(s)
    requires DeleteMessagesWhere(s, p).Ok?
    ensures Valid(DeleteMessagesWhere(s, p).value)
  {
    var r := DeleteMessagesWhere(s, p).value;
    FilterUnique(s.messages, Not(p), MessageKey);
    forall v | v in r.votes
      ensures v.messageId in MessageIds(r)
    {
      KeyNotGone(s.messages, p, MessageKey, v.messageId);
    }
  }

  lemma DeleteChatsWhereValid(s: Store, p: Chat -> bool)
    requires Valid(s)
    requires DeleteChatsWhere(s, p).Ok?
    ensures Valid(DeleteChatsWhere(s, p).value)
  {
    var r := DeleteChatsWhere(s, p).value;
    var gone := Keys(Filter(s.chats, p), ChatKey);
    FilterUnique(s.chats, Not(p), ChatKey);
    FilterUnique(s.agentRuns, (x: AgentRun) => x.chatId !in gone, RunKey);
    forall m | m in r.messages
      ensures m.chatId in ChatIds(r)
    {
      KeyNotGone(s.chats, p, ChatKey, m.chatId);
    }
    forall v | v in r.votes
      ensures v.chatId in ChatIds(r)
    {
      KeyNotGone(s.chats, p, ChatKey, v.chatId);
    }
    forall x | x in r.agentRuns
      ensures x.chatId in ChatIds(r)
    {
      KeyNotGone(s.chats, p, ChatKey, x.chatId);
    }
  }

  lemma DeleteDocumentsWhereValid(s: Store, p: Document -> bool)
    requires Valid(s)
    requires DeleteDocumentsWhere(s, p).Ok?
    ensures Valid(DeleteDocumentsWhere(s, p).value)
  {
    var r := DeleteDocumentsWhere(s, p).value;
    FilterUnique(s.documents, Not(p), DocumentKey);
    forall g | g in r.suggestions
      ensures SuggestionDocument(g) in DocumentKeys(r)
    {
      KeyNotGone(s.documents, p, DocumentKey, SuggestionDocument(g));
    }
  }

  lemma DeleteAgentsWhereValid(s: Store, p: Agent -> bool)
    requires Valid(s)
    ensures Valid(DeleteAgentsWhere(s, p))
  {
    var r := DeleteAgentsWhere(s, p);
    var gone := Keys(Filter(s.agents, p), AgentKey);
    FilterUnique(s.agents, Not(p), AgentKey);
    FilterUnique(s.agentRuns, (x: AgentRun) => x.agentId !in gone, RunKey);
    forall x | x in r.agentRuns
      ensures x.agentId in AgentIds(r)
    {
      KeyNotGone(s.agents, p, AgentKey, x.agentId);
    }
  }

  lemma DeleteAccountsWhereValid(s: Store, p: Account -> bool)
    requires Valid(s)
    ensures Valid(DeleteAccountsWhere(s, p))
  {
    var r := DeleteAccountsWhere(s, p);
    var gone := Keys(Filter(s.accounts, p), AccountKey);
    FilterUnique(s.accounts, Not(p), AccountKey);
    FilterUnique(s.agentRuns, (x: AgentRun) => x.accountId !in gone, RunKey);
    forall x | x in r.agentRuns
      ensures x.accountId in AccountIds(r)
    {
      KeyNotGone(s.accounts, p, AccountKey, x.accountId);
    }
  }

  /** Deleting a user keeps the store consistent and leaves no agent, account or run of that user. */
  lemma DeleteUserValid(s: Store, uid: Id)
    requires Valid(s)
    requires DeleteUser(s, uid).Ok?
    ensures Valid(DeleteUser(s, uid).value)
    ensures var r := DeleteUser(s, uid).value;
      && uid !in UserIds(r)
      && (forall a :: a in r.agents ==> a.userId != uid)
      && (forall a :: a in r.accounts ==> a.userId != uid)
      && (forall x :: x in r.agentRuns ==> x.userId != uid)
  {
    var r := DeleteUser(s, uid).value;
    DeleteUserKeepsKeys(s, uid);
    DeleteUserKeepsReferences(s, uid);
    assert uid !in UserIds(r) by {
      assert forall u :: u in r.users ==> u.id != uid;
    }
  }

  /** The rows a user delete keeps are still unique by their keys. */
  lemma DeleteUserKeepsKeys(s: Store, uid: Id)
    requires Valid(s)
    requires DeleteUser(s, uid).Ok?
    ensures KeysUnique(DeleteUser(s, uid).value)
  {
    var r := DeleteUser(s, uid).value;
    var goneAgents := Keys(Filter(s.agents, (a: Agent) => a.userId == uid), AgentKey);
    var goneAccounts := Keys(Filter(s.accounts, (a: Account) => a.userId == uid), AccountKey);
    var keepRun := (x: AgentRun) => x.userId != uid && x.agentId !in goneAgents && x.accountId !in goneAccounts;
    assert UniqueBy(r.users, UserKey) by {
      assert r.users == Filter(s.users, (u: User) => u.id != uid);
      FilterUnique(s.users, (u: User) => u.id != uid, UserKey);
    }
    assert UniqueBy(r.agents, AgentKey) by {
      assert r.agents == Filter(s.agents, (a: Agent) => a.userId != uid);
      FilterUnique(s.agents, (a: Agent) => a.userId != uid, AgentKey);
    }
    assert UniqueBy(r.accounts, AccountKey) by {
      assert r.accounts == Filter(s.accounts, (a: Account) => a.userId != uid);
      FilterUnique(s.accounts, (a: Account) => a.userId != uid, AccountKey);
    }
    assert UniqueBy(r.agentRuns, RunKey) by {
      assert r.agentRuns == Filter(s.agentRuns, keepRun);
      FilterUnique(s.agentRuns, keepRun, RunKey);
    }
  }

  /** After a user delete every foreign key still names an existing row. */
  lemma DeleteUserKeepsReferences(s: Store, uid: Id)
    requires Valid(s)
    requires DeleteUser(s, uid).Ok?
    ensures ReferencesResolve(DeleteUser(s, uid).value)
  {
    var r := DeleteUser(s, uid).value;
    assert r.chats == s.chats && r.messages == s.messages && r.votes == s.votes;
    assert r.documents == s.documents && r.suggestions == s.suggestions && r.companies == s.companies;
    forall k | k in UserIds(s) && k != uid
      ensures k in UserIds(r)
    {
      var u :| u in s.users && UserKey(u) == k;
      assert u in r.users;
    }
    assert ChatsResolve(r) && DocumentsResolve(r) && SuggestionsResolve(r) && CompaniesResolve(r) by {
      assert ChatIds(r) == ChatIds(s) && DocumentKeys(r) == DocumentKeys(s);
    }
    assert MessagesResolve(r) && VotesResolve(r) by {
      assert ChatIds(r) == ChatIds(s) && MessageIds(r) == MessageIds(s);
    }
    assert AgentsResolve(r) && AccountsResolve(r);
    assert RunsResolve(r) by {
      forall x | x in r.agentRuns
        ensures x.agentId in AgentIds(r) && x.accountId in AccountIds(r)
      {
        var a :| a in s.agents && AgentKey(a) == x.agentId;
        assert a in r.agents;
        var b :| b in s.accounts && AccountKey(b) == x.accountId;
        assert b in r.accounts;
      }
      assert ChatIds(r) == ChatIds(s);
    }
  }
}

=== FILE: http.dfy ===
/**
 * What the route handlers see of a request and produce as a response: JSON
 * values as `req.json()` yields them, JavaScript truthiness, how the database
 * driver turns a JSON value into a text parameter, and the response shapes.
 */
module Http {
  import opened Wrappers
  import opened Schema

  /** A JSON value; duplicate object keys have already been resolved by the parser. */
  datatype JsonValue =
    | JString(str: string)
    | JNumber(num: real)
    | JBool(b: bool)
    | JNull
    | JArray(items: seq<JsonValue>)
    | JObject(fields: map<string, JsonValue>)

  /** What `await req.json()` gives: a value, or the message of the `SyntaxError` it throws. */
  datatype RequestBody = Unparsable(message: string) | Parsed(value: JsonValue)

  /** Property access `v.key`; `None` stands for `undefined`. */
  function Property(v: JsonValue, key: string): (r: Option<JsonValue>)
    ensures r.Some? <==> v.JObject? && key in v.fields
  {
    if v.JObject? && key in v.fields then Some(v.fields[key]) else None
  }

  /** JavaScript truthiness of a possibly undefined value. */
  predicate Truthy(v: Option<JsonValue>) {
    match v
    case None => false
    case Some(JString(s)) => s != ""
    case Some(JNumber(n)) => n != 0.0
    case Some(JBool(b)) => b
    case Some(JNull) => false
    case Some(_) => true
  }

  /** Truthiness of a query-string parameter (`searchParams.get` gives `null` when absent). */
  predicate Present(param: Option<string>) {
    param.Some? && param.value != ""
  }

  /**
   * The SQL value a JSON value becomes when passed as a column value: `undefined` and
   * `null` are NULL, a string is itself, anything else is the driver's text rendering,
   * given by `render`.
   */
  function SqlText(v: Option<JsonValue>, render: JsonValue -> string): (r: Option<string>)
    ensures r.None? <==> v.None? || v.value.JNull?
    ensures v.Some? && v.value.JString? ==> r == Some(v.value.str)
  {
    match v
    case None => None
    case Some(JNull) => None
    case Some(JString(s)) => Some(s)
    case Some(other) => Some(render(other))
  }

  /** zod's `.format()`: the issues at the root and, per field that has any, that field's issues. */
  datatype FormattedErrors = FormattedErrors(root: seq<string>, fields: map<string, seq<string>>)

  /** A response body. */
  datatype Payload =
    | Error(message: string)                                  // { error }
    | InvalidRequest(message: string, details: FormattedErrors) // { error, details }
    | Issues(errors: FormattedErrors)                        // { error: formatted issues }
    | Raw(message: string, rawResponse: string)               // { error, rawResponse }
    | Success                                                 // { success: true }
    | AccountList(accounts: seq<Account>)
    | AccountRow(account: Account)
    | AgentList(agents: seq<Agent>)
    | AgentRow(agent: Agent)
    | RunList(runs: seq<AgentRun>)
    | RunRow(run: AgentRun)
    | InfoRow(info: CompanyInfo)
    | Generated(value: JsonValue)
    | MaybeCompany(company: Option<Company>)
    | Written                                                 // what a write without RETURNING resolves to

  datatype Response = Response(status: int, body: Payload)

  /** A handler's response together with the store it leaves behind. */
  datatype Handled = Handled(response: Response, store: Store)

  /** The session user id, if `session?.user?.id` is truthy. */
  predicate SignedIn(session: Option<Id>) {
    session.Some? && session.value != ""
  }

  function Unauthorized(s: Store): (r: Handled)
    ensures r.response.status == 401 && r.store == s
  {
    Handled(Response(401, Error("Unauthorized")), s)
  }

  function Reply(status: int, body: Payload, s: Store): Handled {
    Handled(Response(status, body), s)
  }
}

=== FILE: integrity.dfy ===
/**
 * Every query that writes keeps the database consistent: primary keys and the
 * unique website stay unique and every foreign key still names a row. Where a
 * query fails part-way, the store it leaves behind is consistent too.
 */
module Integrity {
  import opened Wrappers
  import opened Text
  import opened Tables
  import opened Schema
  import opened Database
  import opened Queries

  /** Rows of an UPDATE that leaves `col` alone take no new value of `col`. */
  lemma MapWhereColumn<T, C>(t: seq<T>, sel: T -> bool, f: T -> T, col: T -> C, y: T)
    requires forall x :: x in t && sel(x) ==> col(f(x)) == col(x)
    requires y in MapWhere(t, sel, f)
    ensures exists x :: x in t && col(x) == col(y)
  {
    var r := MapWhere(t, sel, f);
    var i :| 0 <= i < |r| && r[i] == y;
    assert t[i] in t;
  }

  lemma SaveChatValid(s: Store, id: Id, userId: Id, title: string, now: Time)
    requires Valid(s)
    ensures Valid(SaveChat(s, id, userId, title, now).store)
  {
    var r := SaveChat(s, id, userId, title, now);
    if r.result.Ok? {
      var c := Chat(id, now, title, userId, DefaultVisibility);
      AppendUnique(s.chats, c, ChatKey);
      assert ChatIds(r.store) == ChatIds(s) + {id};
    }
  }

  lemma DeleteChatByIdValid(s: Store, id: Id)
    requires Valid(s)
    ensures Valid(DeleteChatById(s, id).store)
  {
    if IsUuid(id) {
      var keep := (v: Vote) => v.chatId != id;
      var s1 := s.(votes := Filter(s.votes, keep));
      FilterUnique(s.votes, keep, VoteKey);
      assert Valid(s1);
      var p := (m: Message) => m.chatId == id;
      if DeleteMessagesWhere(s1, p).Ok? {
        var s2 := DeleteMessagesWhere(s1, p).value;
        DeleteMessagesWhereValid(s1, p);
        var q := (c: Chat) => c.id == id;
        if DeleteChatsWhere(s2, q).Ok? {
          DeleteChatsWhereValid(s2, q);
        }
      }
    }
  }

  lemma VoteMessageValid(s: Store, chatId: Id, messageId: Id, kind: VoteType)
    requires Valid(s)
    ensures Valid(VoteMessage(s, chatId, messageId, kind).store)
  {
    var r := VoteMessage(s, chatId, messageId, kind);
    if r.result.Ok? {
      if MessageHasVote(s, messageId) {
        var sel := (v: Vote) => v.messageId == messageId && v.chatId == chatId;
        var f := (v: Vote) => v.(isUpvoted := kind == Up);
        assert r.store.votes == MapWhere(s.votes, sel, f);
        MapWhereKeepsKeys(s.votes, sel, f, VoteKey);
        forall v | v in r.store.votes
          ensures v.chatId in ChatIds(s) && v.messageId in MessageIds(s)
        {
          MapWhereColumn(s.votes, sel, f, VoteKey, v);
        }
      } else {
        var v := Vote(chatId, messageId, kind == Up);
        assert VoteKey(v) !in Keys(s.votes, VoteKey);
        AppendUnique(s.votes, v, VoteKey);
      }
    }
  }

  lemma DeleteMessagesByChatIdAfterTimestampValid(s: Store, chatId: Id, timestamp: Time)
    requires Valid(s)
    ensures Valid(DeleteMessagesByChatIdAfterTimestamp(s, chatId, timestamp).store)
  {
    if IsUuid(chatId) && DeleteMessagesWhere(s, MessagesFrom(chatId, timestamp)).Ok? {
      DeleteMessagesWhereValid(s, MessagesFrom(chatId, timestamp));
    }
  }

  lemma DeleteMessagesWithVotesAfterTimestampValid(s: Store, chatId: Id, timestamp: Time)
    requires Valid(s)
    ensures Valid(DeleteMessagesWithVotesAfterTimestamp(s, chatId, timestamp).store)
  {
    if IsUuid(chatId) {
      var gone := Keys(Filter(s.messages, MessagesFrom(chatId, timestamp)), MessageKey);
      var keep := (v: Vote) => v.messageId !in gone;
      var s1 := s.(votes := Filter(s.votes, keep));
      FilterUnique(s.votes, keep, VoteKey);
      assert Valid(s1);
      DeleteMessagesWhereValid(s1, MessagesFrom(chatId, timestamp));
    }
  }

  lemma SaveDocumentValid(s: Store, id: Id, title: string, kind: DocumentKind, content: string, userId: Id,
                          now: Time)
    requires Valid(s)
    ensures Valid(SaveDocument(s, id, title, kind, content, userId, now).store)
  {
    var r := SaveDocument(s, id, title, kind, content, userId, now);
    if r.result.Ok? {
      var d := Document(id, now, title, Some(content), kind, userId);
      AppendUnique(s.documents, d, DocumentKey);
    }
  }

  lemma DeleteDocumentsByIdAfterTimestampValid(s: Store, id: Id, timestamp: Time)
    requires Valid(s)
    ensures Valid(DeleteDocumentsByIdAfterTimestamp(s, id, timestamp).store)
  {
    if IsUuid(id) {
      var keep := Not(SuggestionsAfter(id, timestamp));
      var s1 := s.(suggestions := Filter(s.suggestions, keep));
      FilterUnique(s.suggestions, keep, SuggestionKey);
      assert Valid(s1);
      DeleteDocumentsWhereValid(s1, VersionsAfter(id, timestamp));
    }
  }

  lemma SaveCompanyValid(s: Store, name: Option<string>, description: Option<string>, useCase: Option<string>,
                         userId: Id, newId: Id, now: Time)
    requires Valid(s)
    ensures Valid(SaveCompany(s, name, description, useCase, userId, newId, now).store)
  {
    var r := SaveCompany(s, name, description, useCase, userId, newId, now);
    if r.result.Ok? {
      var c := Company(newId, name.value, description.value, useCase.value, userId, now, now);
      AppendUnique(s.companies, c, CompanyKey);
    }
  }

  lemma UpdateCompanyValid(s: Store, id: Id, name: Assignment, description: Assignment, useCase: Assignment,
                           now: Time)
    requires Valid(s)
    ensures Valid(UpdateCompany(s, id, name, description, useCase, now).store)
  {
    var r := UpdateCompany(s, id, name, description, useCase, now);
    if r.store != s {
      var sel := (c: Company) => c.id == id;
      var f := (c: Company) => PatchCompany(c, name, description, useCase, now);
      assert r.store.companies == MapWhere(s.companies, sel, f);
      MapWhereKeepsKeys(s.companies, sel, f, CompanyKey);
      forall c | c in r.store.companies
        ensures c.userId in UserIds(s)
      {
        MapWhereColumn(s.companies, sel, f, (c: Company) => c.userId, c);
      }
    }
  }

  lemma CreateAgentValid(s: Store, a: NewAgent, newId: Id, now: Time)
    requires Valid(s)
    ensures Valid(CreateAgent(s, a, newId, now).store)
  {
    var r := CreateAgent(s, a, newId, now);
    if r.result.Ok? {
      AppendUnique(s.agents, r.result.value, AgentKey);
      assert AgentIds(r.store) == AgentIds(s) + {newId};
    }
  }

  lemma UpdateAgentValid(s: Store, p: AgentPatch, now: Time)
    requires Valid(s)
    ensures Valid(UpdateAgent(s, p, now).store)
  {
    var r := UpdateAgent(s, p, now);
    if r.result.Ok? {
      var sel := (a: Agent) => a.id == p.id;
      var f := (a: Agent) => PatchAgent(a, p, now);
      assert r.store.agents == MapWhere(s.agents, sel, f);
      MapWhereKeepsKeys(s.agents, sel, f, AgentKey);
      forall a | a in r.store.agents
        ensures a.userId in UserIds(s)
      {
        MapWhereColumn(s.agents, sel, f, (a: Agent) => a.userId, a);
      }
    }
  }

  lemma DeleteAgentValid(s: Store, id: Id)
    requires Valid(s)
    ensures Valid(DeleteAgent(s, id).store)
  {
    if IsUuid(id) {
      DeleteAgentsWhereValid(s, (a: Agent) => a.id == id);
    }
  }

  lemma CreateAccountValid(s: Store, a: NewAccount, newId: Id, now: Time)
    requires Valid(s)
    ensures Valid(CreateAccount(s, a, newId, now).store)
  {
    var r := CreateAccount(s, a, newId, now);
    if r.result.Ok? {
      AppendUnique(s.accounts, r.result.value, AccountKey);
      assert AccountIds(r.store) == AccountIds(s) + {newId};
    }
  }

  lemma UpdateAccountValid(s: Store, p: AccountPatch, now: Time)
    requires Valid(s)
    ensures Valid(UpdateAccount(s, p, now).store)
  {
    var r := UpdateAccount(s, p, now);
    if r.result.Ok? {
      var sel := (a: Account) => a.id == p.id;
      var f := (a: Account) => PatchAccount(a, p, now);
      assert r.store.accounts == MapWhere(s.accounts, sel, f);
      MapWhereKeepsKeys(s.accounts, sel, f, AccountKey);
      forall a | a in r.store.accounts
        ensures a.userId in UserIds(s)
      {
        MapWhereColumn(s.accounts, sel, f, (a: Account) => a.userId, a);
      }
    }
  }

  lemma DeleteAccountValid(s: Store, id: Id)
    requires Valid(s)
    ensures Valid(DeleteAccount(s, id).store)
  {
    if IsUuid(id) {
      DeleteAccountsWhereValid(s, (a: Account) => a.id == id);
    }
  }

  lemma SaveCompanyInfoValid(s: Store, f: InfoFields, newId: Id, now: Time)
    requires Valid(s)
    ensures Valid(SaveCompanyInfo(s, f, newId, now).store)
  {
    var r := SaveCompanyInfo(s, f, newId, now);
    if r.result.Ok? {
      var rows := r.store.companyInfos;
      if f.website in InfoWebsites(s) {
        var id := GetCompanyInfoByWebsite(s, f.website).value.id;
        var sel := InfoIdIs(id);
        var g := (i: CompanyInfo) => RewriteInfo(i, f, now);
        assert rows == MapWhere(s.companyInfos, sel, g);
        MapWhereKeepsKeys(s.companyInfos, sel, g, InfoKey);
        MapWhereKeepsKeys(s.companyInfos, sel, g, InfoWebsite);
      } else {
        AppendUnique(s.companyInfos, r.result.value, InfoKey);
        AppendUnique(s.companyInfos, r.result.value, InfoWebsite);
      }
      ValidWithInfos(s, rows);
      assert r.store == s.(companyInfos := rows);
    }
  }

  /** No foreign key points into CompanyInfo, so a table with both its keys unique keeps the store valid. */
  lemma ValidWithInfos(s: Store, rows: seq<CompanyInfo>)
    requires Valid(s)
    requires UniqueBy(rows, InfoKey) && UniqueBy(rows, InfoWebsite)
    ensures Valid(s.(companyInfos := rows))
  {
    var t := s.(companyInfos := rows);
    assert UserIds(t) == UserIds(s) && ChatIds(t) == ChatIds(s) && MessageIds(t) == MessageIds(s);
    assert DocumentKeys(t) == DocumentKeys(s) && AgentIds(t) == AgentIds(s) && AccountIds(t) == AccountIds(s);
  }

  lemma CreateAgentRunValid(s: Store, n: NewRun, newId: Id, now: Time)
    requires Valid(s)
    ensures Valid(CreateAgentRun(s, n, newId, now).store)
  {
    var r := CreateAgentRun(s, n, newId, now);
    if r.result.Ok? {
      AppendUnique(s.agentRuns, r.result.value, RunKey);
    }
  }

  lemma UpdateAgentRunStatusValid(s: Store, id: Id, status: string, now: Time)
    requires Valid(s)
    ensures Valid(UpdateAgentRunStatus(s, id, status, now).store)
  {
    var r := UpdateAgentRunStatus(s, id, status, now);
    if r.result.Ok? {
      var sel := (x: AgentRun) => x.id == id;
      var f := (x: AgentRun) => x.(status := status, updatedAt := now);
      assert r.store.agentRuns == MapWhere(s.agentRuns, sel, f);
      MapWhereKeepsKeys(s.agentRuns, sel, f, RunKey);
      forall x | x in r.store.agentRuns
        ensures x.agentId in AgentIds(s) && x.accountId in AccountIds(s)
        ensures x.chatId in ChatIds(s) && x.userId in UserIds(s)
      {
        var i :| 0 <= i < |r.store.agentRuns| && r.store.agentRuns[i] == x;
        assert s.agentRuns[i] in s.agentRuns;
      }
    }
  }
}

=== FILE: queries.dfy ===
/**
 * The query layer: each exported query of the database module as a pure
 * function from the store to what it returns (or throws) and the store
 * after it. Queries run statement by statement without a transaction, so a
 * query that fails in its second statement keeps the effect of its first.
 * Generated ids (`defaultRandom()`) and clock readings (`new Date()`,
 * `defaultNow()`) are parameters.
 */
module Queries {
  import opened Wrappers
  import opened Text
  import opened Tables
  import opened Schema
  import opened Database

  /** What a query returned or threw, and the store after it. */
  datatype Outcome<T> = Outcome(result: Result<T, QueryError>, store: Store)

  function Fail<T>(e: QueryError, s: Store): (r: Outcome<T>)
    ensures r.result.Err? && r.store == s
  {
    Outcome(Err(e), s)
  }

  /** The value of a column left unset by an UPDATE keeps its stored value. */
  function Assign<T>(supplied: Option<T>, stored: T): T {
    match supplied
    case Some(v) => v
    case None => stored
  }

  /** The same, for a nullable column. */
  function AssignNullable<T>(supplied: Option<T>, stored: Option<T>): Option<T> {
    if supplied.Some? then supplied else stored
  }

  // ---------------------------------------------------------------- chats

  /** `saveChat`: visibility is left to its column default. */
  function SaveChat(s: Store, id: Id, userId: Id, title: string, now: Time): (r: Outcome<()>)
    ensures r.result.Ok? <==> IsUuid(id) && IsUuid(userId) && id !in ChatIds(s) && userId in UserIds(s)
    ensures r.result.Ok? ==> r.store == s.(chats := s.chats + [Chat(id, now, title, userId, DefaultVisibility)])
    ensures r.result.Err? ==> r.store == s
  {
    if !IsUuid(id) then Fail(InvalidUuid(id), s)
    else if !IsUuid(userId) then Fail(InvalidUuid(userId), s)
    else if id in ChatIds(s) then Fail(DuplicateKey("Chat_pkey"), s)
    else if userId !in UserIds(s) then Fail(MissingReference("Chat", "Chat_userId_User_id_fk"), s)
    else Outcome(Ok(()), s.(chats := s.chats + [Chat(id, now, title, userId, Private)]))
  }

  function MessagesOfChat(s: Store, chatId: Id): seq<Message> {
    Filter(s.messages, (m: Message) => m.chatId == chatId)
  }

  /** Some vote filed under another chat refers to a message of chat `id`. */
  predicate StrayVote(s: Store, id: Id) {
    exists v :: v in s.votes && v.chatId != id && v.messageId in Keys(MessagesOfChat(s, id), MessageKey)
  }

  /**
   * `deleteChatById`: deletes the chat's votes, then its messages, then the chat (which
   * cascades to its agent runs). The second statement fails when a vote filed under
   * another chat still refers to one of the messages; the votes are already gone then.
   */
  function DeleteChatById(s: Store, id: Id): (r: Outcome<()>)
    ensures !IsUuid(id) ==> r == Fail(InvalidUuid(id), s)
    ensures IsUuid(id) ==> (r.result.Ok? <==> !StrayVote(s, id))
    ensures IsUuid(id) && StrayVote(s, id) ==>
              r.store == s.(votes := Filter(s.votes, (v: Vote) => v.chatId != id))
    ensures r.result.Ok? ==>
      && (forall v :: v in r.store.votes <==> v in s.votes && v.chatId != id)
      && (forall m :: m in r.store.messages <==> m in s.messages && m.chatId != id)
      && (forall c :: c in r.store.chats <==> c in s.chats && c.id != id)
      && (forall x :: x in r.store.agentRuns <==> x in s.agentRuns && !(x.chatId == id && id in ChatIds(s)))
      && r.store == s.(votes := r.store.votes, messages := r.store.messages, chats := r.store.chats,
                       agentRuns := r.store.agentRuns)
  {
    if !IsUuid(id) then Fail(InvalidUuid(id), s)
    else
      var s1 := s.(votes := Filter(s.votes, (v: Vote) => v.chatId != id));
      assert Keys(Filter(s1.messages, (m: Message) => m.chatId == id), MessageKey)
          == Keys(MessagesOfChat(s, id), MessageKey);
      match DeleteMessagesWhere(s1, (m: Message) => m.chatId == id)
      case Err(e) => Outcome(Err(e), s1)
      case Ok(s2) =>
        assert Keys(Filter(s2.chats, (c: Chat) => c.id == id), ChatKey) == if id in ChatIds(s) then {id} else {};
        match DeleteChatsWhere(s2, (c: Chat) => c.id == id)
        case Err(e) => Outcome(Err(e), s2)
        case Ok(s3) =>
          Outcome(Ok(()), s3)
  }

  // ------------------------------------------------------------- messages

  datatype VoteType = Up | Down

  /** Some vote, of any chat, exists for the message. */
  predicate MessageHasVote(s: Store, messageId: Id) {
    exists v :: v in s.votes && v.messageId == messageId
  }

  /**
   * `voteMessage`: looks a vote up by message id alone; if one exists, updates the votes
   * matching both the message and the chat, otherwise inserts one.
   */
  function VoteMessage(s: Store, chatId: Id, messageId: Id, kind: VoteType): (r: Outcome<()>)
    ensures r.result.Ok? <==>
      IsUuid(messageId) && IsUuid(chatId) &&
      (MessageHasVote(s, messageId) || (chatId in ChatIds(s) && messageId in MessageIds(s)))
    ensures r.result.Err? ==> r.store == s
    ensures r.store == s.(votes := r.store.votes)
    ensures r.result.Ok? && MessageHasVote(s, messageId) ==>
      && |r.store.votes| == |s.votes|
      && forall i :: 0 <= i < |s.votes| ==>
           && VoteKey(r.store.votes[i]) == VoteKey(s.votes[i])
           && r.store.votes[i].isUpvoted ==
                if VoteKey(s.votes[i]) == (chatId, messageId) then kind == Up else s.votes[i].isUpvoted
    ensures r.result.Ok? && !MessageHasVote(s, messageId) ==>
      r.store.votes == s.votes + [Vote(chatId, messageId, kind == Up)]
  {
    if !IsUuid(messageId) then Fail(InvalidUuid(messageId), s)
    else
      match FirstWhere(s.votes, (v: Vote) => v.messageId == messageId)
      case Some(existing) =>
        if !IsUuid(chatId) then Fail(InvalidUuid(chatId), s)
        else
          Outcome(Ok(()), s.(votes := MapWhere(s.votes, (v: Vote) => v.messageId == messageId && v.chatId == chatId,
                                               (v: Vote) => v.(isUpvoted := kind == Up))))
      case None =>
        if !IsUuid(chatId) then Fail(InvalidUuid(chatId), s)
        else if chatId !in ChatIds(s) then Fail(MissingReference("Vote", "Vote_chatId_Chat_id_fk"), s)
        else if messageId !in MessageIds(s) then Fail(MissingReference("Vote", "Vote_messageId_Message_id_fk"), s)
        else Outcome(Ok(()), s.(votes := s.votes + [Vote(chatId, messageId, kind == Up)]))
  }

  /** The messages `deleteMessagesByChatIdAfterTimestamp` selects: that chat's, at or after the instant. */
  function MessagesFrom(chatId: Id, timestamp: Time): Message -> bool {
    (m: Message) => m.chatId == chatId && m.createdAt >= timestamp
  }

  /**
   * `deleteMessagesByChatIdAfterTimestamp` as written: one DELETE of the chat's messages
   * created at or after `timestamp` (inclusive cut-off). Votes refer to messages with
   * NO ACTION, so the statement fails when any of those messages has a vote.
   */
  function DeleteMessagesByChatIdAfterTimestamp(s: Store, chatId: Id, timestamp: Time): (r: Outcome<()>)
    ensures !IsUuid(chatId) ==> r == Fail(InvalidUuid(chatId), s)
    ensures IsUuid(chatId) ==>
      (r.result.Ok? <==> forall v :: v in s.votes ==>
                           v.messageId !in Keys(Filter(s.messages, MessagesFrom(chatId, timestamp)), MessageKey))
    ensures r.result.Err? ==> r.store == s
    ensures r.result.Ok? ==>
      && (forall m :: m in r.store.messages <==> m in s.messages && !(m.chatId == chatId && m.createdAt >= timestamp))
      && r.store == s.(messages := r.store.messages)
  {
    if !IsUuid(chatId) then Fail(InvalidUuid(chatId), s)
    else
      match DeleteMessagesWhere(s, MessagesFrom(chatId, timestamp))
      case Err(e) => Fail(e, s)
      case Ok(s1) => Outcome(Ok(()), s1)
  }

  /**
   * The deletion `deleteMessagesByChatIdAfterTimestamp` evidently intends: first the votes
   * on the selected messages, then the messages, so that the foreign key cannot object.
   */
  function DeleteMessagesWithVotesAfterTimestamp(s: Store, chatId: Id, timestamp: Time): (r: Outcome<()>)
    ensures r.result.Ok? <==> IsUuid(chatId)
    ensures r.result.Err? ==> r.store == s
    ensures r.result.Ok? ==>
      var gone := Keys(Filter(s.messages, MessagesFrom(chatId, timestamp)), MessageKey);
      && (forall m :: m in r.store.messages <==> m in s.messages && !(m.chatId == chatId && m.createdAt >= timestamp))
      && (forall v :: v in r.store.votes <==> v in s.votes && v.messageId !in gone)
      && r.store == s.(messages := r.store.messages, votes := r.store.votes)
  {
    if !IsUuid(chatId) then Fail(InvalidUuid(chatId), s)
    else
      var gone := Keys(Filter(s.messages, MessagesFrom(chatId, timestamp)), MessageKey);
      var s1 := s.(votes := Filter(s.votes, (v: Vote) => v.messageId !in gone));
      match DeleteMessagesWhere(s1, MessagesFrom(chatId, timestamp))
      case Err(e) => assert false; Fail(e, s)
      case Ok(s2) => Outcome(Ok(()), s2)
  }

  // ------------------------------------------------------------ documents

  /** `saveDocument`: a new version of document `id`, keyed by (id, createdAt). */
  function SaveDocument(s: Store, id: Id, title: string, kind: DocumentKind, content: string, userId: Id,
                        now: Time): (r: Outcome<()>)
    ensures r.result.Ok? <==>
      IsUuid(id) && IsUuid(userId) && (id, now) !in DocumentKeys(s) && userId in UserIds(s)
    ensures r.result.Ok? ==>
      r.store == s.(documents := s.documents + [Document(id, now, title, Some(content), kind, userId)])
    ensures r.result.Err? ==> r.store == s
  {
    if !IsUuid(id) then Fail(InvalidUuid(id), s)
    else if !IsUuid(userId) then Fail(InvalidUuid(userId), s)
    else if (id, now) in DocumentKeys(s) then Fail(DuplicateKey("Document_id_createdAt_pk"), s)
    else if userId !in UserIds(s) then Fail(MissingReference("Document", "Document_userId_User_id_fk"), s)
    else Outcome(Ok(()), s.(documents := s.documents + [Document(id, now, title, Some(content), kind, userId)]))
  }

  function DocumentCreated(d: Document): int { d.createdAt }

  /** `getDocumentById`: the latest version of the document. */
  function GetDocumentById(s: Store, id: Id): (r: Result<Option<Document>, QueryError>)
    ensures r.Err? <==> !IsUuid(id)
    ensures r.Ok? && r.value.None? ==> forall d :: d in s.documents ==> d.id != id
    ensures r.Ok? && r.value.Some? ==>
      && r.value.value in s.documents && r.value.value.id == id
      && forall d :: d in s.documents && d.id == id ==> d.createdAt <= r.value.value.createdAt
  {
    if !IsUuid(id) then Err(InvalidUuid(id))
    else Ok(Latest(Filter(s.documents, (d: Document) => d.id == id), DocumentCreated))
  }

  /** The suggestions `deleteDocumentsByIdAfterTimestamp` removes: on versions strictly after the instant. */
  function SuggestionsAfter(id: Id, timestamp: Time): Suggestion -> bool {
    (g: Suggestion) => g.documentId == id && g.documentCreatedAt > timestamp
  }

  /** The versions `deleteDocumentsByIdAfterTimestamp` removes: created strictly after the instant. */
  function VersionsAfter(id: Id, timestamp: Time): Document -> bool {
    (d: Document) => d.id == id && d.createdAt > timestamp
  }

  /**
   * `deleteDocumentsByIdAfterTimestamp`: deletes the suggestions on the versions created
   * strictly after `timestamp`, then those versions (exclusive cut-off).
   */
  function DeleteDocumentsByIdAfterTimestamp(s: Store, id: Id, timestamp: Time): (r: Outcome<()>)
    ensures r.result.Ok? <==> IsUuid(id)
    ensures r.result.Err? ==> r.store == s
    ensures r.result.Ok? ==>
      && (forall d :: d in r.store.documents <==> d in s.documents && !(d.id == id && d.createdAt > timestamp))
      && (forall g :: g in r.store.suggestions <==>
                        g in s.suggestions && !(g.documentId == id && g.documentCreatedAt > timestamp))
      && r.store == s.(documents := r.store.documents, suggestions := r.store.suggestions)
  {
    if !IsUuid(id) then Fail(InvalidUuid(id), s)
    else
      var s1 := s.(suggestions := Filter(s.suggestions, Not(SuggestionsAfter(id, timestamp))));
      assert forall g :: g in s1.suggestions ==>
               SuggestionDocument(g) !in Keys(Filter(s1.documents, VersionsAfter(id, timestamp)), DocumentKey);
      match DeleteDocumentsWhere(s1, VersionsAfter(id, timestamp))
      case Err(e) => assert false; Fail(e, s)
      case Ok(s2) => Outcome(Ok(()), s2)
  }

  // ------------------------------------------------------------ companies

  /** A column of an UPDATE: left alone, set to a text, or set to NULL. */
  datatype Assignment = Keep | SetTo(text: string) | SetNull

  /** `saveCompany`; a missing (undefined or null) text becomes NULL and is refused by NOT NULL. */
  function SaveCompany(s: Store, name: Option<string>, description: Option<string>, useCase: Option<string>,
                       userId: Id, newId: Id, now: Time): (r: Outcome<()>)
    ensures r.result.Ok? <==>
      && IsUuid(userId) && name.Some? && description.Some? && useCase.Some?
      && newId !in Keys(s.companies, CompanyKey) && userId in UserIds(s)
    ensures r.result.Err? ==> r.store == s
    ensures r.result.Ok? ==>
      r.store == s.(companies := s.companies +
                      [Company(newId, name.value, description.value, useCase.value, userId, now, now)])
  {
    if !IsUuid(userId) then Fail(InvalidUuid(userId), s)
    else if name.None? then Fail(NullValue("Company", "name"), s)
    else if description.None? then Fail(NullValue("Company", "description"), s)
    else if useCase.None? then Fail(NullValue("Company", "useCase"), s)
    else if newId in Keys(s.companies, CompanyKey) then Fail(DuplicateKey("Company_pkey"), s)
    else if userId !in UserIds(s) then Fail(MissingReference("Company", "Company_userId_User_id_fk"), s)
    else Outcome(Ok(()), s.(companies := s.companies +
                              [Company(newId, name.value, description.value, useCase.value, userId, now, now)]))
  }

  function CompanyUpdated(c: Company): int { c.updatedAt }

  /** `getCompanyByUserId`: the user's company most recently updated. */
  function GetCompanyByUserId(s: Store, userId: Id): (r: Result<Option<Company>, QueryError>)
    ensures r.Err? <==> !IsUuid(userId)
    ensures r.Ok? && r.value.None? ==> forall c :: c in s.companies ==> c.userId != userId
    ensures r.Ok? && r.value.Some? ==>
      && r.value.value in s.companies && r.value.value.userId == userId
      && forall c :: c in s.companies && c.userId == userId ==> c.updatedAt <= r.value.value.updatedAt
  {
    if !IsUuid(userId) then Err(InvalidUuid(userId))
    else Ok(Latest(Filter(s.companies, (c: Company) => c.userId == userId), CompanyUpdated))
  }

  function AssignText(a: Assignment, stored: string): string {
    if a.SetTo? then a.text else stored
  }

  function PatchCompany(c: Company, name: Assignment, description: Assignment, useCase: Assignment,
                        now: Time): Company {
    c.(name := AssignText(name, c.name), description := AssignText(description, c.description),
       useCase := AssignText(useCase, c.useCase), updatedAt := now)
  }

  /**
   * `updateCompany`: unset columns keep their values (the update builder drops undefined
   * keys); NULL is refused only if some row is actually updated.
   */
  function UpdateCompany(s: Store, id: Id, name: Assignment, description: Assignment, useCase: Assignment,
                         now: Time): (r: Outcome<()>)
    ensures r.result.Ok? <==>
      IsUuid(id) &&
      ((forall c :: c in s.companies ==> c.id != id) || (!name.SetNull? && !description.SetNull? && !useCase.SetNull?))
    ensures r.result.Err? ==> r.store == s
    ensures r.store == s.(companies := r.store.companies)
    ensures |r.store.companies| == |s.companies|
    ensures forall i :: 0 <= i < |s.companies| && s.companies[i].id != id ==> r.store.companies[i] == s.companies[i]
    ensures r.result.Ok? ==> forall i :: 0 <= i < |s.companies| && s.companies[i].id == id ==>
      && r.store.companies[i].updatedAt == now
      && r.store.companies[i] == s.companies[i].(name := r.store.companies[i].name,
                                                 description := r.store.companies[i].description,
                                                 useCase := r.store.companies[i].useCase, updatedAt := now)
      && (name.SetTo? ==> r.store.companies[i].name == name.text)
      && (name.Keep? ==> r.store.companies[i].name == s.companies[i].name)
      && (description.SetTo? ==> r.store.companies[i].description == description.text)
      && (description.Keep? ==> r.store.companies[i].description == s.companies[i].description)
      && (useCase.SetTo? ==> r.store.companies[i].useCase == useCase.text)
      && (useCase.Keep? ==> r.store.companies[i].useCase == s.companies[i].useCase)
  {
    if !IsUuid(id) then Fail(InvalidUuid(id), s)
    else if exists c :: c in s.companies && c.id == id then
      if name.SetNull? then Fail(NullValue("Company", "name"), s)
      else if description.SetNull? then Fail(NullValue("Company", "description"), s)
      else if useCase.SetNull? then Fail(NullValue("Company", "useCase"), s)
      else
        Outcome(Ok(()), s.(companies := MapWhere(s.companies, (c: Company) => c.id == id,
                                                  (c: Company) => PatchCompany(c, name, description, useCase, now))))
    else Outcome(Ok(()), s)
  }

  // --------------------------------------------------------------- agents

  /** `createAgent`'s arguments; `description` may be undefined, which stores NULL. */
  datatype NewAgent = NewAgent(name: string, description: Option<string>, instructions: string,
                               isActive: bool, searchType: string, userId: Id)

  /** `createAgent`, returning the inserted row. */
  function CreateAgent(s: Store, a: NewAgent, newId: Id, now: Time): (r: Outcome<Agent>)
    ensures r.result.Ok? <==> IsUuid(a.userId) && newId !in AgentIds(s) && a.userId in UserIds(s)
    ensures r.result.Err? ==> r.store == s
    ensures r.result.Ok? ==>
      var agent := r.result.value;
      && agent == Agent(newId, a.name, a.description, a.instructions, a.isActive, a.searchType, a.userId, now, now)
      && r.store == s.(agents := s.agents + [agent])
  {
    if !IsUuid(a.userId) then Fail(InvalidUuid(a.userId), s)
    else if newId in AgentIds(s) then Fail(DuplicateKey("Agent_pkey"), s)
    else if a.userId !in UserIds(s) then Fail(MissingReference("Agent", "Agent_userId_User_id_fk"), s)
    else
      var agent := Agent(newId, a.name, a.description, a.instructions, a.isActive, a.searchType, a.userId, now, now);
      Outcome(Ok(agent), s.(agents := s.agents + [agent]))
  }

  function AgentCreated(a: Agent): int { a.createdAt }

  /** The rows of `WHERE "userId" = $userId` on the agents, in table order. */
  function AgentsOf(s: Store, userId: Id): seq<Agent> {
    Filter(s.agents, (a: Agent) => a.userId == userId)
  }

  /** `getAgentsByUserId`: the user's agents, newest first. */
  function GetAgentsByUserId(s: Store, userId: Id): (r: Result<seq<Agent>, QueryError>)
    ensures r.Err? <==> !IsUuid(userId)
    ensures r.Ok? ==> SortedDesc(r.value, AgentCreated)
    ensures r.Ok? ==> forall a :: a in r.value <==> a in s.agents && a.userId == userId
    ensures r.Ok? ==> multiset(r.value) == multiset(AgentsOf(s, userId))
  {
    if !IsUuid(userId) then Err(InvalidUuid(userId))
    else
      var owned := AgentsOf(s, userId);
      var sorted := SortDesc(owned, AgentCreated);
      SortDescSameRows(owned, AgentCreated);
      Ok(sorted)
  }

  /** `updateAgent`'s arguments: an undefined field is left out of the SET. */
  datatype AgentPatch = AgentPatch(id: Id, name: Option<string>, description: Option<string>,
                                   instructions: Option<string>, isActive: Option<bool>,
                                   searchType: Option<string>)

  function PatchAgent(a: Agent, p: AgentPatch, now: Time): Agent {
    a.(name := Assign(p.name, a.name), description := AssignNullable(p.description, a.description),
       instructions := Assign(p.instructions, a.instructions), isActive := Assign(p.isActive, a.isActive),
       searchType := Assign(p.searchType, a.searchType), updatedAt := now)
  }

  /** `updateAgent`, returning the first updated row, or nothing when no agent has the id. */
  function UpdateAgent(s: Store, p: AgentPatch, now: Time): (r: Outcome<Option<Agent>>)
    ensures r.result.Err? <==> !IsUuid(p.id)
    ensures r.result.Err? ==> r.store == s
    ensures r.store == s.(agents := r.store.agents)
    ensures |r.store.agents| == |s.agents|
    ensures forall i :: 0 <= i < |s.agents| && s.agents[i].id != p.id ==> r.store.agents[i] == s.agents[i]
    ensures r.result.Ok? ==> forall i :: 0 <= i < |s.agents| && s.agents[i].id == p.id ==>
      r.store.agents[i] == PatchAgent(s.agents[i], p, now)
    ensures r.result.Ok? ==> (r.result.value.None? <==> forall a :: a in s.agents ==> a.id != p.id)
    ensures r.result.Ok? && r.result.value.Some? ==>
      var a := r.result.value.value;
      && a in r.store.agents && a.id == p.id && a.updatedAt == now
      && (p.name.Some? ==> a.name == p.name.value)
      && (p.instructions.Some? ==> a.instructions == p.instructions.value)
      && (p.isActive.Some? ==> a.isActive == p.isActive.value)
      && (p.searchType.Some? ==> a.searchType == p.searchType.value)
      && (p.description.Some? ==> a.description == p.description)
  {
    if !IsUuid(p.id) then Fail(InvalidUuid(p.id), s)
    else
      var agents' := MapWhere(s.agents, (a: Agent) => a.id == p.id, (a: Agent) => PatchAgent(a, p, now));
      match FirstWhere(s.agents, (a: Agent) => a.id == p.id)
      case None => Outcome(Ok(None), s.(agents := agents'))
      case Some(a) =>
        assert a in s.agents;
        var i :| 0 <= i < |s.agents| && s.agents[i] == a;
        assert agents'[i] == PatchAgent(a, p, now);
        Outcome(Ok(Some(PatchAgent(a, p, now))), s.(agents := agents'))
  }

  /** `deleteAgent`: deletes the agent (cascading to its runs) and returns the deleted row, if any. */
  function DeleteAgent(s: Store, id: Id): (r: Outcome<Option<Agent>>)
    ensures r.result.Err? <==> !IsUuid(id)
    ensures r.result.Err? ==> r.store == s
    ensures r.result.Ok? ==>
      && (r.result.value.None? <==> forall a :: a in s.agents ==> a.id != id)
      && (r.result.value.Some? ==> r.result.value.value in s.agents && r.result.value.value.id == id)
      && (forall a :: a in r.store.agents <==> a in s.agents && a.id != id)
      && (forall x :: x in r.store.agentRuns <==> x in s.agentRuns && !(x.agentId == id && id in AgentIds(s)))
      && r.store == s.(agents := r.store.agents, agentRuns := r.store.agentRuns)
  {
    if !IsUuid(id) then Fail(InvalidUuid(id), s)
    else
      var p := (a: Agent) => a.id == id;
      assert Keys(Filter(s.agents, p), AgentKey) == if id in AgentIds(s) then {id} else {};
      Outcome(Ok(FirstWhere(s.agents, p)), DeleteAgentsWhere(s, p))
  }

  // ------------------------------------------------------------- accounts

  /** `createAccount`'s arguments. */
  datatype NewAccount = NewAccount(name: string, website: string, industry: Option<string>,
                                   description: Option<string>, logo: Option<string>, userId: Id)

  /** `createAccount`, returning the inserted row. */
  function CreateAccount(s: Store, a: NewAccount, newId: Id, now: Time): (r: Outcome<Account>)
    ensures r.result.Ok? <==> IsUuid(a.userId) && newId !in AccountIds(s) && a.userId in UserIds(s)
    ensures r.result.Err? ==> r.store == s
    ensures r.result.Ok? ==>
      var account := r.result.value;
      && account == Account(newId, a.name, a.website, a.industry, a.description, a.logo, a.userId, now, now)
      && r.store == s.(accounts := s.accounts + [account])
  {
    if !IsUuid(a.userId) then Fail(InvalidUuid(a.userId), s)
    else if newId in AccountIds(s) then Fail(DuplicateKey("Account_pkey"), s)
    else if a.userId !in UserIds(s) then Fail(MissingReference("Account", "Account_userId_User_id_fk"), s)
    else
      var account := Account(newId, a.name, a.website, a.industry, a.description, a.logo, a.userId, now, now);
      Outcome(Ok(account), s.(accounts := s.accounts + [account]))
  }

  function AccountCreated(a: Account): int { a.createdAt }

  /** The rows of `WHERE "userId" = $userId` on the accounts, in table order. */
  function AccountsOf(s: Store, userId: Id): seq<Account> {
    Filter(s.accounts, (a: Account) => a.userId == userId)
  }

  /** `getAccountsByUserId`: the user's accounts, newest first. */
  function GetAccountsByUserId(s: Store, userId: Id): (r: Result<seq<Account>, QueryError>)
    ensures r.Err? <==> !IsUuid(userId)
    ensures r.Ok? ==> SortedDesc(r.value, AccountCreated)
    ensures r.Ok? ==> forall a :: a in r.value <==> a in s.accounts && a.userId == userId
    ensures r.Ok? ==> multiset(r.value) == multiset(AccountsOf(s, userId))
  {
    if !IsUuid(userId) then Err(InvalidUuid(userId))
    else
      var owned := AccountsOf(s, userId);
      var sorted := SortDesc(owned, AccountCreated);
      SortDescSameRows(owned, AccountCreated);
      Ok(sorted)
  }

  function AccountWithId(s: Store, id: Id): Option<Account> {
    FirstWhere(s.accounts, (a: Account) => a.id == id)
  }

  /** `getAccountById`: the first account with the id. */
  function GetAccountById(s: Store, id: Id): (r: Result<Option<Account>, QueryError>)
    ensures r.Err? <==> !IsUuid(id)
    ensures r.Ok? ==> (r.value.None? <==> forall a :: a in s.accounts ==> a.id != id)
    ensures r.Ok? && r.value.Some? ==> r.value.value in s.accounts && r.value.value.id == id
  {
    if !IsUuid(id) then Err(InvalidUuid(id)) else Ok(AccountWithId(s, id))
  }

  /** `updateAccount`'s arguments: an undefined field is left out of the update. */
  datatype AccountPatch = AccountPatch(id: Id, name: Option<string>, website: Option<string>,
                                       industry: Option<string>, description: Option<string>,
                                       logo: Option<string>)

  function PatchAccount(a: Account, p: AccountPatch, now: Time): Account {
    a.(name := Assign(p.name, a.name), website := Assign(p.website, a.website),
       industry := AssignNullable(p.industry, a.industry), description := AssignNullable(p.description, a.description),
       logo := AssignNullable(p.logo, a.logo), updatedAt := now)
  }

  /**
   * The guard of `updateAccount`: the new website is falsy (not supplied, or empty) and the
   * stored one is empty too.
   */
  predicate WebsiteMissing(p: AccountPatch, stored: Account) {
    (p.website.None? || p.website.value == "") && stored.website == ""
  }

  /**
   * `updateAccount`: reads the account (throwing when there is none), refuses an update that
   * would leave the website empty, then updates the supplied fields and `updatedAt`.
   */
  function UpdateAccount(s: Store, p: AccountPatch, now: Time): (r: Outcome<Option<Account>>)
    ensures !IsUuid(p.id) ==> r == Fail(InvalidUuid(p.id), s)
    ensures IsUuid(p.id) && (forall a :: a in s.accounts ==> a.id != p.id) ==> r == Fail(AccountNotFound(p.id), s)
    ensures r.result.Err? ==> r.store == s
    ensures r.store == s.(accounts := r.store.accounts)
    ensures |r.store.accounts| == |s.accounts|
    ensures forall i :: 0 <= i < |s.accounts| && s.accounts[i].id != p.id ==> r.store.accounts[i] == s.accounts[i]
    ensures r.result.Ok? ==> r.result.value.Some?
    ensures r.result.Ok? ==> forall i :: 0 <= i < |s.accounts| && s.accounts[i].id == p.id ==>
      r.store.accounts[i] == PatchAccount(s.accounts[i], p, now)
    ensures IsUuid(p.id) && (exists a :: a in s.accounts && a.id == p.id) ==>
      && (r.result.Err? <==> WebsiteMissing(p, AccountWithId(s, p.id).value))
      && (r.result.Err? ==> r.result.error == WebsiteRequired)
    ensures r.result.Ok? ==>
      var a := r.result.value.value;
      var old_ := AccountWithId(s, p.id).value;
      && a in r.store.accounts && a.id == p.id && a.userId == old_.userId && a.createdAt == old_.createdAt
      && a.updatedAt == now
      && a.name == Assign(p.name, old_.name) && a.website == Assign(p.website, old_.website)
      && a.industry == AssignNullable(p.industry, old_.industry)
      && a.description == AssignNullable(p.description, old_.description)
      && a.logo == AssignNullable(p.logo, old_.logo)
  {
    match GetAccountById(s, p.id)
    case Err(e) => Fail(e, s)
    case Ok(None) => Fail(AccountNotFound(p.id), s)
    case Ok(Some(existing)) =>
      if WebsiteMissing(p, existing) then Fail(WebsiteRequired, s)
      else
        var accounts' := MapWhere(s.accounts, (a: Account) => a.id == p.id, (a: Account) => PatchAccount(a, p, now));
        assert existing in s.accounts;
        var i :| 0 <= i < |s.accounts| && s.accounts[i] == existing;
        assert accounts'[i] == PatchAccount(existing, p, now);
        Outcome(Ok(Some(PatchAccount(existing, p, now))), s.(accounts := accounts'))
  }

  /** `deleteAccount`: deletes the account (cascading to its runs) and returns the deleted row, if any. */
  function DeleteAccount(s: Store, id: Id): (r: Outcome<Option<Account>>)
    ensures r.result.Err? <==> !IsUuid(id)
    ensures r.result.Err? ==> r.store == s
    ensures r.result.Ok? ==>
      && (r.result.value.None? <==> forall a :: a in s.accounts ==> a.id != id)
      && (r.result.value.Some? ==> r.result.value.value in s.accounts && r.result.value.value.id == id)
      && (forall a :: a in r.store.accounts <==> a in s.accounts && a.id != id)
      && (forall x :: x in r.store.agentRuns <==> x in s.agentRuns && !(x.accountId == id && id in AccountIds(s)))
      && r.store == s.(accounts := r.store.accounts, agentRuns := r.store.agentRuns)
  {
    if !IsUuid(id) then Fail(InvalidUuid(id), s)
    else
      var p := (a: Account) => a.id == id;
      assert Keys(Filter(s.accounts, p), AccountKey) == if id in AccountIds(s) then {id} else {};
      Outcome(Ok(FirstWhere(s.accounts, p)), DeleteAccountsWhere(s, p))
  }

  /** How many accounts `searchAccounts` returns at most. */
  const SearchLimit := 10

  /** The accounts `searchAccounts` matches: the user's, with the query in the name, ignoring case. */
  function SearchMatches(s: Store, query: string, userId: Id): seq<Account> {
    Filter(s.accounts, (a: Account) => a.userId == userId && ContainsIgnoringCase(a.name, query))
  }

  /** `searchAccounts`: the newest ten of the user's accounts whose name contains the query. */
  function SearchAccounts(s: Store, query: string, userId: Id): (r: Result<seq<Account>, QueryError>)
    ensures r.Err? <==> !IsUuid(userId)
    ensures r.Ok? ==> |r.value| <= SearchLimit
    ensures r.Ok? ==> |r.value| == if |SearchMatches(s, query, userId)| < SearchLimit
                                  then |SearchMatches(s, query, userId)| else SearchLimit
    ensures r.Ok? ==> forall a :: a in r.value ==>
                        a in s.accounts && a.userId == userId && ContainsIgnoringCase(a.name, query)
    ensures r.Ok? ==> SortedDesc(r.value, AccountCreated)
    ensures r.Ok? ==> forall a, b :: a in SearchMatches(s, query, userId) && a !in r.value && b in r.value ==>
                                    AccountCreated(a) <= AccountCreated(b)
    ensures r.Ok? ==> multiset(r.value) <= multiset(SearchMatches(s, query, userId))
    ensures r.Ok? ==> var m := SearchMatches(s, query, userId);
                      forall a, b :: a in m && multiset(r.value)[a] < multiset(m)[a] && b in r.value ==>
                                    AccountCreated(a) <= AccountCreated(b)
  {
    if !IsUuid(userId) then Err(InvalidUuid(userId))
    else
      var matches := SearchMatches(s, query, userId);
      var top := TopDesc(matches, AccountCreated, SearchLimit);
      Ok(top)
  }

  // ---------------------------------------------------------- company info

  /** `getCompanyInfoByWebsite`: the first stored record for the website, if any. */
  function GetCompanyInfoByWebsite(s: Store, website: string): (r: Option<CompanyInfo>)
    ensures r.None? <==> website !in InfoWebsites(s)
    ensures r.Some? ==> r.value in s.companyInfos && r.value.website == website
  {
    FirstWhere(s.companyInfos, (i: CompanyInfo) => i.website == website)
  }

  /** `saveCompanyInfo`'s arguments. */
  datatype InfoFields = InfoFields(website: string, name: string, description: string, industry: string,
                                   products: string, uniqueFeatures: string)

  /** The record's descriptive columns hold the given fields. */
  predicate Describes(i: CompanyInfo, f: InfoFields) {
    && i.website == f.website && i.name == f.name && i.description == f.description
    && i.industry == f.industry && i.products == f.products && i.uniqueFeatures == f.uniqueFeatures
  }

  function RewriteInfo(i: CompanyInfo, f: InfoFields, now: Time): CompanyInfo {
    i.(name := f.name, description := f.description, industry := f.industry, products := f.products,
       uniqueFeatures := f.uniqueFeatures, updatedAt := now)
  }

  /** The rows `UPDATE ... WHERE id = $id` touches. */
  function InfoIdIs(id: Id): CompanyInfo -> bool {
    (i: CompanyInfo) => i.id == id
  }

  /**
   * `saveCompanyInfo`: a select-then-write upsert keyed on the website. An existing record is
   * rewritten in place through its id; otherwise a new one is inserted.
   */
  function SaveCompanyInfo(s: Store, f: InfoFields, newId: Id, now: Time): (r: Outcome<CompanyInfo>)
    ensures r.result.Err? ==> r.store == s
    ensures r.store == s.(companyInfos := r.store.companyInfos)
    ensures f.website in InfoWebsites(s) ==>
      var id := GetCompanyInfoByWebsite(s, f.website).value.id;
      && r.result.Ok? && r.result.value.id == id
      && r.result.value in r.store.companyInfos
      && r.result.value == RewriteInfo(r.result.value, f, now)
      && |r.store.companyInfos| == |s.companyInfos|
      && forall i :: 0 <= i < |s.companyInfos| ==>
           r.store.companyInfos[i] ==
             if s.companyInfos[i].id == id then RewriteInfo(s.companyInfos[i], f, now) else s.companyInfos[i]
    ensures f.website !in InfoWebsites(s) ==>
      && (r.result.Ok? <==> newId !in InfoIds(s))
      && (r.result.Ok? ==>
            && Describes(r.result.value, f) && r.result.value.id == newId
            && r.result.value.createdAt == now && r.result.value.updatedAt == now
            && r.store.companyInfos == s.companyInfos + [r.result.value])
  {
    match GetCompanyInfoByWebsite(s, f.website)
    case Some(existing) =>
      var rows := MapWhere(s.companyInfos, InfoIdIs(existing.id), (i: CompanyInfo) => RewriteInfo(i, f, now));
      var target := FirstWhere(s.companyInfos, InfoIdIs(existing.id)).value;
      var k :| 0 <= k < |s.companyInfos| && s.companyInfos[k] == target;
      assert rows[k] == RewriteInfo(target, f, now);
      Outcome(Ok(RewriteInfo(target, f, now)), s.(companyInfos := rows))
    case None =>
      if newId in InfoIds(s) then Fail(DuplicateKey("CompanyInfo_pkey"), s)
      else
        var created := CompanyInfo(newId, f.website, f.name, f.description, f.industry, f.products,
                                   f.uniqueFeatures, now, now);
        Outcome(Ok(created), s.(companyInfos := s.companyInfos + [created]))
  }

  // ----------------------------------------------------------- agent runs

  /** `createAgentRun`'s arguments. */
  datatype NewRun = NewRun(agentId: Id, accountId: Id, chatId: Id, userId: Id, searchType: string)

  /** Every uuid parameter of the insert is a uuid. */
  predicate RunIdsWellFormed(n: NewRun) {
    IsUuid(n.agentId) && IsUuid(n.accountId) && IsUuid(n.chatId) && IsUuid(n.userId)
  }

  /** Every row the new run refers to exists. */
  predicate RunTargetsExist(s: Store, n: NewRun) {
    n.agentId in AgentIds(s) && n.accountId in AccountIds(s) && n.chatId in ChatIds(s) && n.userId in UserIds(s)
  }

  /** `createAgentRun`: inserts a run with status 'active', returning it. */
  function CreateAgentRun(s: Store, n: NewRun, newId: Id, now: Time): (r: Outcome<AgentRun>)
    ensures r.result.Ok? <==> RunIdsWellFormed(n) && newId !in RunIds(s) && RunTargetsExist(s, n)
    ensures r.result.Err? ==> r.store == s
    ensures r.result.Ok? ==>
      var run := r.result.value;
      && run == AgentRun(newId, n.agentId, n.accountId, n.chatId, n.userId, n.searchType, DefaultRunStatus, now, now)
      && r.store == s.(agentRuns := s.agentRuns + [run])
  {
    if !IsUuid(n.agentId) then Fail(InvalidUuid(n.agentId), s)
    else if !IsUuid(n.accountId) then Fail(InvalidUuid(n.accountId), s)
    else if !IsUuid(n.chatId) then Fail(InvalidUuid(n.chatId), s)
    else if !IsUuid(n.userId) then Fail(InvalidUuid(n.userId), s)
    else if newId in RunIds(s) then Fail(DuplicateKey("AgentRun_pkey"), s)
    else if n.agentId !in AgentIds(s) then Fail(MissingReference("AgentRun", "AgentRun_agentId_Agent_id_fk"), s)
    else if n.accountId !in AccountIds(s) then
      Fail(MissingReference("AgentRun", "AgentRun_accountId_Account_id_fk"), s)
    else if n.chatId !in ChatIds(s) then Fail(MissingReference("AgentRun", "AgentRun_chatId_Chat_id_fk"), s)
    else if n.userId !in UserIds(s) then Fail(MissingReference("AgentRun", "AgentRun_userId_User_id_fk"), s)
    else
      var run := AgentRun(newId, n.agentId, n.accountId, n.chatId, n.userId, n.searchType, "active", now, now);
      Outcome(Ok(run), s.(agentRuns := s.agentRuns + [run]))
  }

  function RunCreated(x: AgentRun): int { x.createdAt }

  /** The runs of `WHERE "accountId" = $accountId`, in table order. */
  function RunsOfAccount(s: Store, accountId: Id): seq<AgentRun> {
    Filter(s.agentRuns, (x: AgentRun) => x.accountId == accountId)
  }

  /** The runs of `WHERE "agentId" = $agentId`, in table order. */
  function RunsOfAgent(s: Store, agentId: Id): seq<AgentRun> {
    Filter(s.agentRuns, (x: AgentRun) => x.agentId == agentId)
  }

  /** `getAgentRunsByAccountId`: the account's runs, newest first. */
  function GetAgentRunsByAccountId(s: Store, accountId: Id): (r: Result<seq<AgentRun>, QueryError>)
    ensures r.Err? <==> !IsUuid(accountId)
    ensures r.Ok? ==> SortedDesc(r.value, RunCreated)
    ensures r.Ok? ==> forall x :: x in r.value <==> x in s.agentRuns && x.accountId == accountId
    ensures r.Ok? ==> multiset(r.value) == multiset(RunsOfAccount(s, accountId))
  {
    if !IsUuid(accountId) then Err(InvalidUuid(accountId))
    else
      var selected := RunsOfAccount(s, accountId);
      var sorted := SortDesc(selected, RunCreated);
      SortDescSameRows(selected, RunCreated);
      Ok(sorted)
  }

  /** `getAgentRunsByAgentId`: the agent's runs, newest first. */
  function GetAgentRunsByAgentId(s: Store, agentId: Id): (r: Result<seq<AgentRun>, QueryError>)
    ensures r.Err? <==> !IsUuid(agentId)
    ensures r.Ok? ==> SortedDesc(r.value, RunCreated)
    ensures r.Ok? ==> forall x :: x in r.value <==> x in s.agentRuns && x.agentId == agentId
    ensures r.Ok? ==> multiset(r.value) == multiset(RunsOfAgent(s, agentId))
  {
    if !IsUuid(agentId) then Err(InvalidUuid(agentId))
    else
      var selected := RunsOfAgent(s, agentId);
      var sorted := SortDesc(selected, RunCreated);
      SortDescSameRows(selected, RunCreated);
      Ok(sorted)
  }

  /** `updateAgentRunStatus`: sets status and `updatedAt`, returning the first updated run, if any. */
  function UpdateAgentRunStatus(s: Store, id: Id, status: string, now: Time): (r: Outcome<Option<AgentRun>>)
    ensures r.result.Err? <==> !IsUuid(id)
    ensures r.result.Err? ==> r.store == s
    ensures r.store == s.(agentRuns := r.store.agentRuns)
    ensures |r.store.agentRuns| == |s.agentRuns|
    ensures forall i :: 0 <= i < |s.agentRuns| ==>
      r.store.agentRuns[i] ==
        if r.result.Ok? && s.agentRuns[i].id == id then s.agentRuns[i].(status := status, updatedAt := now)
        else s.agentRuns[i]
    ensures r.result.Ok? ==> (r.result.value.None? <==> forall x :: x in s.agentRuns ==> x.id != id)
    ensures r.result.Ok? && r.result.value.Some? ==>
      r.result.value.value in r.store.agentRuns && r.result.value.value.id == id &&
      r.result.value.value.status == status && r.result.value.value.updatedAt == now
  {
    if !IsUuid(id) then Fail(InvalidUuid(id), s)
    else
      var runs' := MapWhere(s.agentRuns, (x: AgentRun) => x.id == id,
                            (x: AgentRun) => x.(status := status, updatedAt := now));
      match First(Filter(s.agentRuns, (x: AgentRun) => x.id == id))
      case None => Outcome(Ok(None), s.(agentRuns := runs'))
      case Some(x) =>
        assert x in s.agentRuns;
        var i :| 0 <= i < |s.agentRuns| && s.agentRuns[i] == x;
        assert runs'[i] == x.(status := status, updatedAt := now);
        Outcome(Ok(Some(x.(status := status, updatedAt := now))), s.(agentRuns := runs'))
  }
}

=== FILE: query_facts.dfy ===
/**
 * Properties that relate several queries, or a query and the store it works
 * on: reading back what was written, the vote upsert's edge case, and the
 * foreign-key failure of the message cut-off delete.
 */
module QueryFacts {
  import opened Wrappers
  import opened Text
  import opened Tables
  import opened Schema
  import opened Database
  import opened Queries
  import opened Integrity

  /**
   * After a successful `saveCompanyInfo` the website has exactly one record, the one returned;
   * an existing record keeps its id, website and creation time.
   */
  lemma SaveCompanyInfoThenGet(s: Store, f: InfoFields, newId: Id, now: Time)
    requires Valid(s)
    requires SaveCompanyInfo(s, f, newId, now).result.Ok?
    ensures var r := SaveCompanyInfo(s, f, newId, now);
      && Describes(r.result.value, f)
      && GetCompanyInfoByWebsite(r.store, f.website) == Some(r.result.value)
      && (forall i :: i in r.store.companyInfos && i.website == f.website ==> i == r.result.value)
    ensures f.website in InfoWebsites(s) ==>
      var existing := GetCompanyInfoByWebsite(s, f.website).value;
      var saved := SaveCompanyInfo(s, f, newId, now).result.value;
      saved.id == existing.id && saved.website == existing.website && saved.createdAt == existing.createdAt
  {
    var r := SaveCompanyInfo(s, f, newId, now);
    var saved := r.result.value;
    if f.website in InfoWebsites(s) {
      SavedInfoIsRewrite(s, f, newId, now);
    }
    assert Describes(saved, f);
    SavedInfoIsTheOnlyOne(s, f, newId, now, saved);
    var got := GetCompanyInfoByWebsite(r.store, f.website);
    assert got.Some? && got.value.website == f.website;
  }

  /** After a successful save, the record returned is the only one with its website. */
  lemma SavedInfoIsTheOnlyOne(s: Store, f: InfoFields, newId: Id, now: Time, saved: CompanyInfo)
    requires Valid(s)
    requires SaveCompanyInfo(s, f, newId, now).result == Ok(saved) && saved.website == f.website
    ensures var infos := SaveCompanyInfo(s, f, newId, now).store.companyInfos;
      && saved in infos
      && forall i :: i in infos && i.website == f.website ==> i == saved
  {
    var infos := SaveCompanyInfo(s, f, newId, now).store.companyInfos;
    SaveCompanyInfoValid(s, f, newId, now);
    if f.website !in InfoWebsites(s) {
      assert infos[|infos| - 1] == saved;
    }
    assert saved in infos;
    forall i | i in infos && i.website == f.website
      ensures i == saved
    {
      UniqueByIn(infos, InfoWebsite, i, saved);
    }
  }

  /** Saving over an existing website returns that record rewritten in place. */
  lemma SavedInfoIsRewrite(s: Store, f: InfoFields, newId: Id, now: Time)
    requires Valid(s)
    requires f.website in InfoWebsites(s)
    ensures var existing := GetCompanyInfoByWebsite(s, f.website).value;
      SaveCompanyInfo(s, f, newId, now).result == Ok(RewriteInfo(existing, f, now))
  {
    var r := SaveCompanyInfo(s, f, newId, now);
    var infos := r.store.companyInfos;
    var existing := GetCompanyInfoByWebsite(s, f.website).value;
    assert UniqueBy(infos, InfoKey) by {
      SaveCompanyInfoValid(s, f, newId, now);
    }
    var k :| 0 <= k < |s.companyInfos| && s.companyInfos[k] == existing;
    assert infos[k] == RewriteInfo(existing, f, now);
    assert RewriteInfo(existing, f, now) in infos;
    UniqueByIn(infos, InfoKey, r.result.value, RewriteInfo(existing, f, now));
  }

  /** After a successful `updateAccount`, reading the account by id gives the row it returned. */
  lemma UpdateAccountThenGet(s: Store, p: AccountPatch, now: Time)
    requires Valid(s)
    requires UpdateAccount(s, p, now).result.Ok?
    ensures var r := UpdateAccount(s, p, now);
      GetAccountById(r.store, p.id) == Ok(r.result.value)
  {
    var r := UpdateAccount(s, p, now);
    UpdateAccountValid(s, p, now);
    var got := GetAccountById(r.store, p.id).value.value;
    UniqueByIn(r.store.accounts, AccountKey, got, r.result.value.value);
  }

  /** After a successful `createAccount`, reading the new id gives the created row. */
  lemma CreateAccountThenGet(s: Store, a: NewAccount, newId: Id, now: Time)
    requires Valid(s)
    requires IsUuid(newId)
    requires CreateAccount(s, a, newId, now).result.Ok?
    ensures var r := CreateAccount(s, a, newId, now);
      GetAccountById(r.store, newId) == Ok(Some(r.result.value))
  {
    var r := CreateAccount(s, a, newId, now);
    CreateAccountValid(s, a, newId, now);
    var got := GetAccountById(r.store, newId).value.value;
    assert r.result.value in r.store.accounts;
    UniqueByIn(r.store.accounts, AccountKey, got, r.result.value);
  }

  /** After a successful `createAgent`, a partial `updateAgent` of it returns it with only those fields changed. */
  lemma CreateAgentThenUpdate(s: Store, a: NewAgent, newId: Id, now: Time, p: AgentPatch, later: Time)
    requires Valid(s)
    requires IsUuid(newId) && p.id == newId
    requires CreateAgent(s, a, newId, now).result.Ok?
    ensures var c := CreateAgent(s, a, newId, now);
      UpdateAgent(c.store, p, later).result == Ok(Some(PatchAgent(c.result.value, p, later)))
  {
    var c := CreateAgent(s, a, newId, now);
    CreateAgentValid(s, a, newId, now);
    var u := UpdateAgent(c.store, p, later);
    var got := u.result.value.value;
    var i :| 0 <= i < |c.store.agents| && c.store.agents[i] == c.result.value;
    assert u.store.agents[i] == PatchAgent(c.result.value, p, later);
    var j :| 0 <= j < |c.store.agents| && u.store.agents[j] == got && c.store.agents[j].id == newId;
    UniqueByIn(c.store.agents, AgentKey, c.store.agents[j], c.result.value);
  }

  /** With at most ten matches, `searchAccounts` returns every one of them, each once. */
  lemma SearchFindsEveryFewMatch(s: Store, query: string, userId: Id)
    requires IsUuid(userId)
    requires |SearchMatches(s, query, userId)| <= SearchLimit
    ensures multiset(SearchAccounts(s, query, userId).value) == multiset(SearchMatches(s, query, userId))
  {
    var found := multiset(SearchAccounts(s, query, userId).value);
    var all := multiset(SearchMatches(s, query, userId));
    SubMultisetOfSameSize(found, all);
  }

  /** The vote with the given chat and message, if the table holds one. */
  predicate HasVote(votes: seq<Vote>, chatId: Id, messageId: Id) {
    exists v :: v in votes && VoteKey(v) == (chatId, messageId)
  }

  /**
   * `voteMessage` records the vote for (chat, message) exactly when the message had no vote
   * at all or already had one in that chat; every such vote then carries the new direction.
   */
  lemma VoteMessageRecords(s: Store, chatId: Id, messageId: Id, kind: VoteType)
    requires VoteMessage(s, chatId, messageId, kind).result.Ok?
    ensures var r := VoteMessage(s, chatId, messageId, kind);
      && (HasVote(r.store.votes, chatId, messageId) <==>
            !MessageHasVote(s, messageId) || HasVote(s.votes, chatId, messageId))
      && forall v :: v in r.store.votes && VoteKey(v) == (chatId, messageId) ==> v.isUpvoted == (kind == Up)
  {
    if MessageHasVote(s, messageId) {
      VoteUpdatesInPlace(s, chatId, messageId, kind);
    } else {
      VoteInsertsNew(s, chatId, messageId, kind);
    }
  }

  /** On a message that has a vote, `voteMessage` only flips the vote of that chat, if any. */
  lemma VoteUpdatesInPlace(s: Store, chatId: Id, messageId: Id, kind: VoteType)
    requires VoteMessage(s, chatId, messageId, kind).result.Ok? && MessageHasVote(s, messageId)
    ensures var votes := VoteMessage(s, chatId, messageId, kind).store.votes;
      && (HasVote(votes, chatId, messageId) <==> HasVote(s.votes, chatId, messageId))
      && forall v :: v in votes && VoteKey(v) == (chatId, messageId) ==> v.isUpvoted == (kind == Up)
  {
    var before := s.votes;
    var after := VoteMessage(s, chatId, messageId, kind).store.votes;
    assert |after| == |before|;
    forall v | v in after && VoteKey(v) == (chatId, messageId)
      ensures v.isUpvoted == (kind == Up) && HasVote(before, chatId, messageId)
    {
      var i :| 0 <= i < |after| && after[i] == v;
      assert VoteKey(before[i]) == (chatId, messageId);
      assert before[i] in before;
    }
    if HasVote(before, chatId, messageId) {
      var w :| w in before && VoteKey(w) == (chatId, messageId);
      var i :| 0 <= i < |before| && before[i] == w;
      assert VoteKey(after[i]) == (chatId, messageId);
      assert after[i] in after;
    }
  }

  /** On a message without a vote, `voteMessage` appends the one vote for that chat. */
  lemma VoteInsertsNew(s: Store, chatId: Id, messageId: Id, kind: VoteType)
    requires VoteMessage(s, chatId, messageId, kind).result.Ok? && !MessageHasVote(s, messageId)
    ensures var votes := VoteMessage(s, chatId, messageId, kind).store.votes;
      && HasVote(votes, chatId, messageId)
      && forall v :: v in votes && VoteKey(v) == (chatId, messageId) ==> v.isUpvoted == (kind == Up)
  {
    var after := VoteMessage(s, chatId, messageId, kind).store.votes;
    var added := Vote(chatId, messageId, kind == Up);
    assert after == s.votes + [added];
    assert added in after;
    forall v | v in after && VoteKey(v) == (chatId, messageId)
      ensures v.isUpvoted == (kind == Up)
    {
      if v in s.votes {
        assert false;
      }
    }
  }

  /**
   * The edge case of `voteMessage`: when the message's votes are all filed under other chats,
   * the update matches nothing, so the call succeeds and changes nothing.
   */
  lemma VoteFiledElsewhereIsIgnored(s: Store, chatId: Id, messageId: Id, kind: VoteType)
    requires IsUuid(chatId) && IsUuid(messageId)
    requires MessageHasVote(s, messageId)
    requires !HasVote(s.votes, chatId, messageId)
    ensures VoteMessage(s, chatId, messageId, kind) == Outcome(Ok(()), s)
  {
    var r := VoteMessage(s, chatId, messageId, kind);
    assert forall i :: 0 <= i < |s.votes| ==> VoteKey(s.votes[i]) != (chatId, messageId) by {
      forall i | 0 <= i < |s.votes| ensures VoteKey(s.votes[i]) != (chatId, messageId) {
        assert s.votes[i] in s.votes;
      }
    }
    assert r.store.votes == s.votes;
  }

  /**
   * In a consistent store, a `deleteChatById` that succeeds leaves nothing of the chat: no
   * messages, votes or agent runs; success or failure, the store stays consistent.
   */
  lemma DeleteChatByIdClears(s: Store, id: Id)
    requires Valid(s)
    requires IsUuid(id)
    ensures var r := DeleteChatById(s, id);
      && Valid(r.store)
      && (r.result.Ok? ==>
            && id !in ChatIds(r.store)
            && (forall m :: m in r.store.messages ==> m.chatId != id)
            && (forall v :: v in r.store.votes ==> v.chatId != id)
            && (forall x :: x in r.store.agentRuns ==> x.chatId != id))
  {
    DeleteChatByIdValid(s, id);
  }

  /**
   * The message cut-off delete as written refuses to run when any doomed message has a vote,
   * and leaves the store as it was; the corrected deletion removes both.
   */
  lemma VotedMessageBlocksCutOff(s: Store, chatId: Id, timestamp: Time, m: Message, v: Vote)
    requires IsUuid(chatId)
    requires m in s.messages && m.chatId == chatId && m.createdAt >= timestamp
    requires v in s.votes && v.messageId == m.id
    ensures DeleteMessagesByChatIdAfterTimestamp(s, chatId, timestamp) ==
            Outcome(Err(StillReferenced("Message", "Vote_messageId_Message_id_fk", "Vote")), s)
    ensures var r := DeleteMessagesWithVotesAfterTimestamp(s, chatId, timestamp);
      r.result.Ok? && m !in r.store.messages && v !in r.store.votes
  {
    assert m in Filter(s.messages, MessagesFrom(chatId, timestamp));
    assert v.messageId in Keys(Filter(s.messages, MessagesFrom(chatId, timestamp)), MessageKey);
  }

  /** A consistent store with one user, chat, message and vote on that message. */
  function VotedChat(userId: Id, chatId: Id, messageId: Id, at: Time): Store {
    Store([User(userId, "", None)], [Chat(chatId, at, "", userId, Private)],
          [Message(messageId, chatId, "user", "", at)], [Vote(chatId, messageId, true)],
          [], [], [], [], [], [], [])
  }

  /**
   * The smallest instance of the failure: in a consistent store holding one voted message,
   * deleting the chat's messages from the message's own timestamp fails as written, while
   * the corrected deletion succeeds and keeps the store consistent.
   */
  lemma CutOffFailsOnVotedChat(userId: Id, chatId: Id, messageId: Id, at: Time)
    requires IsUuid(chatId)
    ensures Valid(VotedChat(userId, chatId, messageId, at))
    ensures DeleteMessagesByChatIdAfterTimestamp(VotedChat(userId, chatId, messageId, at), chatId, at).result.Err?
    ensures var r := DeleteMessagesWithVotesAfterTimestamp(VotedChat(userId, chatId, messageId, at), chatId, at);
      r.result.Ok? && r.store.messages == [] && r.store.votes == [] && Valid(r.store)
  {
    var s := VotedChat(userId, chatId, messageId, at);
    assert UserKey(s.users[0]) in UserIds(s);
    assert ChatKey(s.chats[0]) in ChatIds(s);
    assert MessageKey(s.messages[0]) in MessageIds(s);
    VotedMessageBlocksCutOff(s, chatId, at, s.messages[0], s.votes[0]);
    DeleteMessagesWithVotesAfterTimestampValid(s, chatId, at);
  }
}

=== FILE: schema.dfy ===
/**
 * The relational schema as immutable records: one datatype per table, the
 * store holding every table as a sequence of rows in physical order, the
 * column defaults, and the integrity invariant the database enforces
 * (primary and unique keys, foreign keys that resolve).
 */
module Schema {
  import opened Wrappers
  import opened Tables

  /** A uuid column's value, as the text the application passes around. */
  type Id = string

  /** A timestamp column's value, in milliseconds since the epoch (the resolution of `Date`). */
  type Time = int

  datatype User = User(id: Id, email: string, password: Option<string>)

  datatype Visibility = Public | Private

  datatype Chat = Chat(id: Id, createdAt: Time, title: string, userId: Id, visibility: Visibility)

  /** `content` is a json column; its structure plays no part in the queries, so it is kept as text. */
  datatype Message = Message(id: Id, chatId: Id, role: string, content: string, createdAt: Time)

  datatype Vote = Vote(chatId: Id, messageId: Id, isUpvoted: bool)

  datatype DocumentKind = TextDocument | CodeDocument | SpreadsheetDocument

  /** One version of a document: versions share `id` and differ in `createdAt`. */
  datatype Document = Document(id: Id, createdAt: Time, title: string, content: Option<string>,
                               kind: DocumentKind, userId: Id)

  datatype Suggestion = Suggestion(id: Id, documentId: Id, documentCreatedAt: Time, originalText: string,
                                   suggestedText: string, description: Option<string>, isResolved: bool,
                                   userId: Id, createdAt: Time)

  datatype Company = Company(id: Id, name: string, description: string, useCase: string, userId: Id,
                             createdAt: Time, updatedAt: Time)

  datatype Agent = Agent(id: Id, name: string, description: Option<string>, instructions: string,
                         isActive: bool, searchType: string, userId: Id, createdAt: Time, updatedAt: Time)

  datatype Account = Account(id: Id, name: string, website: string, industry: Option<string>,
                             description: Option<string>, logo: Option<string>, userId: Id,
                             createdAt: Time, updatedAt: Time)

  datatype AgentRun = AgentRun(id: Id, agentId: Id, accountId: Id, chatId: Id, userId: Id,
                               searchType: string, status: string, createdAt: Time, updatedAt: Time)

  datatype CompanyInfo = CompanyInfo(id: Id, website: string, name: string, description: string,
                                     industry: string, products: string, uniqueFeatures: string,
                                     createdAt: Time, updatedAt: Time)

  /** The whole database: every table's rows in physical order. */
  datatype Store = Store(users: seq<User>, chats: seq<Chat>, messages: seq<Message>, votes: seq<Vote>,
                         documents: seq<Document>, suggestions: seq<Suggestion>, companies: seq<Company>,
                         agents: seq<Agent>, accounts: seq<Account>, agentRuns: seq<AgentRun>,
                         companyInfos: seq<CompanyInfo>)

  const EmptyStore := Store([], [], [], [], [], [], [], [], [], [], [])

  // Column defaults.
  const DefaultVisibility := Private
  const DefaultDocumentKind := TextDocument
  const DefaultSuggestionResolved := false
  const DefaultAgentIsActive := true
  const DefaultAgentSearchType := "web-search"
  const DefaultRunStatus := "active"

  // Primary keys (and the one UNIQUE column) as functions of a row.
  function UserKey(u: User): Id { u.id }
  function ChatKey(c: Chat): Id { c.id }
  function MessageKey(m: Message): Id { m.id }
  function VoteKey(v: Vote): (Id, Id) { (v.chatId, v.messageId) }
  function DocumentKey(d: Document): (Id, Time) { (d.id, d.createdAt) }
  function SuggestionKey(g: Suggestion): Id { g.id }
  function CompanyKey(c: Company): Id { c.id }
  function AgentKey(a: Agent): Id { a.id }
  function AccountKey(a: Account): Id { a.id }
  function RunKey(r: AgentRun): Id { r.id }
  function InfoKey(i: CompanyInfo): Id { i.id }
  function InfoWebsite(i: CompanyInfo): string { i.website }

  /** The document version a suggestion refers to. */
  function SuggestionDocument(g: Suggestion): (Id, Time) { (g.documentId, g.documentCreatedAt) }

  function UserIds(s: Store): set<Id> { Keys(s.users, UserKey) }
  function ChatIds(s: Store): set<Id> { Keys(s.chats, ChatKey) }
  function MessageIds(s: Store): set<Id> { Keys(s.messages, MessageKey) }
  function DocumentKeys(s: Store): set<(Id, Time)> { Keys(s.documents, DocumentKey) }
  function AgentIds(s: Store): set<Id> { Keys(s.agents, AgentKey) }
  function AccountIds(s: Store): set<Id> { Keys(s.accounts, AccountKey) }
  function RunIds(s: Store): set<Id> { Keys(s.agentRuns, RunKey) }
  function InfoIds(s: Store): set<Id> { Keys(s.companyInfos, InfoKey) }
  function InfoWebsites(s: Store): set<string> { Keys(s.companyInfos, InfoWebsite) }

  /** Every primary key, and CompanyInfo's unique website, holds. */
  ghost predicate KeysUnique(s: Store) {
    && UniqueBy(s.users, UserKey)
    && UniqueBy(s.chats, ChatKey)
    && UniqueBy(s.messages, MessageKey)
    && UniqueBy(s.votes, VoteKey)
    && UniqueBy(s.documents, DocumentKey)
    && UniqueBy(s.suggestions, SuggestionKey)
    && UniqueBy(s.companies, CompanyKey)
    && UniqueBy(s.agents, AgentKey)
    && UniqueBy(s.accounts, AccountKey)
    && UniqueBy(s.agentRuns, RunKey)
    && UniqueBy(s.companyInfos, InfoKey)
    && UniqueBy(s.companyInfos, InfoWebsite)
  }

  ghost predicate ChatsResolve(s: Store) {
    forall c :: c in s.chats ==> c.userId in UserIds(s)
  }

  ghost predicate MessagesResolve(s: Store) {
    forall m :: m in s.messages ==> m.chatId in ChatIds(s)
  }

  ghost predicate VotesResolve(s: Store) {
    forall v :: v in s.votes ==> v.chatId in ChatIds(s) && v.messageId in MessageIds(s)
  }

  ghost predicate DocumentsResolve(s: Store) {
    forall d :: d in s.documents ==> d.userId in UserIds(s)
  }

  ghost predicate SuggestionsResolve(s: Store) {
    forall g :: g in s.suggestions ==> SuggestionDocument(g) in DocumentKeys(s) && g.userId in UserIds(s)
  }

  ghost predicate CompaniesResolve(s: Store) {
    forall c :: c in s.companies ==> c.userId in UserIds(s)
  }

  ghost predicate AgentsResolve(s: Store) {
    forall a :: a in s.agents ==> a.userId in UserIds(s)
  }

  ghost predicate AccountsResolve(s: Store) {
    forall a :: a in s.accounts ==> a.userId in UserIds(s)
  }

  ghost predicate RunsResolve(s: Store) {
    forall r :: r in s.agentRuns ==>
      && r.agentId in AgentIds(s) && r.accountId in AccountIds(s)
      && r.chatId in ChatIds(s) && r.userId in UserIds(s)
  }

  /** Every foreign key names an existing row. */
  ghost predicate ReferencesResolve(s: Store) {
    && ChatsResolve(s) && MessagesResolve(s) && VotesResolve(s) && DocumentsResolve(s)
    && SuggestionsResolve(s) && CompaniesResolve(s) && AgentsResolve(s) && AccountsResolve(s)
    && RunsResolve(s)
  }

  /** The integrity the database maintains between statements. */
  ghost predicate Valid(s: Store) {
    KeysUnique(s) && ReferencesResolve(s)
  }
}

=== FILE: tables.dfy ===
/**
 * Generic operations on a table held as a sequence of rows in physical order:
 * the WHERE filter, the UPDATE of selected rows, ORDER BY ... DESC and LIMIT,
 * and the key-uniqueness facts the integrity invariant is built from.
 */
module Tables {
  import opened Wrappers

  /** The complement of a row predicate. */
  function Not<T>(p: T -> bool): T -> bool {
    x => !p(x)
  }

  /** `SELECT * WHERE keep`, keeping the physical order. */
  function Filter<T>(t: seq<T>, keep: T -> bool): (r: seq<T>)
    ensures |r| <= |t|
    ensures forall x :: x in r ==> x in t && keep(x)
    ensures forall x :: x in t && keep(x) ==> x in r
    decreases |t|
  {
    if |t| == 0 then []
    else (if keep(t[0]) then [t[0]] else []) + Filter(t[1..], keep)
  }

  /** A filter that rejects no row returns the table itself. */
  lemma {:induction false} FilterKeepsAll<T>(t: seq<T>, keep: T -> bool)
    requires forall x :: x in t ==> keep(x)
    ensures Filter(t, keep) == t
    decreases |t|
  {
    if |t| > 0 {
      assert forall x :: x in t[1..] ==> x in t;
      FilterKeepsAll(t[1..], keep);
      assert t == [t[0]] + t[1..];
    }
  }

  /** The first row, as `const [row] = await select...` reads it. */
  function First<T>(t: seq<T>): (r: Option<T>)
    ensures r.None? <==> |t| == 0
    ensures r.Some? ==> r.value == t[0]
  {
    if |t| == 0 then None else Some(t[0])
  }

  /** `SELECT ... WHERE keep LIMIT 1`: the first row that satisfies the condition, if any. */
  function FirstWhere<T>(t: seq<T>, keep: T -> bool): (r: Option<T>)
    ensures r.None? <==> forall x :: x in t ==> !keep(x)
    ensures r.Some? ==> r.value in t && keep(r.value)
    decreases |t|
  {
    if |t| == 0 then None
    else if keep(t[0]) then Some(t[0])
    else
      assert forall x :: x in t ==> x == t[0] || x in t[1..];
      FirstWhere(t[1..], keep)
  }

  /** `UPDATE ... SET f WHERE sel`: every selected row is replaced by `f` of it, in place. */
  function MapWhere<T>(t: seq<T>, sel: T -> bool, f: T -> T): (r: seq<T>)
    ensures |r| == |t|
    ensures forall i :: 0 <= i < |t| ==> r[i] == if sel(t[i]) then f(t[i]) else t[i]
  {
    seq(|t|, i requires 0 <= i < |t| => if sel(t[i]) then f(t[i]) else t[i])
  }

  /** The set of values a column takes in a table. */
  function Keys<T(==), K>(t: seq<T>, key: T -> K): set<K> {
    set x | x in t :: key(x)
  }

  /** No two rows of `t` share a value of `key`: a primary-key or UNIQUE constraint. */
  ghost predicate UniqueBy<T, K>(t: seq<T>, key: T -> K) {
    forall i, j :: 0 <= i < j < |t| ==> key(t[i]) != key(t[j])
  }

  /** Under a uniqueness constraint a key value identifies at most one row. */
  lemma UniqueByIn<T, K>(t: seq<T>, key: T -> K, x: T, y: T)
    requires UniqueBy(t, key)
    requires x in t && y in t && key(x) == key(y)
    ensures x == y
  {
    var i :| 0 <= i < |t| && t[i] == x;
    var j :| 0 <= j < |t| && t[j] == y;
    assert !(i < j) && !(j < i);
  }

  /** Deleting rows never breaks a uniqueness constraint. */
  lemma {:induction false} FilterUnique<T, K>(t: seq<T>, keep: T -> bool, key: T -> K)
    requires UniqueBy(t, key)
    ensures UniqueBy(Filter(t, keep), key)
    decreases |t|
  {
    if |t| > 0 {
      FilterUnique(t[1..], keep, key);
      var f := Filter(t[1..], keep);
      if keep(t[0]) {
        var r := [t[0]] + f;
        assert Filter(t, keep) == r;
        forall i, j | 0 <= i < j < |r|
          ensures key(r[i]) != key(r[j])
        {
          if i == 0 {
            assert r[j] == f[j - 1];
            assert r[j] in t[1..];
            var k :| 0 <= k < |t[1..]| && t[1..][k] == r[j];
            assert t[k + 1] == r[j];
          } else {
            assert r[i] == f[i - 1] && r[j] == f[j - 1];
          }
        }
      }
    }
  }

  /** Appending a row whose key is new keeps the key unique. */
  lemma AppendUnique<T, K>(t: seq<T>, x: T, key: T -> K)
    requires UniqueBy(t, key)
    requires key(x) !in Keys(t, key)
    ensures UniqueBy(t + [x], key)
    ensures Keys(t + [x], key) == Keys(t, key) + {key(x)}
  {
    var r := t + [x];
    forall i, j | 0 <= i < j < |r|
      ensures key(r[i]) != key(r[j])
    {
      if j == |t| {
        assert r[i] in t;
      }
    }
    assert forall y :: y in r <==> y in t || y == x;
  }

  /** An update that leaves the key column alone keeps its set of values and its uniqueness. */
  lemma MapWhereKeepsKeys<T, K>(t: seq<T>, sel: T -> bool, f: T -> T, key: T -> K)
    requires forall x :: x in t && sel(x) ==> key(f(x)) == key(x)
    ensures Keys(MapWhere(t, sel, f), key) == Keys(t, key)
    ensures UniqueBy(t, key) ==> UniqueBy(MapWhere(t, sel, f), key)
  {
    var r := MapWhere(t, sel, f);
    assert forall i :: 0 <= i < |t| ==> key(r[i]) == key(t[i]) by {
      forall i | 0 <= i < |t| ensures key(r[i]) == key(t[i]) {
        assert t[i] in t;
      }
    }
    forall k | k in Keys(r, key) ensures k in Keys(t, key) {
      var y :| y in r && key(y) == k;
      var i :| 0 <= i < |r| && r[i] == y;
      assert t[i] in t;
    }
    forall k | k in Keys(t, key) ensures k in Keys(r, key) {
      var y :| y in t && key(y) == k;
      var i :| 0 <= i < |t| && t[i] == y;
      assert r[i] in r;
    }
  }

  /** A key value that survives the table but none of the rows `p` deletes survives the deletion. */
  lemma KeyNotGone<T, K>(t: seq<T>, p: T -> bool, key: T -> K, k: K)
    requires k in Keys(t, key)
    requires k !in Keys(Filter(t, p), key)
    ensures k in Keys(Filter(t, Not(p)), key)
  {
    KeyKept(t, p, Not(p), key, k);
  }

  /** As `KeyNotGone`, for a deletion whose kept rows are given by `q`, the complement of `p`. */
  lemma KeyKept<T, K>(t: seq<T>, p: T -> bool, q: T -> bool, key: T -> K, k: K)
    requires forall x :: x in t ==> (q(x) <==> !p(x))
    requires k in Keys(t, key)
    requires k !in Keys(Filter(t, p), key)
    ensures k in Keys(Filter(t, q), key)
  {
    var x :| x in t && key(x) == k;
    assert x in Filter(t, q);
  }

  /** Rows in non-increasing order of `key`. */
  ghost predicate SortedDesc<T>(t: seq<T>, key: T -> int) {
    forall i, j :: 0 <= i < j < |t| ==> key(t[i]) >= key(t[j])
  }

  /** Inserts `x` into a table already in descending order, before the first row it is not below. */
  function InsertDesc<T>(x: T, t: seq<T>, key: T -> int): (r: seq<T>)
    ensures multiset(r) == multiset(t) + multiset{x}
    ensures |r| == |t| + 1
    decreases |t|
  {
    if |t| == 0 || key(t[0]) <= key(x) then [x] + t
    else
      assert t == [t[0]] + t[1..];
      var r := [t[0]] + InsertDesc(x, t[1..], key);
      assert multiset(r) == multiset{t[0]} + multiset(InsertDesc(x, t[1..], key));
      r
  }

  /** Inserting into a descending table keeps it descending. */
  lemma {:induction false} InsertDescSorted<T>(x: T, t: seq<T>, key: T -> int)
    requires SortedDesc(t, key)
    ensures SortedDesc(InsertDesc(x, t, key), key)
    decreases |t|
  {
    if |t| == 0 || key(t[0]) <= key(x) {
      var r := [x] + t;
      forall i, j | 0 <= i < j < |r|
        ensures key(r[i]) >= key(r[j])
      {
        assert r[j] == t[j - 1];
        if i > 0 {
          assert r[i] == t[i - 1];
        } else {
          assert key(t[0]) >= key(t[j - 1]);
        }
      }
    } else {
      var rest := InsertDesc(x, t[1..], key);
      InsertDescSorted(x, t[1..], key);
      assert t == [t[0]] + t[1..];
      var r := [t[0]] + rest;
      forall j | 0 <= j < |rest|
        ensures key(t[0]) >= key(rest[j])
      {
        assert rest[j] in multiset(t[1..]) + multiset{x};
        if rest[j] != x {
          var k :| 0 <= k < |t[1..]| && t[1..][k] == rest[j];
          assert t[k + 1] == rest[j];
        }
      }
      forall i, j | 0 <= i < j < |r|
        ensures key(r[i]) >= key(r[j])
      {
        assert r[j] == rest[j - 1];
        if i > 0 {
          assert r[i] == rest[i - 1];
        }
      }
    }
  }

  /** `ORDER BY key DESC`: a permutation of the rows in non-increasing key order. */
  function SortDesc<T>(t: seq<T>, key: T -> int): (r: seq<T>)
    ensures multiset(r) == multiset(t)
    ensures SortedDesc(r, key)
    decreases |t|
  {
    if |t| == 0 then []
    else
      assert t == [t[0]] + t[1..];
      InsertDescSorted(t[0], SortDesc(t[1..], key), key);
      InsertDesc(t[0], SortDesc(t[1..], key), key)
  }

  /** Sorting neither adds, drops nor changes a row. */
  lemma SortDescSameRows<T>(t: seq<T>, key: T -> int)
    ensures |SortDesc(t, key)| == |t|
    ensures forall x :: x in SortDesc(t, key) <==> x in t
  {
    var r := SortDesc(t, key);
    assert |r| == |multiset(r)| == |multiset(t)| == |t|;
    assert forall x :: x in r <==> x in multiset(r);
    assert forall x :: x in t <==> x in multiset(t);
  }

  /** `LIMIT n` */
  function Take<T>(t: seq<T>, n: nat): (r: seq<T>)
    ensures |r| <= n && |r| <= |t|
    ensures |t| <= n ==> r == t
    ensures r == t[..|r|]
  {
    if |t| <= n then t else t[..n]
  }

  /** A sub-multiset as large as the whole is the whole. */
  lemma SubMultisetOfSameSize<T>(a: multiset<T>, b: multiset<T>)
    requires a <= b && |a| == |b|
    ensures a == b
  {
    assert b == a + (b - a);
  }

  /** `LIMIT n` keeps some of the rows, each at most as often as the table has it. */
  lemma TakeSubMultiset<T>(t: seq<T>, n: nat)
    ensures multiset(Take(t, n)) <= multiset(t)
  {
    var r := Take(t, n);
    assert t == r + t[|r|..];
    assert multiset(t) == multiset(r) + multiset(t[|r|..]);
  }

  /** Under LIMIT after ORDER BY DESC no row left out ranks above a row kept. */
  lemma TakeSortedIsTop<T>(t: seq<T>, key: T -> int, n: nat)
    requires SortedDesc(t, key)
    ensures forall x, y :: x in t && x !in Take(t, n) && y in Take(t, n) ==> key(y) >= key(x)
  {
    var r := Take(t, n);
    forall x, y | x in t && x !in r && y in r
      ensures key(y) >= key(x)
    {
      var j :| 0 <= j < |t| && t[j] == x;
      var i :| 0 <= i < |r| && r[i] == y;
      assert t[i] == y;
    }
  }

  /**
   * Under LIMIT after ORDER BY DESC a copy left out never ranks above a row kept, even when
   * the table holds the same row more than once.
   */
  lemma {:induction false} TakeSortedKeepsTopCopies<T>(t: seq<T>, key: T -> int, n: nat)
    requires SortedDesc(t, key)
    ensures forall x, y :: multiset(Take(t, n))[x] < multiset(t)[x] && y in Take(t, n) ==> key(y) >= key(x)
  {
    var r := Take(t, n);
    var rest := t[|r|..];
    assert t == r + rest;
    assert multiset(t) == multiset(r) + multiset(rest);
    forall x, y | multiset(r)[x] < multiset(t)[x] && y in r
      ensures key(y) >= key(x)
    {
      assert x in multiset(rest);
      var j :| 0 <= j < |rest| && rest[j] == x;
      var i :| 0 <= i < |r| && r[i] == y;
      assert t[i] == y && t[|r| + j] == x;
    }
  }

  /**
   * `ORDER BY key DESC LIMIT n`: the first `n` rows in descending order, each row at most
   * as often as the table has it, and none left out above one kept.
   */
  function TopDesc<T>(t: seq<T>, key: T -> int, n: nat): (r: seq<T>)
    ensures |r| == if |t| < n then |t| else n
    ensures multiset(r) <= multiset(t)
    ensures forall x :: x in r ==> x in t
    ensures SortedDesc(r, key)
    ensures forall x, y :: x in t && x !in r && y in r ==> key(y) >= key(x)
    ensures forall x, y :: x in t && multiset(r)[x] < multiset(t)[x] && y in r ==> key(y) >= key(x)
  {
    SortDescSameRows(t, key);
    TopOfSorted(t, key, n);
    Take(SortDesc(t, key), n)
  }

  /** Carries the facts about a prefix of the sorted table back to the table itself. */
  lemma TopOfSorted<T>(t: seq<T>, key: T -> int, n: nat)
    ensures var r := Take(SortDesc(t, key), n);
      && multiset(r) <= multiset(t)
      && (forall x :: x in r ==> x in t)
      && (forall x, y :: x in t && x !in r && y in r ==> key(y) >= key(x))
      && (forall x, y :: x in t && multiset(r)[x] < multiset(t)[x] && y in r ==> key(y) >= key(x))
  {
    var sorted := SortDesc(t, key);
    var r := Take(sorted, n);
    assert multiset(sorted) == multiset(t);
    TakeSubMultiset(sorted, n);
    TakeSortedKeepsTopCopies(sorted, key, n);
    forall x, y | x in t && multiset(r)[x] < multiset(t)[x] && y in r
      ensures key(y) >= key(x)
    {
      assert multiset(sorted)[x] == multiset(t)[x];
    }
    forall x, y | x in t && x !in r && y in r
      ensures key(y) >= key(x)
    {
      assert x in multiset(t);
      assert multiset(r)[x] == 0 < multiset(t)[x];
    }
    forall x | x in r
      ensures x in t
    {
      assert x in multiset(r);
    }
  }

  /** `ORDER BY key DESC LIMIT 1`: a row of greatest key, or `None` for an empty table. */
  function Latest<T>(t: seq<T>, key: T -> int): (r: Option<T>)
    ensures r.None? <==> |t| == 0
    ensures r.Some? ==> r.value in t && forall x :: x in t ==> key(x) <= key(r.value)
  {
    if |t| == 0 then None
    else
      SortedHeadIsGreatest(t, key);
      Some(SortDesc(t, key)[0])
  }

  /** The first row of `ORDER BY key DESC` is a row of the table, and no row ranks above it. */
  lemma SortedHeadIsGreatest<T>(t: seq<T>, key: T -> int)
    requires |t| > 0
    ensures |SortDesc(t, key)| == |t|
    ensures var head := SortDesc(t, key)[0];
      head in t && forall x :: x in t ==> key(x) <= key(head)
  {
    var sorted := SortDesc(t, key);
    SortDescSameRows(t, key);
    assert sorted[0] in sorted;
    forall x | x in t
      ensures key(x) <= key(sorted[0])
    {
      assert x in sorted;
      var j :| 0 <= j < |sorted| && sorted[j] == x;
    }
  }
}

=== FILE: text.dfy ===
/** String predicates used by the validators, the account search and the JSON extraction. */
module Text {
  import opened Wrappers

  /** `s.startsWith(prefix)` */
  predicate StartsWith(s: string, prefix: string) {
    |prefix| <= |s| && s[..|prefix|] == prefix
  }

  /** `hay.includes(needle)`: some position of `hay` starts a copy of `needle`. */
  predicate Contains(hay: string, needle: string)
    decreases |hay|
  {
    StartsWith(hay, needle) || (|hay| > 0 && Contains(hay[1..], needle))
  }

  /** `needle` occurs in `hay` starting at offset `i`. */
  predicate OccursAt(hay: string, needle: string, i: int) {
    0 <= i && i + |needle| <= |hay| && hay[i..i + |needle|] == needle
  }

  /** The recursive definition of `Contains` finds exactly the occurrences at some offset. */
  lemma {:induction false} ContainsIsOccurrence(hay: string, needle: string)
    ensures Contains(hay, needle) <==> exists i :: OccursAt(hay, needle, i)
    decreases |hay|
  {
    if Contains(hay, needle) {
      if StartsWith(hay, needle) {
        assert OccursAt(hay, needle, 0);
      } else {
        ContainsIsOccurrence(hay[1..], needle);
        var i :| OccursAt(hay[1..], needle, i);
        assert hay[i + 1..i + 1 + |needle|] == hay[1..][i..i + |needle|];
        assert OccursAt(hay, needle, i + 1);
      }
    } else if exists i :: OccursAt(hay, needle, i) {
      var i :| OccursAt(hay, needle, i);
      if i > 0 {
        assert hay[1..][i - 1..i - 1 + |needle|] == hay[i..i + |needle|];
        assert OccursAt(hay[1..], needle, i - 1);
        ContainsIsOccurrence(hay[1..], needle);
      }
    }
  }

  /** The empty string occurs in every string, so `includes("")` is always true. */
  lemma ContainsEmpty(hay: string)
    ensures Contains(hay, "")
  {
    assert StartsWith(hay, "");
  }

  /** ASCII lower-casing, the part of a case-insensitive comparison the model keeps. */
  function LowerChar(c: char): (r: char)
    ensures 'A' <= c <= 'Z' ==> r as int == c as int + 32
    ensures !('A' <= c <= 'Z') ==> r == c
  {
    if 'A' <= c <= 'Z' then (c as int + 32) as char else c
  }

  function Lower(s: string): (r: string)
    ensures |r| == |s|
    ensures forall i :: 0 <= i < |s| ==> r[i] == LowerChar(s[i])
  {
    seq(|s|, i requires 0 <= i < |s| => LowerChar(s[i]))
  }

  /** `ILIKE '%needle%'` without wildcards: a case-insensitive substring test. */
  predicate ContainsIgnoringCase(hay: string, needle: string) {
    Contains(Lower(hay), Lower(needle))
  }

  predicate IsHexDigit(c: char) {
    '0' <= c <= '9' || 'a' <= c <= 'f' || 'A' <= c <= 'F'
  }

  /** Canonical textual UUID: 8-4-4-4-12 hexadecimal digits separated by hyphens. */
  predicate IsUuid(s: string) {
    && |s| == 36
    && forall i :: 0 <= i < 36 ==>
         if i == 8 || i == 13 || i == 18 || i == 23 then s[i] == '-' else IsHexDigit(s[i])
  }

  /** Index of the first occurrence of `c` at or after `from`. */
  function IndexOfFrom(s: string, c: char, from: nat): (r: Option<nat>)
    requires from <= |s|
    ensures r.Some? ==> from <= r.value < |s| && s[r.value] == c
    ensures r.Some? ==> forall k :: from <= k < r.value ==> s[k] != c
    ensures r.None? ==> forall k :: from <= k < |s| ==> s[k] != c
    decreases |s| - from
  {
    if from == |s| then None
    else if s[from] == c then Some(from)
    else IndexOfFrom(s, c, from + 1)
  }

  /** `s.indexOf(c)`, with `None` for -1. */
  function IndexOf(s: string, c: char): (r: Option<nat>)
    ensures r.Some? ==> r.value < |s| && s[r.value] == c && forall k :: 0 <= k < r.value ==> s[k] != c
    ensures r.None? ==> forall k :: 0 <= k < |s| ==> s[k] != c
  {
    IndexOfFrom(s, c, 0)
  }

  /** `s.lastIndexOf(c)`, with `None` for -1. */
  function LastIndexOf(s: string, c: char): (r: Option<nat>)
    ensures r.Some? ==> r.value < |s| && s[r.value] == c && forall k :: r.value < k < |s| ==> s[k] != c
    ensures r.None? ==> forall k :: 0 <= k < |s| ==> s[k] != c
  {
    if |s| == 0 then None
    else if s[|s| - 1] == c then Some(|s| - 1)
    else LastIndexOf(s[..|s| - 1], c)
  }
}

=== FILE: validation.dfy ===
/**
 * The parts of zod the request schemas use: string fields with checks, optional
 * fields, booleans with a default, object bodies, and `.format()`. A string
 * schema runs every one of its checks and reports each failure in declaration
 * order; a value of the wrong type stops at the type issue.
 */
module Validation {
  import opened Wrappers
  import opened Text
  import opened Http

  /** zod's name for the type of a value, as it appears in "Expected string, received number". */
  function TypeName(v: JsonValue): string {
    match v
    case JString(_) => "string"
    case JNumber(_) => "number"
    case JBool(_) => "boolean"
    case JNull => "null"
    case JArray(_) => "array"
    case JObject(_) => "object"
  }

  /** The issue for a value of the wrong type; a missing value is "Required". */
  function TypeIssue(expected: string, v: Option<JsonValue>): string {
    match v
    case None => "Required"
    case Some(x) => "Expected " + expected + ", received " + TypeName(x)
  }

  /** One check of a string schema: `.min`, `.url`, `.uuid` or `.refine`, with its message. */
  datatype Check = Check(holds: string -> bool, message: string)

  /** The messages of the checks `s` fails, in declaration order. */
  function Failures(s: string, checks: seq<Check>): (r: seq<string>)
    ensures |r| <= |checks|
    ensures |r| == 0 <==> forall i :: 0 <= i < |checks| ==> checks[i].holds(s)
    ensures |checks| > 0 && !checks[0].holds(s) ==> |r| > 0 && r[0] == checks[0].message
    ensures forall m :: m in r ==> exists i :: 0 <= i < |checks| && !checks[i].holds(s) && checks[i].message == m
  {
    if |checks| == 0 then []
    else
      var rest := Failures(s, checks[1..]);
      assert forall i :: 1 <= i < |checks| ==> checks[i] == checks[1..][i - 1];
      if checks[0].holds(s) then rest else [checks[0].message] + rest
  }

  /** A field's outcome: its parsed value, or its issues (never none). */
  datatype Field<T> = Good(value: T) | Bad(issues: seq<string>)

  /** `z.string()` with checks, as a required field. */
  function StringField(v: Option<JsonValue>, checks: seq<Check>): (r: Field<string>)
    ensures r.Good? <==> v.Some? && v.value.JString? && forall i :: 0 <= i < |checks| ==> checks[i].holds(v.value.str)
    ensures r.Good? ==> r.value == v.value.str
    ensures r.Bad? ==> |r.issues| > 0
    ensures v.None? ==> r == Bad(["Required"])
    ensures v.Some? && !v.value.JString? ==> r == Bad([TypeIssue("string", v)])
  {
    match v
    case Some(JString(s)) =>
      var failed := Failures(s, checks);
      if |failed| == 0 then Good(s) else Bad(failed)
    case _ => Bad([TypeIssue("string", v)])
  }

  /** `z.string()` with checks, then `.optional()`: `undefined` passes, `null` does not. */
  function OptionalStringField(v: Option<JsonValue>, checks: seq<Check>): (r: Field<Option<string>>)
    ensures v.None? ==> r == Good(None)
    ensures v.Some? ==> (r.Good? <==> StringField(v, checks).Good?)
    ensures v.Some? && r.Good? ==> r.value == Some(v.value.str)
    ensures v.Some? && r.Bad? ==> r.issues == StringField(v, checks).issues
  {
    if v.None? then Good(None)
    else
      match StringField(v, checks)
      case Good(s) => Good(Some(s))
      case Bad(issues) => Bad(issues)
  }

  /** `z.string().default(d)`: `undefined` becomes `d`, anything else must be a string. */
  function DefaultStringField(v: Option<JsonValue>, default: string): (r: Field<string>)
    ensures r.Good? <==> v.None? || v.value.JString?
    ensures r.Good? ==> r.value == if v.None? then default else v.value.str
    ensures r.Bad? ==> r.issues == [TypeIssue("string", v)]
  {
    if v.None? then Good(default) else StringField(v, [])
  }

  /** `z.boolean().default(d)`: `undefined` becomes `d`. */
  function BooleanField(v: Option<JsonValue>, default: bool): (r: Field<bool>)
    ensures r.Good? <==> v.None? || v.value.JBool?
    ensures r.Good? ==> r.value == if v.None? then default else v.value.b
    ensures r.Bad? ==> r.issues == [TypeIssue("boolean", v)]
  {
    match v
    case None => Good(default)
    case Some(JBool(b)) => Good(b)
    case Some(_) => Bad([TypeIssue("boolean", v)])
  }

  /** `z.boolean().optional()` */
  function OptionalBooleanField(v: Option<JsonValue>): (r: Field<Option<bool>>)
    ensures r.Good? <==> v.None? || v.value.JBool?
    ensures r.Good? ==> r.value == if v.None? then None else Some(v.value.b)
    ensures r.Bad? ==> r.issues == [TypeIssue("boolean", v)]
  {
    match v
    case None => Good(None)
    case Some(JBool(b)) => Good(Some(b))
    case Some(_) => Bad([TypeIssue("boolean", v)])
  }

  /** The `.format()` entry a field contributes: its issues under its name, if it has any. */
  function IssuesOf<T>(name: string, f: Field<T>): (r: map<string, seq<string>>)
    ensures f.Good? ==> r == map[]
    ensures f.Bad? ==> r == map[name := f.issues]
  {
    if f.Bad? then map[name := f.issues] else map[]
  }

  /** Two named fields' entries, placed in front of entries for other names, stay readable. */
  lemma IssuesOfTwo<A, B>(na: string, a: Field<A>, nb: string, b: Field<B>, rest: map<string, seq<string>>)
    requires na != nb && na !in rest && nb !in rest
    ensures var m := IssuesOf(na, a) + IssuesOf(nb, b) + rest;
      && (na in m <==> a.Bad?) && (a.Bad? ==> m[na] == a.issues)
      && (nb in m <==> b.Bad?) && (b.Bad? ==> m[nb] == b.issues)
  {
  }

  /** A body that is not an object fails at the root, and no field is looked at. */
  function NotAnObject(body: JsonValue): (r: FormattedErrors)
    ensures r.fields == map[] && |r.root| == 1
  {
    FormattedErrors(["Expected object, received " + TypeName(body)], map[])
  }

  /** The field has at least one issue in the formatted errors. */
  predicate HasIssues(e: FormattedErrors, name: string) {
    name in e.fields && |e.fields[name]| > 0
  }

  /**
   * The accounts route's summary of a failed validation: the first issue of the first
   * field in `precedence` that has one, or "Validation failed".
   */
  function Headline(e: FormattedErrors, precedence: seq<string>): (r: string)
    ensures (forall i :: 0 <= i < |precedence| ==> !HasIssues(e, precedence[i])) ==> r == "Validation failed"
    ensures forall i :: 0 <= i < |precedence| && HasIssues(e, precedence[i]) &&
                        (forall j :: 0 <= j < i ==> !HasIssues(e, precedence[j])) ==>
                          r == e.fields[precedence[i]][0]
  {
    if |precedence| == 0 then "Validation failed"
    else if HasIssues(e, precedence[0]) then e.fields[precedence[0]][0]
    else
      assert forall i :: 1 <= i < |precedence| ==> precedence[i] == precedence[1..][i - 1];
      Headline(e, precedence[1..])
  }

  // The checks the route schemas share.

  function MinLength1(message: string): Check {
    Check(s => |s| >= 1, message)
  }

  function UrlCheck(isUrl: string -> bool, message: string): Check {
    Check(isUrl, message)
  }

  function UuidCheck(message: string): Check {
    Check(IsUuid, message)
  }

  predicate HasWebScheme(s: string) {
    StartsWith(s, "http://") || StartsWith(s, "https://")
  }

  /** `s` passes every check. */
  predicate Passes(s: string, checks: seq<Check>) {
    forall i :: 0 <= i < |checks| ==> checks[i].holds(s)
  }

  /** The website checks of both account schemas. */
  function WebsiteChecks(isUrl: string -> bool): (r: seq<Check>)
    ensures |r| == 3 && r[0].message == "Website URL is required"
  {
    [MinLength1("Website URL is required"), UrlCheck(isUrl, "Invalid URL format"),
     Check(HasWebScheme, "URL must start with http:// or https://")]
  }

  /** A website is accepted exactly when it is non-empty, a URL, and http or https. */
  lemma WebsiteAccepted(isUrl: string -> bool, s: string)
    ensures Passes(s, WebsiteChecks(isUrl)) <==> |s| >= 1 && isUrl(s) && HasWebScheme(s)
  {
    var r := WebsiteChecks(isUrl);
    assert r[0].holds(s) <==> |s| >= 1;
    assert r[1].holds(s) <==> isUrl(s);
    assert r[2].holds(s) <==> HasWebScheme(s);
  }
}

=== FILE: wrappers.dfy ===
/** Optional values and results with an error, shared by every module of the model. */
module Wrappers {

  /** A value that may be absent: a JavaScript `undefined`/`null`, or an optional column. */
  datatype Option<+T> = None | Some(value: T)

  /** The result of an operation that may throw: `Err` carries what was thrown. */
  datatype Result<+T, +E> = Ok(value: T) | Err(error: E)
}
